=== FILE: README.md ===
# x-monitor-pro: a Dafny model of the capture and reply core

x-monitor-pro watches X (Twitter) search results and the notification page in
a browser, captures the replies and mentions it finds, deduplicates them and
queues them on a dashboard, from which the operator replies or sends a direct
message using editable templates. This project models the decision logic of
that core in `app.py` as pure Dafny functions and methods, and proves what
each decision guarantees:

- the content-dedup store: content normalisation, the MD5 signature of
  handle and content, the 72-hour window, and pruning to 40,000 entries
  (`normalize.dfy`, `dedupe.dfy`);
- admission of scanned results into the history set and the pending list,
  and the history trim (`admission.dfy`);
- the key of a notification result, and how a status id comes back out of
  that key or out of the stored status URL (`notifkey.dfy`);
- the scoring of cards when replying: notification cards and conversation
  cards, the five-attempt retry loop, and the confidence gate that refuses
  a weak match (`matcher.dfy`, `ranking.dfy`);
- the notification scan: the filter chain, the content candidates with their
  scores and the choice among them, the age text, and user-name extraction
  (`notiffilter.dfy`, `notifcontent.dfy`);
- the reply and DM template lists: sanitising on load, and the add, update
  and delete endpoints (`templates.dfy`);
- task parallelism, batching and the chunked card shuffle (`scheduling.dfy`);
- the `mark_done` and `clear_results` list filters (`results.dfy`).

The shared vocabulary lives in:

- `text.dfy`: the character classes, lower-casing, strip and whitespace
  collapse;
- `items.dfy`: the result record;
- `outcome.dfy`: `Option` and `Result`.

The browser is not modelled. A card on a page becomes a record of what the
code reads from it: status ids, handle, text, whether a reply button is
visible, the time token, and the card's age in whole minutes (an input; the
age parser is modelled separately). MD5 is a parameter. Random choices are
nondeterministic choices within the bounds the code gives them.

Some behaviours of the code that a reader might not expect:

- The history trim keeps some 10,000 keys, not necessarily the newest. It
  slices `list(history_ids)`, and that list is in set order. See
  `Admission.TrimMayDropAnyKey`.
- The dedup store is pruned only when it holds more than 40,000 entries. Below
  that, expired entries stay in the store, but the lookup ignores them.
- Content normalisation keeps punctuation and emoji. Two texts that differ
  only in those marks, such as "Great product 🎉" and "great product!! 🎉🎉",
  go into MD5 as different inputs, so both are admitted unless MD5 happens to
  collide on those two inputs. See `ContentDedupe.PlainTextsDigestApart`.
- Above 40,000 entries the store is pruned before the lookup, and the prune
  evicts the oldest entries whether or not they have expired. A post seen a
  minute ago can be evicted and then admitted again. For that reason
  `Admission.AdmitOne` promises "admitted only if not seen recently" only
  within the cap.

## Model

| member | source | states |
|---|---|---|
| Normalize.NormalizeContent | app.py:791-797 | The normalised content holds no upper-case letter and no link, and it is space-normal: stripped, with single spaces. |
| Normalize.NormalizeContentIdempotent | app.py:791-797 | Normalising normalised content changes nothing. |
| Normalize.NormalizeContentFixed | app.py:791-797 | A text is left unchanged exactly when it is lower-case, space-normal and free of links (both directions). |
| Normalize.PlainTextFixed | app.py:791-797 | Lower-case, space-normal text without `h` or `w` is already normal, so its punctuation and emoji survive normalisation. |
| Normalize.ScrubRemovesPattern | app.py:794-795 | After a link pattern is removed, no match of that pattern is left anywhere in the text. |
| Normalize.ScrubIdentity | app.py:794-795 | Removing a pattern from a text with no match of it changes nothing. |
| Normalize.ScrubKeepsNoToken | app.py:794-795 | Removing one link pattern never creates a match of another. |
| Normalize.ScrubWindow | app.py:794-795 | Every space-free stretch of the scrubbed text occurs in the original text. |
| Normalize.NormalizeHandle | app.py:968-972 | The normalised handle has no upper-case letter and does not start with `@`. |
| Normalize.NormalizeHandleIdempotent | app.py:968-972 | Normalising a normalised handle changes nothing, unless that handle starts with a space. |
| Normalize.NormalizeHandleNotIdempotent | app.py:968-972 | `@ @h` normalises to ` @h`, which normalises again to `h`: the single pass is not idempotent. |
| ContentDedupe.ContentSignature | app.py:800-807 | The signature is empty exactly when the normalised handle or the normalised content is empty; otherwise it is 32 characters long. |
| ContentDedupe.SignatureIgnoresNormalization | app.py:791-807 | Normalising the content before signing does not change the signature. |
| ContentDedupe.SignatureExact | app.py:800-807 | Unless MD5 collides on the two digest inputs, two non-empty signatures are equal exactly when the normalised handles and the normalised contents are equal (both directions). |
| ContentDedupe.PlainTextsDigestApart | app.py:791-807 | Two texts of one author without links or `h`/`w` that differ in anything but case, punctuation included, give different MD5 inputs. |
| ContentDedupe.PlainTextsSignedApart | app.py:791-807 | The same two texts get different signatures, unless MD5 collides on their two inputs. |
| ContentDedupe.Prune | app.py:810-826 | Pruning drops expired entries and then, over the cap, keeps the 40,000 newest: every entry it drops is no newer than any it keeps. |
| ContentDedupe.CheckSignature | app.py:833-844 | A signature is reported as a duplicate only when it was stored within the last 72 hours. If the store is within the cap, this holds in both directions. A new signature is recorded at `now`, and no other entry changes. |
| ContentDedupe.ShouldSkipDuplicate | app.py:829-844 | For the signature of a handle and content: a duplicate only when stored within 72 hours (both directions within the cap). A new signature is recorded at `now` and no other entry changes. A skip or an empty signature adds no entry, and within the cap no entry is lost. Empty content is never skipped. |
| ContentDedupe.RepeatWithinTtl | app.py:829-844 | With the store below the cap, a post with a non-empty signature, checked at a non-zero time and again no more than 72 hours after that, is skipped the second time whenever it was not skipped the first. The first check skips exactly when the post was seen within 72 hours before. (An empty signature is never skipped, and a stored time of 0 reads as never seen, so both are excluded.) |
| ContentDedupe.RepeatAfterTtl | app.py:829-844 | With the store below the cap, a post with a non-empty signature that was not seen recently at its first check, and is seen again more than 72 hours later, is admitted both times, and the second time its entry is refreshed. |
| ContentDedupe.DistinctPostsBothAdmitted | app.py:829-844 | With the store below the cap, two posts with different signatures, neither seen recently in the store at its own check time, are both admitted, whatever the time between them: recording the first does not make the second a duplicate. |
| Admission.AdmitOne | app.py:2067-2078 | A result is admitted only if its key is new. Within the cap of 40,000 entries, a result with a new key is admitted exactly when its content was not seen recently; above the cap this direction is not promised. Admission adds the key to the history and appends the result to the pending list. Every pending key stays in the history. A result with a new key that is not admitted had its content seen within 72 hours. The check changes only the entry of that result's signature. An admitted result's non-empty signature is recorded at `now`. A refused result, or one with an empty signature, adds or changes no entry. Within the cap, no entry is lost, and the store grows by at most one. |
| Admission.AdmitAll | app.py:2067-2078 | The admitted results are a subsequence of the batch, taken at increasing positions. They have distinct keys new to the history, are appended in order, and their keys are added to the history. Every result is accounted for: its key ends up in the history, or its content had been seen within 72 hours in the store its check ran against. A result with an empty signature always ends up in the history. Each admitted result was not seen recently in its store (within the cap), and its non-empty signature is then recorded at `now`. Each check loses no entry within the cap. With a non-zero clock and a batch that stays within the cap, no two admitted results share a non-empty signature, so a repeat in the same batch is refused. |
| Admission.TrimHistory | app.py:532-538 | Above 10,000 keys, exactly 10,000 of them are kept; at or below the cap, nothing changes. |
| Admission.TrimMayDropAnyKey | app.py:532-538 | Above the cap, any given key, the newest included, may be dropped by the trim. |
| NotifKey.ExtractStatusId | app.py:2618-2638 | The extracted id is empty or a run of digits. |
| NotifKey.StatusKeyRoundTrip | app.py:2633-2636 | An id put into a `notif_status_` key (built at app.py:1964-1965) is extracted back from that key. |
| NotifKey.StoredUrlRoundTrip | app.py:2627-2631 | An id put into the stored status URL (built at app.py:1994-1998) is extracted back from that URL. |
| NotifKey.StatusLinkRoundTrip | app.py:2852-2855 | The status link built from a handle and an id yields that id back when searched as at app.py:2629. |
| NotifKey.AuthorLinkCarriesId | app.py:2852-2855 | The author link built for a status carries the status id. |
| NotifKey.StoredUrlCarriesId | app.py:1994-1998 | The stored status URL carries the status id. |
| NotifKey.KeyKindsDisjoint | app.py:1964-1974 | A status key and a fallback key are never equal. |
| NotifKey.FallbackKeyHasNoId | app.py:2618-2638 | No status id is extracted from a fallback key (built at app.py:1966-1974). |
| NotifKey.FallbackKey | app.py:1966-1974 | A fallback key is the prefix followed by 20 digest characters. |
| NotifKey.StoredStatusUrl | app.py:1994-1998 | The stored URL is empty exactly when there is no status id. |
| NotifKey.StatusLinkOf | app.py:2849-2857 | With a digit id and an author without `/`, the link yields that id back when searched as at app.py:2629. With an id, the link is the author's status link (or the `/i/` one); without an id, it is the stored URL. |
| NotifKey.StatusLinkOfStored | app.py:2849-2857 | For a record stored by the scan, the link rebuilt from it is the stored status URL. |
| Matcher.ContentPoints | app.py:2792-2798 | Content points are zero when either text is empty, and full marks when one text contains the other. |
| Matcher.NotifHandlePoints | app.py:2780-2784 | Handle points reach 100 exactly when the handle equals the wanted one. |
| Matcher.NotifCardScore | app.py:2767-2807 | A card is scored exactly when its reply button is visible and it carries no conflicting status id. Cards with the wanted id score 280-460; all others score 20-200. |
| Matcher.MatchNotifCard | app.py:2747-2814 | The chosen card is among the first 80, has a visible reply button, and carries the wanted status id or none. |
| Matcher.NotifHighScoreMeansStatus | app.py:2767-2814 | A winning score of 260 or more means that the card carries the wanted status id. |
| Matcher.NotifStatusCardWins | app.py:2747-2814 | If a visible card with the wanted id is among the first 80, the winner carries that id and scores at least 280. |
| Matcher.Attempt | app.py:3481-3498 | The retry loop stops at the first accepted attempt, or at the last of five, and every earlier attempt was not accepted. |
| Matcher.AttemptFindsAccepted | app.py:3481-3498 | The loop ends on an accepted match exactly when some attempt has one. |
| Matcher.LocateCardSafe | app.py:3478-3503 | A located card is visible, carries the target's status id and scores at least 260. A card is located exactly when some attempt reaches that threshold. |
| Matcher.LocateReplyCardSafe | app.py:3421-3503 | A reply is sent only with a token and a status id, to a visible card carrying that id that scored at least 260, and in exactly those cases. |
| Matcher.ThreadHandlePoints | app.py:2702-2706 | Handle points reach 120 exactly when the handle equals the wanted one. |
| Matcher.ThreadCardScore | app.py:2685-2736 | A conversation card is scored exactly when its reply button is visible and it does not link other statuses while missing the wanted one. Cards linking the wanted id score 230-440; all others score 10-220. |
| Matcher.MatchThreadCard | app.py:2671-2744 | The chosen card is among the first 40, has a visible reply button, and links the wanted status or no status at all. |
| Matcher.ThreadStatusCardWins | app.py:2671-2744 | A visible card linking the wanted status among the first 40 always wins. |
| Ranking.BestByCorrect | app.py:2738-2740 | The pick (here and at app.py:2809-2812, 1729-1731) has the highest score, is the first card with that score, and is absent exactly when no card scores. |
| Ranking.Take | app.py:2761 | Taking the first n cards yields the first min(n, length) cards. |
| NotifContent.AgeFromText | app.py:1508-1523 | The age read from a blank text is absent, and any age read is non-negative. |
| NotifContent.AgeUnits | app.py:1508-1523 | For any n > 0, `<n>m`, `<n>h` and `<n>d` read as n, 60n and 1440n minutes (`5h` is 300). |
| NotifContent.StampRoundTrip | app.py:1508-1523 | A relative stamp as the page shows it (`<n>m` under an hour, `<n>h` under a day, `<n>d` after) reads back as the card's age rounded down to the stamp's unit, so less than one unit below the true age. |
| NotifContent.MonthDayReadAsMinutes | app.py:1508-1523 | A date such as `Mar 5` is read as five minutes old, because the `m` of the month counts as the minute unit. |
| NotifContent.LeftoverCount | app.py:1602-1608 | What is left after punctuation is squashed and the text is stripped is shorter than two characters exactly when the text has fewer than two letters or digits. |
| NotifContent.NormalizeText | app.py:1570-1571 | The normalised card text is space-normal. |
| NotifContent.NormalizeTextIdempotent | app.py:1570-1571 | Normalising card text twice is the same as once. |
| NotifContent.SourceScore | app.py:1615-1621 | Source points lie in 50-120 and reach 120 exactly for `tweetText`. |
| NotifContent.LengthPoints | app.py:1624-1630 | Length points lie in -20..15 and reach 15 exactly for lengths 6-180. |
| NotifContent.CandidateScore | app.py:1613-1641 | Scores lie in -115..143. A display-name-like text scores at most 63. The top score of 143 is reached exactly by a `tweetText` of 6-180 characters with a letter or digit. |
| NotifContent.PenaltiesUnreachable | app.py:1580-1641 | For a text that passed the noise filter, the display-name and bare-handle penalties never apply. |
| NotifContent.AddCandidate | app.py:1650-1658 | A candidate is added, normalised, only if its lower-cased text is new. The seen set grows by that text, and a well-formed list stays well-formed. |
| NotifContent.AddAllWellFormed | app.py:1650-1658 | Collected candidates are normalised, non-empty and pairwise different up to case. |
| NotifContent.AddAllSeen | app.py:1650-1658 | The seen set after collecting is the old one plus the lower-cased normalised raw texts. |
| NotifContent.AddAllFromRaw | app.py:1650-1658 | Every collected candidate is the normalised form of some raw candidate. |
| NotifContent.CaseVariantDropped | app.py:1650-1658 | Of two texts equal up to case, only the first is collected. |
| NotifContent.PickContent | app.py:1722-1735 | The pick is empty exactly when every candidate is noise. Otherwise it is the first best-scoring candidate, cut to 280 characters. |
| NotifContent.PickPrefersTweetText | app.py:1722-1735 | A clean `tweetText` of 6-180 characters with no reply phrase beats every other source. |
| NotifContent.ExtractContentSpec | app.py:1644-1735 | The extracted content is empty when every raw text is noise. Otherwise it is a prefix of a normalised raw text that is not noise. |
| NotifContent.UserNames | app.py:1662-1675 | A name is collected exactly when it is a non-empty name segment of the `User-Name` block: not a handle, not a separator, not an age stamp. |
| NotifContent.UserNamesNormalised | app.py:1662-1675 | Every collected name is non-empty and space-normal. |
| NotifFilter.ItemOf | app.py:1984-1998 | The captured record carries the notification source, the card's key and status id. The reply path (app.py:2618-2638) reads back the card's status id: a digit id as it is, and no id for a card without one. |
| NotifFilter.ClassifyEmits | app.py:1857-1982 | A card is captured exactly when it passes the filter chain and its key is new to both the page and the history. |
| NotifFilter.InteractionOnlyUnreachable | app.py:1878-1955 | The later "interaction only" skip never fires, because interaction cards are dropped earlier. |
| NotifFilter.Scan | app.py:1857-2000 | Captured records have distinct keys, new to the page and the history, and each comes from an admissible card. Every admissible card's key ends up seen or in the history. |
| NotifFilter.ScanPage | app.py:1800-2000 | A page scan returns records with distinct keys that are new to the history, each captured from one of the first 60 cards. Every admissible card among the first 60 has its key captured or already in the history. |
| NotifFilter.CapturedIsRecent | app.py:1910-1918 | A captured record comes from a card that is not an interaction card, and whose age is unknown or within the configured window. |
| Templates.Sanitize | app.py:692-705 | A missing list, or one whose entries are all blank, falls back to the defaults. Otherwise the result is clean, keeps the first occurrence of each non-blank stripped entry in order, and holds exactly those entries (both directions). |
| Templates.SanitizeSpec | app.py:692-705 | Sanitising keeps the first occurrence of each non-blank stripped entry, in order. The result is clean, and it holds exactly the non-blank stripped entries (both directions). |
| Templates.SanitizeIdempotent | app.py:692-705 | Sanitising a sanitised list changes nothing. |
| Templates.DefaultsClean | app.py:152-159 | Both default lists are non-empty, trimmed and duplicate-free. |
| Templates.CheckContent | app.py:3776-3782 | Content passes exactly when the kind is known and the content is non-empty and within the kind's length limit. Otherwise the result is a 400 error. |
| Templates.Add | app.py:3771-3793 | Adding succeeds exactly for a known kind with non-empty, short-enough content that is not already listed. On success the content is appended; a failure is a 409 duplicate or a 400. |
| Templates.Update | app.py:3797-3824 | Updating succeeds exactly for a known kind, valid content, an index in range, and content that no other entry holds. On success only that entry changes. |
| Templates.Delete | app.py:3828-3851 | Deleting succeeds exactly for a known kind and an index in range. It removes that entry; a list left empty is refilled with the defaults of its kind. |
| Templates.WithList | app.py:3784-3787 | Replacing one kind's list leaves the other kind's list alone. |
| Templates.AddKeepsClean | app.py:3771-3793 | A successful add keeps both lists clean. |
| Templates.UpdateKeepsClean | app.py:3797-3824 | A successful update keeps both lists clean. |
| Templates.DeleteKeepsClean | app.py:3828-3851 | A successful delete keeps both lists clean. |
| Templates.AddThenDelete | app.py:3771-3851 | Deleting the entry just added restores the previous store. |
| Scheduling.TaskParallel | app.py:751-757 | One task runs at a time for at most one task. Otherwise 2-5 run at once, and never more than there are tasks. |
| Scheduling.Batches | app.py:440-443 | The batches, concatenated, are the whole queue. Every batch is non-empty and at most the width, and all but the last are full. |
| Scheduling.Reorder | app.py:760-779 | The cards are cut into chunks of 3-7, the last possibly shorter. Each chunk is a rearrangement of the same chunk of the input. |
| Scheduling.ChunkShuffleIsPermutation | app.py:760-779 | A chunk-wise rearrangement is a permutation of the whole list. |
| Results.MarkDone | app.py:3682-3701 | With a key, every result with that key goes and every other result stays. Without a key but with a handle, the same holds by handle. With neither, nothing changes. The removed count is the difference in length. |
| Results.MarkDoneByKey | app.py:3682-3701 | With unique keys, marking a present key removes exactly one result, and marking an absent key removes none. |
| Results.ClearResults | app.py:3704-3719 | `notify` keeps only the non-notification results, `tweet` keeps only the notification results, anything else clears all. |
| Results.FilterOrder | app.py:3690-3693 | A list comprehension keeps its survivors in their original order: the result is the list read at strictly increasing positions, and every accepted position is among them. |
| Results.MarkDoneKeepsOrder | app.py:3688-3693 | The results left after `mark_done` are in their original order. |
| Results.ClearKeepsOrder | app.py:3709-3716 | The results left after `clear_results` are in their original order. |
| Results.ClearPartitions | app.py:3704-3719 | The `notify` and `tweet` clears partition the list (as a multiset), and applying both leaves nothing. |

## Left out

- The browser, the DOM, page navigation and clicking are left out. Each card
  becomes a record of the fields the code reads from it.
- Threads, locks and the Flask request layer are left out. Every operation
  is modelled as one atomic step on immutable state.
- `save_state`, the log and the web UI are left out, because they are output
  only.
- The clock is a parameter. The dedup store keeps whole seconds (`int`),
  where the source stores `time.time()` floats; fractions of a second are
  not modelled.
- A card's age (`Card.age`) is an input in whole minutes. `AgeFromText`
  models only the relative-text fallback (app.py:1508-1523). The `datetime`
  attribute path that the source tries first (app.py:1498-1506) is not
  modelled, and nothing links `Card.age` to either path.
- The record's `time` field (the capture clock time, app.py:1991) is not
  part of `Item`, because no modelled operation reads it.
- MD5 is a parameter of type string to 32-character hex. The exactness
  properties of the signature assume only that it does not collide on the
  two inputs they compare (`ContentDedupe.NoCollision`).
- Lower-casing and the digit class are ASCII-only. Python's `lower()`,
  `isdigit` and `\d` also accept other Unicode letters and digits. `\w` is
  approximated by ASCII letters, digits, `_` and the CJK block. Whitespace
  is Python's full `isspace` set.
- Template entries that are not strings go through `str()` in the source.
  The model takes every entry as a string already.
- The raw text candidates of a card (`Card.candidates`) are an input to
  content extraction. The DOM reads behind the tweet text, the card text and
  the language block are not modelled. Neither are the per-line, tail-phrase
  and cleaned-text candidates that the source derives from the card text
  (app.py:1694-1720). Nothing links `Card.candidates` to `Card.text`.
- `_extract_notification_status_info` and `_extract_status_ids_from_article`
  read ids from link `href`s in the DOM. Their results are inputs to the
  card records.
- Admission.AdmitAll: one `now` serves the whole batch, where the source reads the
  clock for each result (app.py:831-832).
- The random choices (width, chunk size, shuffle, jitter) are modelled as
  nondeterministic choices within their bounds. The distribution is not
  modelled.
- After a card is located, the reply and DM steps (typing, sending, and
  verifying the post) are left out, because they are browser I/O.
- The content-policy and LLM filters are left out, because they call
  services outside the program.
- Matcher.RequiredScore: the 120 threshold for a reply without a status id
  is modelled, but `LocateReplyCard` never reaches it. The source refuses a
  notification without a status id earlier (app.py:3426-3428).
- The page's stamp format (`NotifContent.RelativeStamp`) is not code of the
  program. It serves only as the reference for `StampRoundTrip`.
- NotifContent.AgeFromText: the contract is about the relative-text path
  alone, because the `datetime` path is not modelled.
- Admission.TrimHistory: the contract leaves open which 10,000 keys are kept,
  because the source's slice of a set follows hash order.

=== FILE: admission.dfy ===
/**
 History-key admission of freshly scanned results (the loop repeated at
 app.py:2068-2078, 2151-2162 and 2557-2567) and the periodic history trim
 (app.py:532-538).
 */
module Admission {
  import opened Items
  import opened ContentDedupe

  /** The part of the monitor's global state admission touches. */
  datatype MonitorState = MonitorState(history: set<string>, pending: seq<Item>, dedupe: Store)

  /** `max_history_size` in the maintenance step. */
  const MaxHistory: nat := 10000

  /** Every pending result's key has been recorded in the history. */
  predicate KeysRecorded(st: MonitorState)
  {
    forall i :: 0 <= i < |st.pending| ==> st.pending[i].key in st.history
  }

  /** No two pending results share a key. */
  predicate DistinctKeys(items: seq<Item>)
  {
    forall i, j :: 0 <= i < j < |items| ==> items[i].key != items[j].key
  }

  /** The admission invariant: recorded and distinct pending keys. */
  predicate Good(st: MonitorState)
  {
    KeysRecorded(st) && DistinctKeys(st.pending)
  }

  /** The keys of a list of results, as a set. */
  function KeySet(items: seq<Item>): (r: set<string>)
    ensures forall i :: 0 <= i < |items| ==> items[i].key in r
    ensures forall k :: k in r ==> exists i :: 0 <= i < |items| && items[i].key == k
  {
    set i | 0 <= i < |items| :: items[i].key
  }

  /** The content signature of a result. */
  function SigOf(md5: string -> Md5Hex, item: Item): string
  {
    ContentSignature(md5, item.handle, item.content)
  }

  /** A content check on `sig` changes no entry but the one for `sig`. */
  predicate StoreStep(before: Store, after: Store, sig: string)
  {
    forall k :: k in after && k != sig ==> k in before && after[k] == before[k]
  }

  /**
   One iteration of the admission loop: a result whose key is already in the
   history is dropped without touching the content store; otherwise the
   content check runs and, unless it reports a duplicate, the key is recorded
   and the result appended to `pending`.
   */
  method AdmitOne(st: MonitorState, md5: string -> Md5Hex, item: Item, now: int)
    returns (added: bool, st': MonitorState)
    ensures item.key in st.history ==> !added && st' == st
    ensures added ==> item.key !in st.history
    ensures added ==> st'.history == st.history + {item.key} && st'.pending == st.pending + [item]
    ensures !added ==> st'.history == st.history && st'.pending == st.pending
    ensures item.key !in st.history && |st.dedupe| <= MaxEntries ==>
      (added <==> !SeenRecently(st.dedupe, ContentSignature(md5, item.handle, item.content), now))
    ensures Good(st) ==> Good(st')
    ensures !added && item.key !in st.history ==> SeenRecently(st.dedupe, SigOf(md5, item), now)
    ensures StoreStep(st.dedupe, st'.dedupe, SigOf(md5, item))
    ensures added && |SigOf(md5, item)| > 0 ==> SigOf(md5, item) in st'.dedupe && st'.dedupe[SigOf(md5, item)] == now
    ensures !added || |SigOf(md5, item)| == 0 ==> SubStore(st'.dedupe, st.dedupe)
    ensures |st.dedupe| <= MaxEntries ==> forall k :: k in st.dedupe ==> k in st'.dedupe
    ensures |st'.dedupe| <= |st.dedupe| + 1
  {
    if item.key in st.history {
      return false, st;
    }
    var skip, store := ShouldSkipDuplicate(st.dedupe, md5, item.handle, item.content, now);
    if skip {
      return false, st.(dedupe := store);
    }
    added := true;
    st' := MonitorState(st.history + {item.key}, st.pending + [item], store);
    RecordKeepsGood(st, item, store);
  }

  /** Recording a new key and appending its result keeps the admission invariant. */
  lemma RecordKeepsGood(st: MonitorState, item: Item, store: Store)
    requires item.key !in st.history
    ensures Good(st) ==> Good(MonitorState(st.history + {item.key}, st.pending + [item], store))
  {
    var p := st.pending + [item];
    assert forall i :: 0 <= i < |st.pending| ==> p[i] == st.pending[i];
  }

  /** The content signatures of a batch, one per result. */
  function Sigs(md5: string -> Md5Hex, items: seq<Item>): (r: seq<string>)
    ensures |r| == |items| && forall i :: 0 <= i < |items| ==> r[i] == SigOf(md5, items[i])
  {
    seq(|items|, i requires 0 <= i < |items| => SigOf(md5, items[i]))
  }

  /**
   A result is accounted for: its key is in the history, or its content
   signature had been seen within the TTL in the store its check ran against.
   */
  predicate Accounted(key: string, history: set<string>, store: Store, sig: string, now: int)
  {
    key in history || SeenRecently(store, sig, now)
  }

  /** `added` is the subsequence of `items` at the strictly increasing `positions`. */
  predicate PicksOut(positions: seq<nat>, added: seq<Item>, items: seq<Item>)
  {
    && |positions| == |added|
    && (forall i :: 0 <= i < |positions| ==> positions[i] < |items| && added[i] == items[positions[i]])
    && (forall i, j :: 0 <= i < j < |positions| ==> positions[i] < positions[j])
  }

  /**
   The whole admission loop over one scan's results, at one clock reading.
   Returns the results that were appended, in order, where they sit in the
   batch, and the content store each result's check ran against.
   */
  method AdmitAll(st: MonitorState, md5: string -> Md5Hex, items: seq<Item>, now: int)
    returns (added: seq<Item>, st': MonitorState, positions: seq<nat>, stores: seq<Store>)
    ensures st'.pending == st.pending + added
    ensures st'.history == st.history + KeySet(added)
    ensures forall i :: 0 <= i < |added| ==> added[i] in items && added[i].key !in st.history
    ensures DistinctKeys(added)
    ensures Good(st) ==> Good(st')
    ensures PicksOut(positions, added, items)
    ensures |stores| == |items| + 1 && stores[0] == st.dedupe && stores[|items|] == st'.dedupe
    ensures var sigs := Sigs(md5, items);
      && (forall i :: 0 <= i < |items| ==> StoreStep(stores[i], stores[i + 1], sigs[i]))
      && (forall i :: 0 <= i < |items| ==> Accounted(items[i].key, st'.history, stores[i], sigs[i], now))
      && (forall i :: 0 <= i < |items| && |sigs[i]| == 0 ==> items[i].key in st'.history)
      && (forall i :: 0 <= i < |items| ==> Persists(stores[i], stores[i + 1], now))
      && (forall p :: 0 <= p < |positions| && positions[p] < |items| ==>
            Fresh(stores[positions[p]], stores[positions[p] + 1], sigs[positions[p]], now))
      && (now != 0 && |st.dedupe| + |items| <= MaxEntries ==> NoRepeatedContent(positions, sigs))
  {
    var sigs := Sigs(md5, items);
    added, st', positions, stores := AdmitLoop(st, md5, items, sigs, now);
    AdmitInvDone(st, items, sigs, now, added, st', positions, stores);
  }

  /** The admission loop itself: check every result of the batch in turn. */
  method AdmitLoop(st: MonitorState, md5: string -> Md5Hex, items: seq<Item>, sigs: seq<string>, now: int)
    returns (added: seq<Item>, st': MonitorState, positions: seq<nat>, stores: seq<Store>)
    requires sigs == Sigs(md5, items)
    ensures AdmitInv(st, items, sigs, now, |items|, added, st', positions, stores)
  {
    added := [];
    st' := st;
    positions := [];
    stores := [st.dedupe];
    var n: nat := 0;
    AdmitInvStart(st, items, sigs, now);
    while n < |items|
      invariant n <= |items|
      invariant AdmitInv(st, items, sigs, now, n, added, st', positions, stores)
    {
      added, st', positions, stores := AdmitNext(st, md5, items, sigs, now, n, added, st', positions, stores);
      n := n + 1;
    }
  }

  /** One turn of the admission loop: admit result `n` and extend what the loop tracks. */
  method AdmitNext(st: MonitorState, md5: string -> Md5Hex, items: seq<Item>, sigs: seq<string>, now: int, n: nat,
                   added: seq<Item>, cur: MonitorState, positions: seq<nat>, stores: seq<Store>)
    returns (added': seq<Item>, next: MonitorState, positions': seq<nat>, stores': seq<Store>)
    requires sigs == Sigs(md5, items) && n < |items|
    requires AdmitInv(st, items, sigs, now, n, added, cur, positions, stores)
    ensures AdmitInv(st, items, sigs, now, n + 1, added', next, positions', stores')
  {
    var ok;
    ok, next := AdmitOne(cur, md5, items[n], now);
    assert sigs[n] == SigOf(md5, items[n]);
    PersistsFromStep(cur.dedupe, next.dedupe, sigs[n], now, ok);
    AdmitStepKeeps(st, items, sigs, now, n, added, cur, positions, stores, ok, next);
    added' := if ok then added + [items[n]] else added;
    positions' := if ok then positions + [n] else positions;
    stores' := stores + [next.dedupe];
  }

  /** Before the first check, nothing has been admitted. */
  lemma AdmitInvStart(st: MonitorState, items: seq<Item>, sigs: seq<string>, now: int)
    requires |sigs| == |items|
    ensures AdmitInv(st, items, sigs, now, 0, [], st, [], [st.dedupe])
  {
    assert KeySet([]) == {};
  }

  /** The loop's invariant over the whole batch gives what `AdmitAll` promises. */
  lemma AdmitInvDone(st: MonitorState, items: seq<Item>, sigs: seq<string>, now: int,
                     added: seq<Item>, cur: MonitorState, positions: seq<nat>, stores: seq<Store>)
    requires AdmitInv(st, items, sigs, now, |items|, added, cur, positions, stores)
    ensures cur.pending == st.pending + added
    ensures cur.history == st.history + KeySet(added)
    ensures forall i :: 0 <= i < |added| ==> added[i] in items && added[i].key !in st.history
    ensures DistinctKeys(added)
    ensures Good(st) ==> Good(cur)
    ensures PicksOut(positions, added, items)
    ensures |stores| == |items| + 1 && stores[0] == st.dedupe && stores[|items|] == cur.dedupe
    ensures forall i :: 0 <= i < |items| ==> StoreStep(stores[i], stores[i + 1], sigs[i])
    ensures forall i :: 0 <= i < |items| ==> Accounted(items[i].key, cur.history, stores[i], sigs[i], now)
    ensures forall i :: 0 <= i < |items| && |sigs[i]| == 0 ==> items[i].key in cur.history
    ensures forall i :: 0 <= i < |items| ==> Persists(stores[i], stores[i + 1], now)
    ensures forall p :: 0 <= p < |positions| ==> Fresh(stores[positions[p]], stores[positions[p] + 1], sigs[positions[p]], now)
    ensures now != 0 && |st.dedupe| + |items| <= MaxEntries ==> NoRepeatedContent(positions, sigs)
  {
    if now != 0 && |st.dedupe| + |items| <= MaxEntries {
      NoRepeatInBatch(items, sigs, stores, positions, now);
    }
    forall i | 0 <= i < |items| && |sigs[i]| == 0
      ensures items[i].key in cur.history
    {
      assert Accounted(items[i].key, cur.history, stores[i], sigs[i], now);
    }
  }

  /** What the admission loop keeps after checking the first `n` results of a batch. */
  predicate AdmitInv(st: MonitorState, items: seq<Item>, sigs: seq<string>, now: int, n: nat,
                     added: seq<Item>, cur: MonitorState, positions: seq<nat>, stores: seq<Store>)
  {
    && n <= |items| == |sigs|
    && Ledger(st, items, added, cur)
    && PicksOut(positions, added, items)
    && (forall i :: 0 <= i < |positions| ==> positions[i] < n)
    && Trail(items, sigs, stores, cur.history, now, n)
    && stores[0] == st.dedupe && stores[n] == cur.dedupe
    && (forall p :: 0 <= p < |positions| ==> Fresh(stores[positions[p]], stores[positions[p] + 1], sigs[positions[p]], now))
  }

  /** The admitted results and the state they were recorded in, relative to the state before the batch. */
  predicate Ledger(st: MonitorState, items: seq<Item>, added: seq<Item>, cur: MonitorState)
  {
    && cur.pending == st.pending + added
    && cur.history == st.history + KeySet(added)
    && (forall i :: 0 <= i < |added| ==> added[i] in items && added[i].key !in st.history)
    && DistinctKeys(added)
    && (Good(st) ==> Good(cur))
  }

  /** One admission step, with the facts `AdmitOne` promises, keeps the loop's invariant. */
  lemma AdmitStepKeeps(st: MonitorState, items: seq<Item>, sigs: seq<string>, now: int, n: nat,
                       added: seq<Item>, cur: MonitorState, positions: seq<nat>, stores: seq<Store>,
                       ok: bool, next: MonitorState)
    requires AdmitInv(st, items, sigs, now, n, added, cur, positions, stores) && n < |items|
    requires ok ==> items[n].key !in cur.history
    requires ok ==> next.history == cur.history + {items[n].key} && next.pending == cur.pending + [items[n]]
    requires !ok ==> next.history == cur.history && next.pending == cur.pending
    requires Good(cur) ==> Good(next)
    requires !ok && items[n].key !in cur.history ==> SeenRecently(cur.dedupe, sigs[n], now)
    requires StoreStep(cur.dedupe, next.dedupe, sigs[n])
    requires Persists(cur.dedupe, next.dedupe, now)
    requires ok ==> Fresh(cur.dedupe, next.dedupe, sigs[n], now)
    ensures AdmitInv(st, items, sigs, now, n + 1, if ok then added + [items[n]] else added, next,
                     if ok then positions + [n] else positions, stores + [next.dedupe])
  {
    LedgerStep(st, items, n, added, cur, ok, next);
    if ok {
      PicksOutStep(positions, added, items, n);
    }
    TrailStep(items, sigs, stores, cur.history, next.history, next.dedupe, now, n);
    FreshStep(sigs, stores, positions, next.dedupe, now, n, ok);
  }

  lemma LedgerStep(st: MonitorState, items: seq<Item>, n: nat, added: seq<Item>, cur: MonitorState,
                   ok: bool, next: MonitorState)
    requires Ledger(st, items, added, cur) && n < |items|
    requires ok ==> items[n].key !in cur.history
    requires ok ==> next.history == cur.history + {items[n].key} && next.pending == cur.pending + [items[n]]
    requires !ok ==> next.history == cur.history && next.pending == cur.pending
    requires Good(cur) ==> Good(next)
    ensures Ledger(st, items, if ok then added + [items[n]] else added, next)
  {
    if ok {
      AddedStep(st.history, added, items, items[n]);
      AppendAssoc(st.pending, added, items[n]);
    }
  }

  /** Appending one element after a concatenation associates. */
  lemma AppendAssoc(a: seq<Item>, b: seq<Item>, x: Item)
    ensures a + (b + [x]) == a + b + [x]
  {
  }

  /** Picking the next position extends the subsequence. */
  lemma PicksOutStep(positions: seq<nat>, added: seq<Item>, items: seq<Item>, n: nat)
    requires PicksOut(positions, added, items) && n < |items|
    requires forall i :: 0 <= i < |positions| ==> positions[i] < n
    ensures PicksOut(positions + [n], added + [items[n]], items)
    ensures forall i :: 0 <= i < |positions| + 1 ==> (positions + [n])[i] < n + 1
  {
  }

  /**
   One content check grows the store by at most one entry and, within the
   cap, loses no entry and leaves an entry recorded at `now` at `now`.
   */
  predicate Persists(before: Store, after: Store, now: int)
  {
    && |after| <= |before| + 1
    && (|before| <= MaxEntries ==> forall k :: k in before ==> k in after && (before[k] == now ==> after[k] == now))
  }

  /**
   The check of an admitted result: within the cap its content had not been
   seen recently, and a non-empty signature is recorded at `now`.
   */
  predicate Fresh(before: Store, after: Store, sig: string, now: int)
  {
    && (|before| <= MaxEntries ==> !SeenRecently(before, sig, now))
    && (|sig| > 0 ==> sig in after && after[sig] == now)
  }

  /** No two admitted results of a batch share a non-empty content signature. */
  predicate NoRepeatedContent(positions: seq<nat>, sigs: seq<string>)
  {
    forall p, q :: 0 <= p < q < |positions| && positions[p] < |sigs| && positions[q] < |sigs| && |sigs[positions[p]]| > 0 ==>
      sigs[positions[p]] != sigs[positions[q]]
  }

  /** What `AdmitOne` promises about the store gives `Persists`. */
  lemma PersistsFromStep(before: Store, after: Store, sig: string, now: int, ok: bool)
    requires StoreStep(before, after, sig)
    requires ok && |sig| > 0 ==> sig in after && after[sig] == now
    requires !ok || |sig| == 0 ==> SubStore(after, before)
    requires |before| <= MaxEntries ==> forall k :: k in before ==> k in after
    requires |after| <= |before| + 1
    ensures Persists(before, after, now)
  {
  }

  /** Checking result `n`, and admitting it when `ok`, keeps every admitted check `Fresh`. */
  lemma FreshStep(sigs: seq<string>, stores: seq<Store>, positions: seq<nat>, next: Store, now: int, n: nat, ok: bool)
    requires n < |sigs| && |stores| == n + 1
    requires forall p :: 0 <= p < |positions| ==> positions[p] < n
    requires forall p :: 0 <= p < |positions| ==> Fresh(stores[positions[p]], stores[positions[p] + 1], sigs[positions[p]], now)
    requires ok ==> Fresh(stores[n], next, sigs[n], now)
    ensures var ps := if ok then positions + [n] else positions;
      var ss := stores + [next];
      forall p :: 0 <= p < |ps| ==> ps[p] + 1 < |ss| && Fresh(ss[ps[p]], ss[ps[p] + 1], sigs[ps[p]], now)
  {
    var ps := if ok then positions + [n] else positions;
    var ss := stores + [next];
    forall p | 0 <= p < |ps|
      ensures ps[p] + 1 < |ss| && Fresh(ss[ps[p]], ss[ps[p] + 1], sigs[ps[p]], now)
    {
      if p < |positions| {
        assert ps[p] == positions[p];
        assert ss[positions[p]] == stores[positions[p]] && ss[positions[p] + 1] == stores[positions[p] + 1];
      } else {
        assert ps[p] == n && ss[n] == stores[n] && ss[n + 1] == next;
      }
    }
  }

  /** A store never grows by more than one entry per check. */
  lemma {:induction false} StoreGrowth(stores: seq<Store>, now: int, n: nat, k: nat)
    requires |stores| == n + 1 && k <= n
    requires forall i :: 0 <= i < n ==> Persists(stores[i], stores[i + 1], now)
    ensures |stores[k]| <= |stores[0]| + k
    decreases k
  {
    if k > 0 {
      StoreGrowth(stores, now, n, k - 1);
      assert Persists(stores[k - 1], stores[k], now);
    }
  }

  /** Within the cap, an entry recorded at `now` is still there, at `now`, after later checks. */
  lemma {:induction false} NowKept(stores: seq<Store>, now: int, n: nat, i: nat, j: nat, sig: string)
    requires |stores| == n + 1 && i <= j <= n
    requires forall k :: 0 <= k < n ==> Persists(stores[k], stores[k + 1], now)
    requires forall k :: i <= k < j ==> |stores[k]| <= MaxEntries
    requires sig in stores[i] && stores[i][sig] == now
    ensures sig in stores[j] && stores[j][sig] == now
    decreases j - i
  {
    if i < j {
      assert Persists(stores[i], stores[i + 1], now);
      NowKept(stores, now, n, i + 1, j, sig);
    }
  }

  /** An entry recorded at a non-zero `now` is seen recently by every later check within the cap. */
  lemma RecordedSeen(stores: seq<Store>, now: int, n: nat, i: nat, j: nat, sig: string)
    requires |stores| == n + 1 && i <= j <= n && now != 0 && |sig| > 0
    requires forall k :: 0 <= k < n ==> Persists(stores[k], stores[k + 1], now)
    requires forall k :: i <= k < j ==> |stores[k]| <= MaxEntries
    ensures sig in stores[i] && stores[i][sig] == now ==> SeenRecently(stores[j], sig, now)
  {
    if sig in stores[i] && stores[i][sig] == now {
      NowKept(stores, now, n, i, j, sig);
    }
  }

  /**
   Within the cap and with a non-zero clock, a batch admits at most the first
   of several results with the same non-empty content signature: the first
   records it at `now`, and every later check finds it seen recently.
   */
  lemma NoRepeatInBatch(items: seq<Item>, sigs: seq<string>, stores: seq<Store>, positions: seq<nat>, now: int)
    requires |sigs| == |items| && |stores| == |items| + 1
    requires now != 0 && |stores[0]| + |items| <= MaxEntries
    requires forall i :: 0 <= i < |items| ==> Persists(stores[i], stores[i + 1], now)
    requires forall p :: 0 <= p < |positions| ==> positions[p] < |items|
    requires forall p, q :: 0 <= p < q < |positions| ==> positions[p] < positions[q]
    requires forall p :: 0 <= p < |positions| ==> Fresh(stores[positions[p]], stores[positions[p] + 1], sigs[positions[p]], now)
    ensures NoRepeatedContent(positions, sigs)
  {
    var n := |items|;
    forall k | 0 <= k < n ensures |stores[k]| <= MaxEntries {
      StoreGrowth(stores, now, n, k);
    }
    forall p, q | 0 <= p < q < |positions| && |sigs[positions[p]]| > 0
      ensures sigs[positions[p]] != sigs[positions[q]]
    {
      var i, j := positions[p], positions[q];
      assert Fresh(stores[i], stores[i + 1], sigs[i], now);
      assert Fresh(stores[j], stores[j + 1], sigs[j], now);
      RecordedSeen(stores, now, n, i + 1, j, sigs[i]);
    }
  }

  /**
   The first `n` results of a batch have been checked: `stores` holds the store
   before each check and after the last, each check changed only its own
   signature's entry, and each result is accounted for.
   */
  predicate Trail(items: seq<Item>, sigs: seq<string>, stores: seq<Store>, history: set<string>, now: int, n: nat)
  {
    && n <= |items| == |sigs|
    && |stores| == n + 1
    && (forall i :: 0 <= i < n ==> StoreStep(stores[i], stores[i + 1], sigs[i]))
    && (forall i :: 0 <= i < n ==> Accounted(items[i].key, history, stores[i], sigs[i], now))
    && (forall i :: 0 <= i < n ==> Persists(stores[i], stores[i + 1], now))
  }

  /** Checking one more result, and possibly recording its key, extends the trail. */
  lemma TrailStep(items: seq<Item>, sigs: seq<string>, stores: seq<Store>, history: set<string>,
                  history': set<string>, next: Store, now: int, n: nat)
    requires Trail(items, sigs, stores, history, now, n) && n < |items| && history <= history'
    requires StoreStep(stores[n], next, sigs[n])
    requires Accounted(items[n].key, history', stores[n], sigs[n], now)
    requires Persists(stores[n], next, now)
    ensures Trail(items, sigs, stores + [next], history', now, n + 1)
  {
    StepsExtend(sigs, stores, next, now, n);
    AccountedExtend(items, sigs, stores, history, history', next, now, n);
  }

  /** The per-check store facts of the trail extend by one check. */
  lemma StepsExtend(sigs: seq<string>, stores: seq<Store>, next: Store, now: int, n: nat)
    requires n < |sigs| && |stores| == n + 1
    requires forall i :: 0 <= i < n ==> StoreStep(stores[i], stores[i + 1], sigs[i]) && Persists(stores[i], stores[i + 1], now)
    requires StoreStep(stores[n], next, sigs[n]) && Persists(stores[n], next, now)
    ensures var s := stores + [next];
      forall i :: 0 <= i < n + 1 ==> StoreStep(s[i], s[i + 1], sigs[i]) && Persists(s[i], s[i + 1], now)
  {
    var s := stores + [next];
    assert forall i :: 0 <= i <= n ==> s[i] == stores[i];
    assert s[n + 1] == next;
  }

  /** The accounted results of the trail stay accounted for as the history grows. */
  lemma AccountedExtend(items: seq<Item>, sigs: seq<string>, stores: seq<Store>, history: set<string>,
                        history': set<string>, next: Store, now: int, n: nat)
    requires n < |items| == |sigs| && |stores| == n + 1 && history <= history'
    requires forall i :: 0 <= i < n ==> Accounted(items[i].key, history, stores[i], sigs[i], now)
    requires Accounted(items[n].key, history', stores[n], sigs[n], now)
    ensures var s := stores + [next];
      forall i :: 0 <= i < n + 1 ==> Accounted(items[i].key, history', s[i], sigs[i], now)
  {
    var s := stores + [next];
    assert forall i :: 0 <= i <= n ==> s[i] == stores[i];
  }

  /** Appending a result whose key is new to the history and to `added` keeps what the loop tracks. */
  lemma AddedStep(history: set<string>, added: seq<Item>, items: seq<Item>, x: Item)
    requires x in items && x.key !in history + KeySet(added)
    requires forall i :: 0 <= i < |added| ==> added[i] in items && added[i].key !in history
    requires DistinctKeys(added)
    ensures KeySet(added + [x]) == KeySet(added) + {x.key}
    ensures forall i :: 0 <= i < |added + [x]| ==> (added + [x])[i] in items && (added + [x])[i].key !in history
    ensures DistinctKeys(added + [x])
  {
    KeySetAppend(added, x);
    var a := added + [x];
    assert forall i :: 0 <= i < |added| ==> a[i] == added[i];
  }

  lemma KeySetAppend(items: seq<Item>, x: Item)
    ensures KeySet(items + [x]) == KeySet(items) + {x.key}
  {
    var a := items + [x];
    forall k | k in KeySet(a) ensures k in KeySet(items) + {x.key} {
      var i :| 0 <= i < |a| && a[i].key == k;
      if i < |items| {
        assert a[i] == items[i];
      }
    }
    forall k | k in KeySet(items) ensures k in KeySet(a) {
      var i :| 0 <= i < |items| && items[i].key == k;
      assert a[i] == items[i];
    }
    assert a[|items|] == x;
  }

  /** There is a subset of `s` of every size up to `|s|`. */
  lemma {:induction false} SubsetOfSize(s: set<string>, n: nat) returns (t: set<string>)
    requires n <= |s|
    ensures t <= s && |t| == n
    decreases n
  {
    if n == 0 {
      t := {};
    } else {
      var t0 := SubsetOfSize(s, n - 1);
      assert |s - t0| > 0 by {
        assert s == t0 + (s - t0);
      }
      var x :| x in s - t0;
      t := t0 + {x};
    }
  }

  /**
   The history trim (app.py:532-538): above the cap, keep `MaxHistory` keys.
   `list(history_ids)[-10000:]` slices a set in hash order, so which keys
   survive is left open.
   */
  method TrimHistory(history: set<string>) returns (r: set<string>)
    ensures r <= history
    ensures |r| == if |history| > MaxHistory then MaxHistory else |history|
    ensures |history| <= MaxHistory ==> r == history
  {
    if |history| <= MaxHistory {
      return history;
    }
    var w := SubsetOfSize(history, MaxHistory);
    r :| r <= history && |r| == MaxHistory;
  }

  /**
   Above the cap, any key at all — the one admitted last included — may be
   among those the trim drops.
   */
  lemma TrimMayDropAnyKey(history: set<string>, k: string) returns (r: set<string>)
    requires |history| > MaxHistory && k in history
    ensures r <= history && |r| == MaxHistory && k !in r
  {
    assert |history - {k}| == |history| - 1;
    r := SubsetOfSize(history - {k}, MaxHistory);
  }
}

=== FILE: dedupe.dfy ===
/**
 The same-author, same-content de-duplication store (app.py:132-133, 800-844).

 The store maps a content signature (the MD5 hex digest of
 `handle_norm|content_norm`) to the last time it was admitted. Timestamps are
 whole seconds. MD5 is not modelled: the digest is a parameter `md5` that
 yields 32-character strings.
 */
module ContentDedupe {
  import opened Text
  import opened Normalize

  /** `CONTENT_DEDUPE_TTL_SEC`: 72 hours. */
  const TtlSeconds: int := 72 * 3600
  /** `CONTENT_DEDUPE_MAX_ENTRIES`. */
  const MaxEntries: nat := 40000

  /** A lower-case hexadecimal digit, as `hexdigest()` writes them. */
  predicate IsHexDigit(c: char)
  {
    IsDigit(c) || 'a' <= c <= 'f'
  }

  /** A 32-character hex digest. */
  type Md5Hex = s: string | |s| == 32 && forall i :: 0 <= i < |s| ==> IsHexDigit(s[i])
    witness "00000000000000000000000000000000"

  /** Signature -> last-seen timestamp. */
  type Store = map<string, int>

  /** The digest of `h|c`, or "" when either part is empty. */
  function Signed(md5: string -> Md5Hex, h: string, c: string): (sig: string)
    ensures |sig| == 0 || |sig| == 32
    ensures |sig| == 0 <==> |h| == 0 || |c| == 0
  {
    if |h| == 0 || |c| == 0 then "" else md5(h + "|" + c)
  }

  /** `make_content_signature` (app.py:800-807): "" when either part normalises to nothing. */
  function ContentSignature(md5: string -> Md5Hex, handle: string, content: string): (sig: string)
    ensures |sig| == 0 || |sig| == 32
    ensures |sig| == 0 <==> |NormalizeHandle(handle)| == 0 || |NormalizeContent(content)| == 0
  {
    Signed(md5, NormalizeHandle(handle), NormalizeContent(content))
  }

  /** The entries `prune_content_dedupe` keeps in its first pass: not older than the TTL. */
  function Fresh(store: Store, now: int): (r: Store)
    ensures r.Keys <= store.Keys
    ensures forall k :: k in r ==> r[k] == store[k] && r[k] >= now - TtlSeconds
    ensures forall k :: k in store && store[k] >= now - TtlSeconds ==> k in r
  {
    map k | k in store && store[k] >= now - TtlSeconds :: store[k]
  }

  function Min(a: int, b: int): int { if a <= b then a else b }

  /** Every entry of `m` is an entry of `store`. */
  predicate SubStore(m: Store, store: Store)
  {
    forall k :: k in m ==> k in store && m[k] == store[k]
  }

  /** A key whose timestamp is no later than any other: the head of `sorted(..., key=ts)`. */
  lemma {:induction false} OldestExists(m: Store) returns (k: string)
    requires |m| > 0
    ensures k in m && forall j :: j in m ==> m[k] <= m[j]
    decreases |m|
  {
    var a :| a in m;
    var rest := m - {a};
    assert rest.Keys == m.Keys - {a};
    if |rest| == 0 {
      assert m.Keys == {a} by {
        forall j | j in m ensures j == a {
        }
      }
      k := a;
    } else {
      var b := OldestExists(rest);
      k := if m[a] <= m[b] then a else b;
      forall j | j in m ensures m[k] <= m[j] {
        if j != a {
          assert j in rest;
        }
      }
    }
  }

  lemma RemoveOne(m: Store, k: string)
    requires k in m
    ensures |m - {k}| == |m| - 1
  {
    assert (m - {k}).Keys == m.Keys - {k};
  }

  /**
   `prune_content_dedupe` (app.py:810-826): drop entries older than the TTL,
   then, while above the cap, the oldest entries. Which of several entries with
   the same timestamp goes first is left open.
   */
  method Prune(store: Store, now: int) returns (r: Store)
    ensures SubStore(r, store)
    ensures forall k :: k in r ==> r[k] >= now - TtlSeconds
    ensures |r| == Min(|Fresh(store, now)|, MaxEntries)
    ensures |Fresh(store, now)| <= MaxEntries ==> r == Fresh(store, now)
    ensures forall k, j :: k in Fresh(store, now) && k !in r && j in r ==> store[k] <= store[j]
  {
    var live := Fresh(store, now);
    r := live;
    while |r| > MaxEntries
      invariant SubStore(r, live)
      invariant |r| == |live| || (|r| >= MaxEntries && |live| > MaxEntries)
      invariant |live| <= MaxEntries ==> r == live
      invariant forall k, j :: k in live && k !in r && j in r ==> live[k] <= live[j]
      decreases |r|
    {
      var o := OldestExists(r);
      var k :| k in r && forall j :: j in r ==> r[k] <= r[j];
      RemoveOne(r, k);
      r := r - {k};
    }
  }

  /** The decision `should_skip_duplicate_content` makes on a store it did not prune. */
  predicate SeenRecently(store: Store, sig: string, now: int)
  {
    |sig| != 0 && sig in store && store[sig] != 0 && now - store[sig] <= TtlSeconds
  }

  /**
   The store half of `should_skip_duplicate_content` (app.py:833-844) for a
   signature already computed: prune when over the cap, then report a
   duplicate when the signature was seen within the TTL, else record it at
   `now`. A stored timestamp of 0 counts as never seen, as Python's
   `if last_seen` does.
   */
  method CheckSignature(store: Store, sig: string, now: int) returns (skip: bool, r: Store)
    ensures |sig| == 0 ==> !skip
    ensures skip ==> SeenRecently(store, sig, now)
    ensures |store| <= MaxEntries ==> (skip <==> SeenRecently(store, sig, now))
    ensures !skip && |sig| != 0 ==> sig in r && r[sig] == now
    ensures forall k :: k in r && k != sig ==> k in store && r[k] == store[k]
    ensures skip || |sig| == 0 ==> SubStore(r, store)
    ensures |store| <= MaxEntries ==> forall k :: k in store ==> k in r
    ensures |r| <= MaxEntries + 1 && |r| <= |store| + 1
  {
    r := store;
    if |store| > MaxEntries {
      r := Prune(store, now);
    }
    if |sig| == 0 {
      return false, r;
    }
    if sig in r && r[sig] != 0 && now - r[sig] <= TtlSeconds {
      return true, r;
    }
    skip, r := false, r[sig := now];
  }

  /** `should_skip_duplicate_content` (app.py:829-844). */
  method ShouldSkipDuplicate(store: Store, md5: string -> Md5Hex, handle: string, content: string, now: int)
    returns (skip: bool, r: Store)
    ensures var sig := ContentSignature(md5, handle, content);
      && (|sig| == 0 ==> !skip)
      && (skip ==> SeenRecently(store, sig, now))
      && (|store| <= MaxEntries ==> (skip <==> SeenRecently(store, sig, now)))
      && (!skip && |sig| != 0 ==> sig in r && r[sig] == now)
      && (forall k :: k in r && k != sig ==> k in store && r[k] == store[k])
      && (skip || |sig| == 0 ==> SubStore(r, store))
      && (|store| <= MaxEntries ==> forall k :: k in store ==> k in r)
    ensures |r| <= MaxEntries + 1 && |r| <= |store| + 1
  {
    var sig := ContentSignature(md5, handle, content);
    skip, r := CheckSignature(store, sig, now);
  }

  // ---------------------------------------------------------------------
  // Properties of the signature
  // ---------------------------------------------------------------------

  /** Content that differs only in what normalisation removes has the same signature. */
  lemma SignatureIgnoresNormalization(md5: string -> Md5Hex, handle: string, content: string)
    ensures ContentSignature(md5, handle, NormalizeContent(content)) == ContentSignature(md5, handle, content)
  {
    NormalizeContentIdempotent(content);
  }

  lemma JoinSplit(a: string, b: string, c: string, d: string)
    requires '|' !in a && '|' !in c
    requires a + "|" + b == c + "|" + d
    ensures a == c && b == d
  {
    var x := a + "|" + b;
    assert x[|a|] == '|' && x[|c|] == '|';
    assert forall i :: 0 <= i < |a| ==> x[i] == a[i];
    assert forall i :: 0 <= i < |c| ==> x[i] == c[i];
    assert |a| == |c|;
    assert a == x[..|a|] == c;
    assert b == x[|a| + 1..] == d;
  }

  /** The text `make_content_signature` hashes: `handle_norm|content_norm`. */
  function DigestInput(handle: string, content: string): string
  {
    NormalizeHandle(handle) + "|" + NormalizeContent(content)
  }

  /** The digest does not collide on the two inputs `x` and `y`. */
  predicate NoCollision(md5: string -> Md5Hex, x: string, y: string)
  {
    md5(x) == md5(y) ==> x == y
  }

  /** With no collision on the two inputs and `|`-free first parts, equal signatures mean equal parts. */
  lemma SignedExact(md5: string -> Md5Hex, a: string, b: string, c: string, d: string)
    requires NoCollision(md5, a + "|" + b, c + "|" + d)
    requires '|' !in a && '|' !in c
    requires |Signed(md5, a, b)| != 0
    ensures Signed(md5, a, b) == Signed(md5, c, d) <==> a == c && b == d
  {
    if Signed(md5, a, b) == Signed(md5, c, d) {
      assert |Signed(md5, c, d)| != 0;
      assert md5(a + "|" + b) == md5(c + "|" + d);
      JoinSplit(a, b, c, d);
    }
  }

  /**
   Unless MD5 collides on the two digest inputs, and for handles without `|`,
   two posts share a signature exactly when their normalised handles and
   contents agree.
   */
  lemma SignatureExact(md5: string -> Md5Hex, h1: string, c1: string, h2: string, c2: string)
    requires NoCollision(md5, DigestInput(h1, c1), DigestInput(h2, c2))
    requires '|' !in NormalizeHandle(h1) && '|' !in NormalizeHandle(h2)
    requires |ContentSignature(md5, h1, c1)| != 0
    ensures ContentSignature(md5, h1, c1) == ContentSignature(md5, h2, c2)
        <==> NormalizeHandle(h1) == NormalizeHandle(h2) && NormalizeContent(c1) == NormalizeContent(c2)
  {
    SignedExact(md5, NormalizeHandle(h1), NormalizeContent(c1), NormalizeHandle(h2), NormalizeContent(c2));
  }

  /**
   Punctuation and emoji are not normalised away: two single-spaced texts
   without links that differ other than in letter case are hashed from
   different inputs. "Great product 🎉" and "great product!! 🎉🎉" are such a
   pair.
   */
  lemma PlainTextsDigestApart(handle: string, a: string, b: string)
    requires '|' !in NormalizeHandle(handle)
    requires SpaceNormal(a) && SpaceNormal(b) && |a| > 0
    requires forall i :: 0 <= i < |a| ==> Lower(a)[i] != 'h' && Lower(a)[i] != 'w'
    requires forall i :: 0 <= i < |b| ==> Lower(b)[i] != 'h' && Lower(b)[i] != 'w'
    requires Lower(a) != Lower(b)
    ensures DigestInput(handle, a) != DigestInput(handle, b)
  {
    PlainTextsApart(a, b);
    var h := NormalizeHandle(handle);
    if DigestInput(handle, a) == DigestInput(handle, b) {
      JoinSplit(h, NormalizeContent(a), h, NormalizeContent(b));
    }
  }

  /** So, unless MD5 collides on those two inputs, such texts get different signatures. */
  lemma PlainTextsSignedApart(md5: string -> Md5Hex, handle: string, a: string, b: string)
    requires NoCollision(md5, DigestInput(handle, a), DigestInput(handle, b))
    requires |NormalizeHandle(handle)| > 0 && '|' !in NormalizeHandle(handle)
    requires SpaceNormal(a) && SpaceNormal(b) && |a| > 0
    requires forall i :: 0 <= i < |a| ==> Lower(a)[i] != 'h' && Lower(a)[i] != 'w'
    requires forall i :: 0 <= i < |b| ==> Lower(b)[i] != 'h' && Lower(b)[i] != 'w'
    requires Lower(a) != Lower(b)
    ensures ContentSignature(md5, handle, a) != ContentSignature(md5, handle, b)
  {
    PlainTextsApart(a, b);
    var sa := ContentSignature(md5, handle, a);
    assert |sa| != 0;
    SignatureExact(md5, handle, a, handle, b);
  }

  /** Two such texts normalise to different, non-empty texts. */
  lemma PlainTextsApart(a: string, b: string)
    requires SpaceNormal(a) && SpaceNormal(b) && |a| > 0
    requires forall i :: 0 <= i < |a| ==> Lower(a)[i] != 'h' && Lower(a)[i] != 'w'
    requires forall i :: 0 <= i < |b| ==> Lower(b)[i] != 'h' && Lower(b)[i] != 'w'
    requires Lower(a) != Lower(b)
    ensures NormalizeContent(a) != NormalizeContent(b) && |NormalizeContent(a)| > 0
  {
    PlainLowered(a);
    PlainLowered(b);
  }

  /** A single-spaced text without links normalises to its lower-cased self. */
  lemma PlainLowered(a: string)
    requires SpaceNormal(a)
    requires forall i :: 0 <= i < |a| ==> Lower(a)[i] != 'h' && Lower(a)[i] != 'w'
    ensures NormalizeContent(a) == Lower(a)
  {
    NormalizeContentLower(a);
    SpaceNormalLower(a);
    PlainTextFixed(Lower(a));
  }

  // ---------------------------------------------------------------------
  // Two admissions of the same post
  // ---------------------------------------------------------------------

  /**
   A post with a non-empty signature, checked at a non-zero time and again at
   most the TTL later, is skipped the second time whenever the first check
   admitted it, whatever the store held before; the first check admits it
   exactly when it was not seen recently. (A stored 0 reads as "never seen",
   hence `t1 != 0`; an empty signature is never skipped.)
   */
  method RepeatWithinTtl(store: Store, md5: string -> Md5Hex, handle: string, content: string, t1: int, t2: int)
    returns (first: bool, second: bool)
    requires |store| < MaxEntries
    requires |ContentSignature(md5, handle, content)| != 0
    requires t1 != 0 && t2 - t1 <= TtlSeconds
    ensures first <==> SeenRecently(store, ContentSignature(md5, handle, content), t1)
    ensures !first ==> second
  {
    var r;
    first, r := ShouldSkipDuplicate(store, md5, handle, content, t1);
    second, r := ShouldSkipDuplicate(r, md5, handle, content, t2);
  }

  /**
   A post not seen recently at the first check, and seen again more than the
   TTL later, is admitted both times and its timestamp refreshed.
   */
  method RepeatAfterTtl(store: Store, md5: string -> Md5Hex, handle: string, content: string, t1: int, t2: int)
    returns (first: bool, second: bool, r: Store)
    requires |store| < MaxEntries
    requires !SeenRecently(store, ContentSignature(md5, handle, content), t1)
    requires |ContentSignature(md5, handle, content)| != 0
    requires t2 > t1 + TtlSeconds
    ensures !first && !second
    ensures var sig := ContentSignature(md5, handle, content); sig in r && r[sig] == t2
  {
    first, r := ShouldSkipDuplicate(store, md5, handle, content, t1);
    second, r := ShouldSkipDuplicate(r, md5, handle, content, t2);
  }

  /**
   Two posts of the same author whose signatures differ, neither seen recently
   in the store at its own check time, are both admitted one after the other,
   whatever the time between them: admitting the first does not make the
   second look seen.
   */
  method DistinctPostsBothAdmitted(store: Store, md5: string -> Md5Hex, handle: string, c1: string, c2: string, t1: int, t2: int)
    returns (first: bool, second: bool)
    requires |store| < MaxEntries
    requires !SeenRecently(store, ContentSignature(md5, handle, c1), t1)
    requires !SeenRecently(store, ContentSignature(md5, handle, c2), t2)
    requires ContentSignature(md5, handle, c1) != ContentSignature(md5, handle, c2)
    ensures !first && !second
  {
    var r;
    first, r := ShouldSkipDuplicate(store, md5, handle, c1, t1);
    second, r := ShouldSkipDuplicate(r, md5, handle, c2, t2);
  }
}

=== FILE: items.dfy ===
/**
 The captured-result record that the scanners produce and the dashboard lists
 (`pending_results` entries in app.py, built e.g. at app.py:1984-1998).
 */
module Items {
  /** The `source` value of results captured from the notifications page. */
  const NotifySource: string := "通知页面"

  /**
   One captured result. Absent fields are "": `status_id` is stored as
   `status_id or ""`, so "" also stands for Python's `None`.
   */
  datatype Item = Item(
    key: string,
    handle: string,
    content: string,
    source: string,
    statusId: string,
    statusHandle: string,
    statusUrl: string)
}

=== FILE: matcher.dfy ===
/**
 Locating the card to reply to: the notification-card matcher
 `_match_notification_card_for_reply` (app.py:2747-2814), its conversation-page
 sibling `_match_reply_target_article` (app.py:2671-2744), and the acceptance
 gate of `send_notification_reply` (app.py:3421-3503).

 Cards are abstract records whose fields the browser has already extracted;
 "" stands for a field the page did not provide.
 */
module Matcher {
  import opened Text
  import opened Normalize
  import opened Outcome
  import opened Items
  import opened NotifKey
  import opened Ranking

  // ---------------------------------------------------------------------
  // Shared scoring rules
  // ---------------------------------------------------------------------

  /** Containment either way round. */
  predicate EitherContains(a: string, b: string)
  {
    Contains(b, a) || Contains(a, b)
  }

  /** The first 12 characters of the wanted content, when at least 6 long, occur in the card's. */
  predicate PivotFound(wanted: string, found: string)
  {
    var pivot := Take(wanted, 12);
    |pivot| >= 6 && Contains(found, pivot)
  }

  /** The content points: `full` for containment either way, `partial` for the pivot. */
  function ContentPoints(wanted: string, found: string, full: nat, partial: nat): (p: nat)
    ensures p == 0 || p == full || p == partial
    ensures |wanted| == 0 || |found| == 0 ==> p == 0
    ensures |wanted| > 0 && |found| > 0 && EitherContains(wanted, found) ==> p == full
  {
    if |wanted| > 0 && |found| > 0 then
      if EitherContains(wanted, found) then full
      else if PivotFound(wanted, found) then partial
      else 0
    else 0
  }

  // ---------------------------------------------------------------------
  // The notification-page matcher
  // ---------------------------------------------------------------------

  /**
   The fields the notification matcher reads off one card: its status id, its
   author and text already passed through `normalize_handle` and
   `normalize_content_for_dedupe` (app.py:2778-2790), and whether its reply
   button is displayed.
   */
  datatype NotifCard = NotifCard(statusId: string, handleNorm: string, contentNorm: string, replyVisible: bool)

  /** A card as the page presents it, normalised the way the matcher does. */
  function NotifCardOf(statusId: string, handle: string, content: string, replyVisible: bool): NotifCard
  {
    NotifCard(statusId, NormalizeHandle(handle), NormalizeContent(content), replyVisible)
  }

  /** What the reply is looking for, already normalised. */
  datatype Target = Target(statusId: string, handleNorm: string, contentNorm: string)

  /** `target_status_id`, `handle_norm`, `content_norm` (app.py:2749-2751). */
  function TargetOf(statusId: string, handle: string, content: string): Target
  {
    Target(Strip(statusId), NormalizeHandle(handle), NormalizeContent(content))
  }

  const NotifCardLimit: nat := 80

  /** The author points (app.py:2780-2784): 100 for equal handles, 50 for containment either way. */
  function NotifHandlePoints(wanted: string, found: string): (p: nat)
    ensures p == 0 || p == 50 || p == 100
    ensures p == 100 <==> |wanted| > 0 && found == wanted
  {
    if |wanted| > 0 && |found| > 0 then
      if found == wanted then 100
      else if EitherContains(wanted, found) then 50
      else 0
    else 0
  }

  /** The status-id points, or `None` for a card that is about another status (app.py:2771-2775). */
  function NotifStatusPoints(target: string, found: string): (p: Option<nat>)
  {
    if |target| > 0 then
      if found == target then Some(260)
      else if |found| > 0 then None
      else Some(0)
    else Some(0)
  }

  /**
   A card's score (app.py:2767-2807), or `None` when the card is skipped: it
   is about another status, or its reply button is not visible.
   */
  function NotifCardScore(t: Target, c: NotifCard): (r: Option<int>)
    ensures r.Some? ==> c.replyVisible
    ensures r.Some? && |t.statusId| > 0 ==> c.statusId == t.statusId || |c.statusId| == 0
    ensures r.None? <==> !c.replyVisible || (|t.statusId| > 0 && |c.statusId| > 0 && c.statusId != t.statusId)
    ensures r.Some? && (|t.statusId| == 0 || c.statusId != t.statusId) ==> 20 <= r.value <= 200
    ensures r.Some? && |t.statusId| > 0 && c.statusId == t.statusId ==> 280 <= r.value <= 460
  {
    var st := NotifStatusPoints(t.statusId, c.statusId);
    if st.None? || !c.replyVisible then None
    else
      var hp := NotifHandlePoints(t.handleNorm, c.handleNorm);
      var cp := ContentPoints(t.contentNorm, c.contentNorm, 80, 35);
      Some(st.value + hp + cp + 20)
  }

  /** `_match_notification_card_for_reply` (app.py:2747-2814) on the first 80 cards. */
  function MatchNotifCard(t: Target, cards: seq<NotifCard>): (r: Option<Match>)
    ensures r.Some? ==> r.value.index < |cards| && r.value.index < NotifCardLimit
    ensures r.Some? ==> cards[r.value.index].replyVisible
    ensures r.Some? && |t.statusId| > 0 ==>
      cards[r.value.index].statusId == t.statusId || |cards[r.value.index].statusId| == 0
  {
    var scan := Take(cards, NotifCardLimit);
    var r := BestBy(c => NotifCardScore(t, c), scan);
    if r.Some? then
      assert scan[r.value.index] == cards[r.value.index];
      r
    else r
  }

  /** A winning score of 260 or more means the card carries the wanted status id. */
  lemma NotifHighScoreMeansStatus(t: Target, cards: seq<NotifCard>)
    requires MatchNotifCard(t, cards).Some? && MatchNotifCard(t, cards).value.score >= 260
    ensures |t.statusId| > 0 && cards[MatchNotifCard(t, cards).value.index].statusId == t.statusId
  {
    var m := MatchNotifCard(t, cards).value;
    assert NotifCardScore(t, cards[m.index]) == Some(m.score);
  }

  /**
   A visible card carrying the wanted id among the first 80 always wins over
   every card without it, so the winner carries the id.
   */
  lemma NotifStatusCardWins(t: Target, cards: seq<NotifCard>, k: nat)
    requires |t.statusId| > 0 && k < |cards| && k < NotifCardLimit
    requires cards[k].statusId == t.statusId && cards[k].replyVisible
    ensures MatchNotifCard(t, cards).Some?
    ensures cards[MatchNotifCard(t, cards).value.index].statusId == t.statusId
    ensures MatchNotifCard(t, cards).value.score >= 280
  {
    var scan := Take(cards, NotifCardLimit);
    var score := (c: NotifCard) => NotifCardScore(t, c);
    assert scan[k] == cards[k];
    BestAboveFloor(score, scan, 280, (c: NotifCard) => c.statusId == t.statusId, k);
    BestByCorrect(score, scan);
  }

  // ---------------------------------------------------------------------
  // The acceptance gate of send_notification_reply
  // ---------------------------------------------------------------------

  const ReplyAttempts: nat := 5

  /** The card the reply goes to: on which attempt's page, which card, with what score. */
  datatype Located = Located(attempt: nat, index: nat, score: int)

  /** `required_score` (app.py:3491, 3501). */
  function RequiredScore(statusId: string): int
  {
    if |statusId| > 0 then 260 else 120
  }

  /** One attempt's match is good enough to stop (app.py:3492-3493). */
  predicate Accepted(m: Option<Match>, statusId: string)
  {
    m.Some? && m.value.score >= RequiredScore(statusId)
  }

  /**
   The retry loop (app.py:3481-3498): match against the page seen at each
   attempt, stop at the first accepted match, else keep the last attempt's.
   */
  function Attempt(matches: nat -> Option<Match>, statusId: string, a: nat): (r: (nat, Option<Match>))
    requires a < ReplyAttempts
    ensures a <= r.0 < ReplyAttempts && r.1 == matches(r.0)
    ensures Accepted(r.1, statusId) || r.0 == ReplyAttempts - 1
    ensures forall b :: a <= b < r.0 ==> !Accepted(matches(b), statusId)
    decreases ReplyAttempts - a
  {
    var m := matches(a);
    if Accepted(m, statusId) || a == ReplyAttempts - 1 then (a, m)
    else Attempt(matches, statusId, a + 1)
  }

  /** The match found on the page shown at each attempt. */
  function PageMatches(t: Target, pages: nat -> seq<NotifCard>): nat -> Option<Match>
  {
    (a: nat) => MatchNotifCard(t, pages(a))
  }

  /**
   The locating half of `send_notification_reply` (app.py:3478-3503), for a
   known target. The low-confidence message is abbreviated: the source also
   writes the winning score into it as `(score=…)`.
   */
  function LocateCard(t: Target, statusId: string, pages: nat -> seq<NotifCard>): (r: Result<Located>)
  {
    var (a, m) := Attempt(PageMatches(t, pages), statusId, 0);
    if m.None? then Err("未在通知页定位到目标评论卡片", 0)
    else if m.value.score < RequiredScore(statusId) then Err("通知卡片匹配置信度不足，已阻止误回复", 0)
    else Ok(Located(a, m.value.index, m.value.score))
  }

  /**
   `send_notification_reply` up to the click (app.py:3421-3503): refuse without
   a token or a status id, then locate the card and refuse a weak match.
   `pages(a)` is the list of cards the page shows at attempt `a`.
   */
  function LocateReplyCard(token: string, item: Item, pages: nat -> seq<NotifCard>): (r: Result<Located>)
  {
    var statusId := ExtractStatusId(item);
    if |Strip(token)| == 0 then Err("请先配置并验证 auth_token 后再回复", 0)
    else if |statusId| == 0 then Err("该通知缺少可回复的状态ID（可能是兜底通知记录）", 0)
    else LocateCard(TargetOf(statusId, item.handle, item.content), statusId, pages)
  }

  /** The located card carries the target's status id and is accepted exactly when some attempt reaches 260. */
  lemma LocateCardSafe(t: Target, statusId: string, pages: nat -> seq<NotifCard>)
    requires |statusId| > 0 && t.statusId == statusId
    ensures var r := LocateCard(t, statusId, pages);
      r.Ok? ==>
        && r.value.attempt < ReplyAttempts
        && r.value.index < |pages(r.value.attempt)|
        && pages(r.value.attempt)[r.value.index].statusId == statusId
        && pages(r.value.attempt)[r.value.index].replyVisible
        && r.value.score >= 260
    ensures LocateCard(t, statusId, pages).Ok? <==>
      exists a :: 0 <= a < ReplyAttempts && Accepted(MatchNotifCard(t, pages(a)), statusId)
  {
    LocatedCarriesStatus(t, statusId, pages);
    LocatedIffAccepted(t, statusId, pages);
  }

  lemma LocatedCarriesStatus(t: Target, statusId: string, pages: nat -> seq<NotifCard>)
    requires |statusId| > 0 && t.statusId == statusId
    ensures var r := LocateCard(t, statusId, pages);
      r.Ok? ==>
        && r.value.attempt < ReplyAttempts
        && r.value.index < |pages(r.value.attempt)|
        && pages(r.value.attempt)[r.value.index].statusId == statusId
        && pages(r.value.attempt)[r.value.index].replyVisible
        && r.value.score >= 260
  {
    var (a, m) := Attempt(PageMatches(t, pages), statusId, 0);
    if m.Some? && m.value.score >= 260 {
      NotifHighScoreMeansStatus(t, pages(a));
    }
  }

  lemma LocatedIffAccepted(t: Target, statusId: string, pages: nat -> seq<NotifCard>)
    requires |statusId| > 0
    ensures LocateCard(t, statusId, pages).Ok? <==>
      exists a :: 0 <= a < ReplyAttempts && Accepted(MatchNotifCard(t, pages(a)), statusId)
  {
    var ms := PageMatches(t, pages);
    LocateOkIff(t, statusId, pages);
    AttemptFindsAccepted(ms, statusId);
    if LocateCard(t, statusId, pages).Ok? {
      var a :| 0 <= a < ReplyAttempts && Accepted(ms(a), statusId);
      assert ms(a) == MatchNotifCard(t, pages(a));
    } else {
      forall a | 0 <= a < ReplyAttempts
        ensures !Accepted(MatchNotifCard(t, pages(a)), statusId)
      {
        assert ms(a) == MatchNotifCard(t, pages(a));
      }
    }
  }

  /** A card is located exactly when the retry loop ends on an accepted match. */
  lemma LocateOkIff(t: Target, statusId: string, pages: nat -> seq<NotifCard>)
    requires |statusId| > 0
    ensures LocateCard(t, statusId, pages).Ok? <==> Accepted(Attempt(PageMatches(t, pages), statusId, 0).1, statusId)
  {
  }

  /**
   The retry loop stops at the first accepted attempt, or gives up at the
   last, so it ends on an accepted match exactly when some attempt has one.
   */
  lemma AttemptFindsAccepted(matches: nat -> Option<Match>, statusId: string)
    ensures Accepted(Attempt(matches, statusId, 0).1, statusId) <==>
      exists a :: 0 <= a < ReplyAttempts && Accepted(matches(a), statusId)
  {
    var (a, m) := Attempt(matches, statusId, 0);
    if b :| 0 <= b < ReplyAttempts && Accepted(matches(b), statusId) {
      assert b >= a;
    }
  }

  /**
   A reply is only ever sent to a visible card whose status id is the one the
   notification carries, and it is sent exactly when a token is set, the
   notification has a status id, and some attempt's page yields a match
   scoring at least 260.
   */
  lemma LocateReplyCardSafe(token: string, item: Item, pages: nat -> seq<NotifCard>)
    ensures var r := LocateReplyCard(token, item, pages);
      r.Ok? ==>
        && r.value.attempt < ReplyAttempts
        && r.value.index < |pages(r.value.attempt)|
        && pages(r.value.attempt)[r.value.index].statusId == ExtractStatusId(item)
        && pages(r.value.attempt)[r.value.index].replyVisible
        && r.value.score >= 260
    ensures var statusId := ExtractStatusId(item);
      LocateReplyCard(token, item, pages).Ok? <==>
        && |Strip(token)| > 0 && |statusId| > 0
        && LocateCard(TargetOf(statusId, item.handle, item.content), statusId, pages).Ok?
  {
    var statusId := ExtractStatusId(item);
    if |Strip(token)| > 0 && |statusId| > 0 {
      var t := TargetOf(statusId, item.handle, item.content);
      DigitsStripped(statusId);
      assert t.statusId == statusId;
      LocateCardSafe(t, statusId, pages);
    }
  }

  // ---------------------------------------------------------------------
  // The conversation-page matcher
  // ---------------------------------------------------------------------

  /**
   The fields `_match_reply_target_article` reads off one conversation card:
   the status ids its links carry, the lower-case `@handle` of its author line,
   its text passed through `normalize_content_for_dedupe`, and whether its
   reply button is displayed.
   */
  datatype ThreadCard = ThreadCard(statusIds: set<string>, handle: string, contentNorm: string, replyVisible: bool)

  /** A conversation card as the page presents it, normalised the way the matcher does (app.py:2714-2716). */
  function ThreadCardOf(statusIds: set<string>, handle: string, content: string, replyVisible: bool): ThreadCard
  {
    ThreadCard(statusIds, handle, NormalizeContent(Strip(content)), replyVisible)
  }

  const ThreadCardLimit: nat := 40

  /** The author points (app.py:2702-2706): 120 for the same handle, 60 when it contains the wanted one. */
  function ThreadHandlePoints(wanted: string, found: string): (p: nat)
    ensures p == 0 || p == 60 || p == 120
    ensures p == 120 <==> |wanted| > 0 && found == wanted
  {
    if |wanted| > 0 && |found| > 0 then
      if found == wanted then 120
      else if Contains(found, wanted) then 60
      else 0
    else 0
  }

  /** A conversation card's score (app.py:2685-2736), `None` when it is skipped. */
  function ThreadCardScore(t: Target, c: ThreadCard): (r: Option<int>)
    ensures r.Some? ==> c.replyVisible
    ensures r.None? <==> !c.replyVisible || (|t.statusId| > 0 && t.statusId !in c.statusIds && |c.statusIds| > 0)
    ensures r.Some? && (|t.statusId| == 0 || t.statusId !in c.statusIds) ==> 10 <= r.value <= 220
    ensures r.Some? && |t.statusId| > 0 && t.statusId in c.statusIds ==> 230 <= r.value <= 440
  {
    var st := if |t.statusId| > 0 && t.statusId in c.statusIds then 220 else 0;
    if |t.statusId| > 0 && t.statusId !in c.statusIds && |c.statusIds| > 0 then None
    else if !c.replyVisible then None
    else
      var hp := ThreadHandlePoints(t.handleNorm, c.handle);
      var cp := ContentPoints(t.contentNorm, c.contentNorm, 90, 30);
      Some(st + hp + cp + 10)
  }

  /** `_match_reply_target_article` (app.py:2671-2744) on the first 40 cards. */
  function MatchThreadCard(t: Target, cards: seq<ThreadCard>): (r: Option<Match>)
    ensures r.Some? ==> r.value.index < |cards| && r.value.index < ThreadCardLimit
    ensures r.Some? ==> cards[r.value.index].replyVisible
    ensures r.Some? && |t.statusId| > 0 ==>
      t.statusId in cards[r.value.index].statusIds || |cards[r.value.index].statusIds| == 0
  {
    var scan := Take(cards, ThreadCardLimit);
    var r := BestBy(c => ThreadCardScore(t, c), scan);
    if r.Some? then
      assert scan[r.value.index] == cards[r.value.index];
      r
    else r
  }

  /** A visible conversation card linking the wanted status always beats the cards that do not. */
  lemma ThreadStatusCardWins(t: Target, cards: seq<ThreadCard>, k: nat)
    requires |t.statusId| > 0 && k < |cards| && k < ThreadCardLimit
    requires t.statusId in cards[k].statusIds && cards[k].replyVisible
    ensures MatchThreadCard(t, cards).Some?
    ensures t.statusId in cards[MatchThreadCard(t, cards).value.index].statusIds
  {
    var scan := Take(cards, ThreadCardLimit);
    var score := (c: ThreadCard) => ThreadCardScore(t, c);
    assert scan[k] == cards[k];
    BestAboveFloor(score, scan, 230, (c: ThreadCard) => t.statusId in c.statusIds, k);
  }
}

=== FILE: normalize.dfy ===
/**
 Text normalisation used for content de-duplication and card matching
 (`normalize_handle`, `normalize_content_for_dedupe` in app.py).

 `normalize_content_for_dedupe` is four regular-expression passes:
   1. `\s+` -> " ", strip, lower-case;
   2. `https?://\S+` -> " " (case-insensitive);
   3. `www\.\S+` -> " " (case-insensitive);
   4. `\s+` -> " ", strip.
 Passes 2 and 3 are the same scrubbing scheme over two patterns, modelled once
 by `Scrub`.
 */
module Normalize {
  import opened Text

  /** The two link patterns the content normaliser removes. */
  datatype Pattern = Url | Www

  /** Prefix test that ignores ASCII case, as `re.IGNORECASE` does; `p` is lower case. */
  predicate StartsWithCI(s: string, p: string)
  {
    |p| <= |s| && Lower(s[..|p|]) == p
  }

  /** Length of the longest prefix of `s` with no whitespace (what `\S*` consumes). */
  function NonSpaceLen(s: string): (n: nat)
    ensures n <= |s|
    ensures forall i :: 0 <= i < n ==> !IsSpace(s[i])
  {
    if |s| > 0 && !IsSpace(s[0]) then 1 + NonSpaceLen(s[1..]) else 0
  }

  /** Length of the literal head of the pattern (`https://`, `http://`, `www.`) at the start of `s`, or 0. */
  function LeadLen(p: Pattern, s: string): nat
  {
    match p
    case Url => if StartsWithCI(s, "https://") then 8 else if StartsWithCI(s, "http://") then 7 else 0
    case Www => if StartsWithCI(s, "www.") then 4 else 0
  }

  /** Length of the pattern's match anchored at the start of `s`, or 0 when it does not match there. */
  function MatchLen(p: Pattern, s: string): (n: nat)
    ensures n <= |s|
  {
    var lead := LeadLen(p, s);
    if lead > 0 && lead < |s| && !IsSpace(s[lead]) then lead + NonSpaceLen(s[lead..]) else 0
  }

  predicate TokenAt(p: Pattern, s: string)
  {
    MatchLen(p, s) > 0
  }

  /** No position of `s` starts a match of `p`: the pattern is absent from the text. */
  predicate NoToken(p: Pattern, s: string)
  {
    forall i :: 0 <= i < |s| ==> !TokenAt(p, s[i..])
  }

  /** `re.sub(pattern, ' ', s, flags=re.IGNORECASE)`, scanning left to right. */
  function Scrub(p: Pattern, s: string): string
    decreases |s|
  {
    if |s| == 0 then "" else [ScrubHead(p, s)] + Scrub(p, s[ScrubStep(p, s)..])
  }

  /** What one step of the scan emits: a space for a match, else the character itself. */
  function ScrubHead(p: Pattern, s: string): char
    requires |s| > 0
  {
    if MatchLen(p, s) > 0 then ' ' else s[0]
  }

  /** How far one step of the scan advances: past the match, else one character. */
  function ScrubStep(p: Pattern, s: string): (n: nat)
    requires |s| > 0
    ensures 1 <= n <= |s|
  {
    if MatchLen(p, s) > 0 then MatchLen(p, s) else 1
  }

  /** `normalize_content_for_dedupe` (app.py:791-797). */
  function NormalizeContent(content: string): (r: string)
    ensures NoUpper(r)
    ensures SpaceNormal(r)
    ensures NoToken(Url, r) && NoToken(Www, r)
  {
    var t1 := Lower(Strip(Collapse(content)));
    var t2 := Scrub(Url, t1);
    var t3 := Scrub(Www, t2);
    var r := Strip(Collapse(t3));
    NormalizeContentShape(t1, t2, t3, r);
    r
  }

  /** `normalize_handle` (app.py:968-972): strip, drop leading `@`, lower-case. */
  function NormalizeHandle(handle: string): (r: string)
    ensures NoUpper(r)
    ensures |r| > 0 ==> r[0] != '@'
  {
    Lower(LStripChar(Strip(handle), '@'))
  }

  // ---------------------------------------------------------------------
  // The match of a pattern is decided by a short space-free window
  // ---------------------------------------------------------------------

  /** How many leading characters decide `TokenAt(p, s)`: the literal head plus one. */
  function TokenWidth(p: Pattern, s: string): nat
  {
    LeadLen(p, s) + 1
  }

  lemma TokenWindowSpaceFree(p: Pattern, s: string)
    requires TokenAt(p, s)
    ensures TokenWidth(p, s) <= |s| && SpaceFree(s[..TokenWidth(p, s)])
  {
    var lead := LeadLen(p, s);
    assert forall i :: 0 <= i < lead ==> s[i] != ' ' && !IsSpace(s[i]) by {
      forall i | 0 <= i < lead ensures !IsSpace(s[i]) {
        assert Lower(s[..lead])[i] == LowerChar(s[i]);
      }
    }
  }

  lemma TokenTransfer(p: Pattern, s: string, t: string)
    requires TokenAt(p, s)
    requires TokenWidth(p, s) <= |t| && t[..TokenWidth(p, s)] == s[..TokenWidth(p, s)]
    ensures TokenAt(p, t)
  {
    var w := TokenWidth(p, s);
    assert forall i :: 0 <= i < w ==> t[i] == s[i] by {
      forall i | 0 <= i < w ensures t[i] == s[i] {
        assert t[..w][i] == s[..w][i];
      }
    }
    match p
    case Url =>
      if StartsWithCI(s, "https://") {
        assert StartsWithCI(t, "https://");
      } else {
        assert !StartsWithCI(t, "https://") by {
          if |t| >= 8 && |s| >= 8 {
            assert forall i :: 0 <= i < 8 ==> t[i] == s[i];
          }
        }
        assert StartsWithCI(t, "http://");
      }
    case Www =>
      assert StartsWithCI(t, "www.");
  }

  // ---------------------------------------------------------------------
  // Scrub: what survives a pass, and that the pattern is gone afterwards
  // ---------------------------------------------------------------------

  /**
   `r` is what a left-to-right scan of `s` emitted, one character per step:
   step `k` consumed `steps[k]` characters and emitted either a space or, when
   it consumed exactly one, that character.
   */
  predicate Scans(s: string, r: string, steps: seq<nat>)
    decreases |steps|
  {
    if |steps| == 0 then |s| == 0 && |r| == 0
    else
      && 1 <= steps[0] <= |s| && |r| > 0
      && (!IsSpace(r[0]) ==> steps[0] == 1 && r[0] == s[0])
      && Scans(s[steps[0]..], r[1..], steps[1..])
  }

  /** The steps `Scrub` takes. */
  function ScrubSteps(p: Pattern, s: string): seq<nat>
    decreases |s|
  {
    if |s| == 0 then [] else [ScrubStep(p, s)] + ScrubSteps(p, s[ScrubStep(p, s)..])
  }

  lemma {:induction false} ScrubScans(p: Pattern, s: string)
    ensures Scans(s, Scrub(p, s), ScrubSteps(p, s))
    decreases |s|
  {
    if |s| > 0 {
      var m := ScrubStep(p, s);
      ScrubScans(p, s[m..]);
      ScrubScansStep(p, s, Scrub(p, s), ScrubSteps(p, s));
    }
  }

  lemma ScrubScansStep(p: Pattern, s: string, r: string, steps: seq<nat>)
    requires |s| > 0 && r == Scrub(p, s) && steps == ScrubSteps(p, s)
    requires Scans(s[ScrubStep(p, s)..], Scrub(p, s[ScrubStep(p, s)..]), ScrubSteps(p, s[ScrubStep(p, s)..]))
    ensures Scans(s, r, steps)
  {
    var m := ScrubStep(p, s);
    assert r[1..] == Scrub(p, s[m..]);
    assert steps[1..] == ScrubSteps(p, s[m..]);
  }

  /** A space-free prefix of a scan's output is a prefix of its input that the scan left alone. */
  lemma {:induction false} ScansPrefix(s: string, r: string, steps: seq<nat>, n: nat)
    requires Scans(s, r, steps) && n <= |r| && SpaceFree(r[..n])
    ensures n <= |s| && s[..n] == r[..n]
    decreases |steps|
  {
    if n > 0 {
      SpaceFreeHead(r, n);
      assert r == [s[0]] + r[1..];
      SpaceFreeConsPrefix(s, r, r[1..], n);
      ScansPrefix(s[1..], r[1..], steps[1..], n - 1);
    }
  }

  /** Every space-free window of a scan's output is a window of its input. */
  lemma {:induction false} ScansWindow(s: string, r: string, steps: seq<nat>, i: nat, n: nat) returns (j: nat)
    requires Scans(s, r, steps) && i + n <= |r| && SpaceFree(r[i..i + n])
    ensures j + n <= |s| && s[j..j + n] == r[i..i + n]
    decreases |steps|
  {
    if i == 0 {
      assert r[..n] == r[0..n];
      ScansPrefix(s, r, steps, n);
      assert s[..n] == s[0..n];
      j := 0;
    } else {
      var m := steps[0];
      assert r == [r[0]] + r[1..];
      ConsWindow(r[0], r[1..], i, n);
      var j' := ScansWindow(s[m..], r[1..], steps[1..], i - 1, n);
      j := m + j';
      SuffixWindowChain(s, m, j', n, r, r[1..], i, i - 1);
    }
  }

  /** A space-free prefix of `Scrub(p, s)` is a prefix of `s` that the pass left alone. */
  lemma ScrubPrefix(p: Pattern, s: string, n: nat)
    requires n <= |Scrub(p, s)| && SpaceFree(Scrub(p, s)[..n])
    ensures n <= |s| && s[..n] == Scrub(p, s)[..n]
  {
    ScrubScans(p, s);
    ScansPrefix(s, Scrub(p, s), ScrubSteps(p, s), n);
  }

  /** Every space-free window of `Scrub(p, s)` is a window of `s`. */
  lemma ScrubWindow(p: Pattern, s: string, i: nat, n: nat) returns (j: nat)
    requires i + n <= |Scrub(p, s)| && SpaceFree(Scrub(p, s)[i..i + n])
    ensures j + n <= |s| && s[j..j + n] == Scrub(p, s)[i..i + n]
  {
    ScrubScans(p, s);
    j := ScansWindow(s, Scrub(p, s), ScrubSteps(p, s), i, n);
  }

  /** No match starts at a space. */
  lemma SpaceLeadsNoToken(p: Pattern, x: string)
    requires |x| > 0 && x[0] == ' '
    ensures LeadLen(p, x) == 0
  {
    forall k | 0 < k <= |x|
      ensures Lower(x[..k])[0] == ' '
    {
      assert x[..k][0] == ' ';
    }
  }

  /** After a pass of `re.sub(pattern, ' ', ...)` the pattern matches nowhere. */
  lemma {:induction false} ScrubRemovesPattern(p: Pattern, s: string)
    ensures NoToken(p, Scrub(p, s))
    decreases |s|
  {
    var r := Scrub(p, s);
    if |s| > 0 {
      var m := ScrubStep(p, s);
      var t := Scrub(p, s[m..]);
      ScrubRemovesPattern(p, s[m..]);
      assert r == [ScrubHead(p, s)] + t;
      forall i | 0 <= i < |r|
        ensures !TokenAt(p, r[i..])
      {
        if i > 0 {
          assert r[i..] == t[i - 1..];
        } else if MatchLen(p, s) > 0 {
          assert r[0] == ' ';
          SpaceLeadsNoToken(p, r);
        } else if TokenAt(p, r) {
          TokenWindowSpaceFree(p, r);
          ScrubPrefix(p, s, TokenWidth(p, r));
          TokenTransfer(p, r, s);
          assert false;
        }
      }
    }
  }

  lemma {:induction false} ScrubIdentity(p: Pattern, s: string)
    requires NoToken(p, s)
    ensures Scrub(p, s) == s
    decreases |s|
  {
    if |s| > 0 {
      assert s[0..] == s;
      assert forall i :: 0 <= i < |s| - 1 ==> s[1..][i..] == s[i + 1..];
      ScrubIdentity(p, s[1..]);
    }
  }

  lemma {:induction false} ScrubKeepsChars(p: Pattern, s: string, i: nat)
    requires i < |Scrub(p, s)|
    ensures Scrub(p, s)[i] == ' ' || Scrub(p, s)[i] in s
    decreases |s|
  {
    var m := ScrubStep(p, s);
    assert Scrub(p, s) == [ScrubHead(p, s)] + Scrub(p, s[m..]);
    if i > 0 {
      ScrubKeepsChars(p, s[m..], i - 1);
      assert Scrub(p, s)[i] == Scrub(p, s[m..])[i - 1];
      assert forall c :: c in s[m..] ==> c in s;
    }
  }

  /** A match in `r` at `i` has a space-free window of `TokenWidth` characters there. */
  lemma TokenWindow(q: Pattern, r: string, i: nat) returns (w: nat)
    requires i < |r| && TokenAt(q, r[i..])
    ensures w == TokenWidth(q, r[i..]) && i + w <= |r| && SpaceFree(r[i..i + w])
  {
    w := TokenWidth(q, r[i..]);
    TokenWindowSpaceFree(q, r[i..]);
    assert r[i..][..w] == r[i..i + w];
  }

  /** A match in `r` whose deciding window also occurs in `s` at `j` is a match in `s` at `j`. */
  lemma TokenPullback(q: Pattern, r: string, i: nat, w: nat, s: string, j: nat)
    requires i < |r| && TokenAt(q, r[i..]) && w == TokenWidth(q, r[i..])
    requires i + w <= |r| && j + w <= |s| && s[j..j + w] == r[i..i + w]
    ensures j < |s| && TokenAt(q, s[j..])
  {
    assert r[i..][..w] == r[i..i + w];
    assert s[j..][..w] == s[j..j + w];
    TokenTransfer(q, r[i..], s[j..]);
  }

  /** A scan cannot create a match of a pattern absent from its input. */
  lemma ScansKeepsNoToken(q: Pattern, s: string, r: string, steps: seq<nat>)
    requires Scans(s, r, steps) && NoToken(q, s)
    ensures NoToken(q, r)
  {
    forall i | 0 <= i < |r|
      ensures !TokenAt(q, r[i..])
    {
      if TokenAt(q, r[i..]) {
        var w := TokenWindow(q, r, i);
        var j := ScansWindow(s, r, steps, i, w);
        TokenPullback(q, r, i, w, s, j);
        assert false;
      }
    }
  }

  /** A pass for one pattern does not create a match of another. */
  lemma ScrubKeepsNoToken(q: Pattern, p: Pattern, s: string)
    requires NoToken(q, s)
    ensures NoToken(q, Scrub(p, s))
  {
    ScrubScans(p, s);
    ScansKeepsNoToken(q, s, Scrub(p, s), ScrubSteps(p, s));
  }

  lemma CollapseKeepsNoToken(q: Pattern, s: string)
    requires NoToken(q, s)
    ensures NoToken(q, Collapse(s))
  {
    var r := Collapse(s);
    forall i | 0 <= i < |r|
      ensures !TokenAt(q, r[i..])
    {
      if TokenAt(q, r[i..]) {
        var w := TokenWindow(q, r, i);
        var j := CollapseWindow(s, i, w);
        TokenPullback(q, r, i, w, s, j);
        assert false;
      }
    }
  }

  lemma StripKeepsNoToken(q: Pattern, s: string)
    requires NoToken(q, s)
    ensures NoToken(q, Strip(s))
  {
    var r := Strip(s);
    forall i | 0 <= i < |r|
      ensures !TokenAt(q, r[i..])
    {
      if TokenAt(q, r[i..]) {
        var w := TokenWindow(q, r, i);
        var j := StripWindow(s, i, w);
        TokenPullback(q, r, i, w, s, j);
        assert false;
      }
    }
  }

  lemma NoUpperKept(s: string)
    requires NoUpper(s)
    ensures NoUpper(Collapse(s)) && NoUpper(Strip(s))
    ensures forall p: Pattern :: NoUpper(Scrub(p, s))
  {
    NoUpperCollapse(s);
    NoUpperStrip(s);
    forall p: Pattern ensures NoUpper(Scrub(p, s)) {
      NoUpperScrub(p, s);
    }
  }

  lemma NoUpperCollapse(s: string)
    requires NoUpper(s)
    ensures NoUpper(Collapse(s))
  {
    forall i | 0 <= i < |Collapse(s)| ensures !IsUpper(Collapse(s)[i]) {
      CollapseKeepsChars(s, i);
    }
  }

  lemma NoUpperStrip(s: string)
    requires NoUpper(s)
    ensures NoUpper(Strip(s))
  {
    var a := StripStart(s);
    assert forall i :: 0 <= i < |Strip(s)| ==> Strip(s)[i] == s[a + i];
  }

  lemma NoUpperScrub(p: Pattern, s: string)
    requires NoUpper(s)
    ensures NoUpper(Scrub(p, s))
  {
    forall i | 0 <= i < |Scrub(p, s)| ensures !IsUpper(Scrub(p, s)[i]) {
      ScrubKeepsChars(p, s, i);
    }
  }

  lemma NormalizeContentShape(t1: string, t2: string, t3: string, r: string)
    requires NoUpper(t1) && t2 == Scrub(Url, t1) && t3 == Scrub(Www, t2) && r == Strip(Collapse(t3))
    ensures NoUpper(r) && SpaceNormal(r) && NoToken(Url, r) && NoToken(Www, r)
  {
    NoUpperKept(t1);
    NoUpperKept(t2);
    NoUpperKept(t3);
    NoUpperKept(Collapse(t3));
    StripCollapseNormal(t3);
    ScrubRemovesPattern(Url, t1);
    ScrubKeepsNoToken(Url, Www, t2);
    ScrubRemovesPattern(Www, t2);
    CollapseKeepsNoToken(Url, t3);
    CollapseKeepsNoToken(Www, t3);
    StripKeepsNoToken(Url, Collapse(t3));
    StripKeepsNoToken(Www, Collapse(t3));
  }

  // ---------------------------------------------------------------------
  // Idempotence
  // ---------------------------------------------------------------------

  /** Normalising normalised content changes nothing. */
  lemma NormalizeContentIdempotent(content: string)
    ensures NormalizeContent(NormalizeContent(content)) == NormalizeContent(content)
  {
    var y := NormalizeContent(content);
    SpaceNormalFixed(y);
    LowerOfLower(y);
    ScrubIdentity(Url, y);
    ScrubIdentity(Www, y);
  }

  /** Normalisation leaves a text alone exactly when it is lower-case, space-normal and free of links. */
  lemma NormalizeContentFixed(s: string)
    ensures NormalizeContent(s) == s <==> NoUpper(s) && SpaceNormal(s) && NoToken(Url, s) && NoToken(Www, s)
  {
    if NoUpper(s) && SpaceNormal(s) && NoToken(Url, s) && NoToken(Www, s) {
      SpaceNormalFixed(s);
      LowerOfLower(s);
      ScrubIdentity(Url, s);
      ScrubIdentity(Www, s);
    }
  }

  /** A text with no `h` and no `w`, in either case, holds no link. */
  lemma NoLinkLetters(s: string)
    requires forall i :: 0 <= i < |s| ==> LowerChar(s[i]) != 'h' && LowerChar(s[i]) != 'w'
    ensures NoToken(Url, s) && NoToken(Www, s)
  {
    forall i | 0 <= i < |s| ensures !TokenAt(Url, s[i..]) && !TokenAt(Www, s[i..]) {
      var x := s[i..];
      assert forall n :: 0 < n <= |x| ==> Lower(x[..n])[0] == LowerChar(s[i]);
    }
  }

  /** On space-normal text, normalising is normalising the lower-cased text. */
  lemma NormalizeContentLower(x: string)
    requires SpaceNormal(x)
    ensures NormalizeContent(x) == NormalizeContent(Lower(x))
  {
    SpaceNormalFixed(x);
    SpaceNormalLower(x);
    SpaceNormalFixed(Lower(x));
    LowerOfLower(Lower(x));
  }

  /** Lower-case, space-normal text without `h` or `w` is already normalised: punctuation and emoji stay. */
  lemma PlainTextFixed(s: string)
    requires SpaceNormal(s) && NoUpper(s)
    requires forall i :: 0 <= i < |s| ==> s[i] != 'h' && s[i] != 'w'
    ensures NormalizeContent(s) == s
  {
    NoLinkLetters(s);
    NormalizeContentFixed(s);
  }

  /** Normalising a normalised handle changes nothing unless the first pass left a space in front. */
  lemma NormalizeHandleIdempotent(handle: string)
    requires NormalizeHandle(handle) == "" || !IsSpace(NormalizeHandle(handle)[0])
    ensures NormalizeHandle(NormalizeHandle(handle)) == NormalizeHandle(handle)
  {
    var h := NormalizeHandle(handle);
    var s := LStripChar(Strip(handle), '@');
    assert |s| > 0 ==> !IsSpace(s[|s| - 1]);
    assert |h| > 0 ==> !IsSpace(h[|h| - 1]) && !IsSpace(h[0]);
    StripIdentity(h);
    LowerOfLower(h);
  }

  /**
   Normalising is not idempotent: `"@ @" + h` (say `"@ @bob"`) normalises to
   `" @" + h`, which normalises again to `h`.
   */
  lemma NormalizeHandleNotIdempotent(h: string)
    requires |h| > 0 && !IsSpace(h[0]) && !IsSpace(h[|h| - 1]) && h[0] != '@' && NoUpper(h)
    ensures NormalizeHandle("@ @" + h) == " @" + h
    ensures NormalizeHandle(" @" + h) == h
  {
    NormalizeHandleFirst(h);
    NormalizeHandleSecond(h);
  }

  lemma NormalizeHandleFirst(h: string)
    requires |h| > 0 && !IsSpace(h[|h| - 1]) && NoUpper(h)
    ensures NormalizeHandle("@ @" + h) == " @" + h
  {
    FirstPassDropsOneAt(h);
    LowerSpaceAt(h);
  }

  lemma LowerSpaceAt(h: string)
    requires NoUpper(h)
    ensures Lower(" @" + h) == " @" + h
  {
    NoUpperAfter(" @", h);
    LowerOfLower(" @" + h);
  }

  /** Stripping `"@ @" + h` changes nothing, and `lstrip('@')` then removes only the first `@`. */
  lemma FirstPassDropsOneAt(h: string)
    requires |h| > 0 && !IsSpace(h[|h| - 1])
    ensures LStripChar(Strip("@ @" + h), '@') == " @" + h
  {
    var t := " @" + h;
    var a := "@" + t;
    assert a == "@ @" + h;
    assert a[0] == '@' && a[|a| - 1] == h[|h| - 1];
    StripIdentity(a);
    DropLeadChar(t, '@');
  }

  lemma NoUpperAfter(p: string, h: string)
    requires NoUpper(p) && NoUpper(h)
    ensures NoUpper(p + h)
  {
    var t := p + h;
    assert forall i :: |p| <= i < |t| ==> t[i] == h[i - |p|];
  }

  lemma NormalizeHandleSecond(h: string)
    requires |h| > 0 && !IsSpace(h[0]) && !IsSpace(h[|h| - 1]) && h[0] != '@' && NoUpper(h)
    ensures NormalizeHandle(" @" + h) == h
  {
    var c := "@" + h;
    assert " @" + h == " " + c;
    assert c[|c| - 1] == h[|h| - 1];
    StripLeadSpace(c);
    DropLeadChar(h, '@');
    LowerOfLower(h);
  }

  /** One leading space before a string with non-space ends is all `strip` removes. */
  lemma StripLeadSpace(c: string)
    requires |c| > 0 && !IsSpace(c[0]) && !IsSpace(c[|c| - 1])
    ensures Strip(" " + c) == c
  {
    var b := " " + c;
    assert b[1..] == c;
    assert LStrip(b) == LStrip(c);
    StripIdentity(c);
  }

  /** `lstrip(ch)` removes exactly one leading `ch` before a string that does not start with it. */
  lemma DropLeadChar(d: string, ch: char)
    requires |d| == 0 || d[0] != ch
    ensures LStripChar([ch] + d, ch) == d
  {
    assert ([ch] + d)[1..] == d;
  }
}

=== FILE: notifcontent.dfy ===
/**
 Reading a notification card's text: the relative-age fallback
 (app.py:1508-1523), the noise filter and candidate scoring
 (app.py:1570-1641) and the pick of the card's content among the text
 candidates (app.py:1644-1735).

 `\w` is modelled as `Text.IsWordChar` and `\d` as ASCII digits; `lower()` is
 ASCII lower-casing.
 */
module NotifContent {
  import opened Text
  import opened Outcome
  import opened Ranking

  // ---------------------------------------------------------------------
  // Relative age text
  // ---------------------------------------------------------------------

  /** `int(re.search(r'(\d+)', s).group(1))`, or 0 when `s` holds no digit. */
  function FirstNumber(s: string): nat
    decreases |s|
  {
    if |s| == 0 then 0
    else if IsDigit(s[0]) then DigitsValue(s[..DigitRunLen(s)])
    else FirstNumber(s[1..])
  }

  const NowWords: seq<string> := ["刚刚", "now", "秒", " sec", " s"]
  const MinuteWords: seq<string> := ["分", " min", "m"]
  const HourWords: seq<string> := ["小时", " hr", "h"]
  const DayWords: seq<string> := ["天", " day", "d"]

  /**
   The relative-time fallback of `_parse_notification_age_minutes`
   (app.py:1508-1523): minutes from text like `5m`, `2h`, `3d` or `now`, or
   `None` when nothing is recognised. A missing number counts as one hour or
   one day, and as zero minutes.
   */
  function AgeFromText(text: string): (r: Option<int>)
    ensures |Strip(text)| == 0 ==> r.None?
    ensures r.Some? ==> r.value >= 0
  {
    AgeFromWords(Lower(Strip(text)))
  }

  /** The keyword tests of the fallback, on the stripped, lower-cased text. */
  function AgeFromWords(t: string): (r: Option<int>)
    ensures |t| == 0 ==> r.None?
    ensures r.Some? ==> r.value >= 0
  {
    if |t| == 0 then None
    else
      var num := FirstNumber(t);
      if ContainsAny(t, NowWords) then Some(0)
      else if ContainsAny(t, MinuteWords) then Some(if num > 0 then num else 0)
      else if ContainsAny(t, HourWords) then Some((if num > 0 then num else 1) * 60)
      else if ContainsAny(t, DayWords) then Some((if num > 0 then num else 1) * 1440)
      else None
  }

  /** `p in s` fails when `p` has a character `s` lacks. */
  lemma {:induction false} NotContains(s: string, p: string, i: nat)
    requires i < |p| && p[i] !in s
    ensures !Contains(s, p)
    decreases |s|
  {
    if |s| > 0 {
      NotContains(s[1..], p, i);
    }
  }

  /** None of the words occur in `s`, each beginning with a character `s` lacks. */
  lemma NoneOf(s: string, ks: seq<string>)
    requires forall j :: 0 <= j < |ks| ==> |ks[j]| > 0 && ks[j][0] !in s
    ensures !ContainsAny(s, ks)
    decreases |ks|
  {
    if |ks| > 0 {
      NotContains(s, ks[0], 0);
      assert forall j :: 0 <= j < |ks| - 1 ==> ks[1..][j] == ks[j + 1];
      NoneOf(s, ks[1..]);
    }
  }

  lemma AnyOf(s: string, ks: seq<string>, j: nat)
    requires j < |ks| && Contains(s, ks[j])
    ensures ContainsAny(s, ks)
    decreases |ks|
  {
    if j > 0 {
      AnyOf(s, ks[1..], j - 1);
    }
  }

  /** A digit string followed by one unit letter is already stripped and lower-case. */
  lemma UnitTextWords(d: string, u: char)
    requires IsDigits(d) && 'a' <= u <= 'z'
    ensures AgeFromText(d + [u]) == AgeFromWords(d + [u])
  {
    var s := d + [u];
    StripIdentity(s);
    LowerOfLower(s);
  }

  /** The number and the unit letter of a digit string followed by one unit letter. */
  lemma UnitText(d: string, u: char)
    requires IsDigits(d) && 'a' <= u <= 'z'
    ensures FirstNumber(d + [u]) == DigitsValue(d)
    ensures Contains(d + [u], [u])
  {
    var s := d + [u];
    assert DigitRunLen(s) == |d| by {
      assert forall i :: 0 <= i < |d| ==> s[i] == d[i];
      assert s[|d|] == u;
    }
    assert s[..|d|] == d;
    assert s[|d|..] == [u];
    SuffixContained(s, |d|, [u]);
  }

  lemma {:induction false} SuffixContained(s: string, k: nat, p: string)
    requires k <= |s| && s[k..] == p
    ensures Contains(s, p)
    decreases k
  {
    if k > 0 {
      assert s[1..][k - 1..] == p;
      SuffixContained(s[1..], k - 1, p);
    }
  }

  /** Which rule of the fallback fires decides the result. */
  lemma AgeRule(t: string)
    requires |t| > 0 && !ContainsAny(t, NowWords)
    ensures ContainsAny(t, MinuteWords) ==> AgeFromWords(t) == Some(FirstNumber(t))
    ensures !ContainsAny(t, MinuteWords) && ContainsAny(t, HourWords) && FirstNumber(t) > 0 ==>
      AgeFromWords(t) == Some(FirstNumber(t) * 60)
    ensures !ContainsAny(t, MinuteWords) && !ContainsAny(t, HourWords) && ContainsAny(t, DayWords) && FirstNumber(t) > 0 ==>
      AgeFromWords(t) == Some(FirstNumber(t) * 1440)
  {
  }

  /** Every word starts with a character that is neither a digit nor `u`. */
  predicate Avoids(ks: seq<string>, u: char)
  {
    forall j :: 0 <= j < |ks| ==> |ks[j]| > 0 && ks[j][0] != u && !IsDigit(ks[j][0])
  }

  lemma WordsAvoidLaterUnits()
    ensures Avoids(NowWords, 'm') && Avoids(NowWords, 'h') && Avoids(NowWords, 'd')
    ensures Avoids(MinuteWords, 'h') && Avoids(MinuteWords, 'd')
    ensures Avoids(HourWords, 'd')
  {
  }

  /** The words a digit string with one unit letter lacks. */
  lemma UnitLacks(d: string, u: char, ks: seq<string>)
    requires IsDigits(d) && 'a' <= u <= 'z'
    requires Avoids(ks, u)
    ensures !ContainsAny(d + [u], ks)
  {
    var s := d + [u];
    assert forall c :: c in s ==> c == u || IsDigit(c);
    NoneOf(s, ks);
  }

  /** The keyword tests on `<n>m`, `<n>h` and `<n>d`, for n > 0. */
  lemma AgeWordsUnits(d: string)
    requires IsDigits(d) && DigitsValue(d) > 0
    ensures AgeFromWords(d + "m") == Some(DigitsValue(d))
    ensures AgeFromWords(d + "h") == Some(DigitsValue(d) * 60)
    ensures AgeFromWords(d + "d") == Some(DigitsValue(d) * 1440)
  {
    AgeWordsMinutes(d);
    AgeWordsHours(d);
    AgeWordsDays(d);
  }

  lemma AgeWordsMinutes(d: string)
    requires IsDigits(d) && DigitsValue(d) > 0
    ensures AgeFromWords(d + "m") == Some(DigitsValue(d))
  {
    var s := d + "m";
    UnitText(d, 'm');
    WordsAvoidLaterUnits();
    UnitLacks(d, 'm', NowWords);
    AnyOf(s, MinuteWords, 2);
    AgeRule(s);
  }

  lemma AgeWordsHours(d: string)
    requires IsDigits(d) && DigitsValue(d) > 0
    ensures AgeFromWords(d + "h") == Some(DigitsValue(d) * 60)
  {
    var s := d + "h";
    UnitText(d, 'h');
    WordsAvoidLaterUnits();
    UnitLacks(d, 'h', NowWords);
    UnitLacks(d, 'h', MinuteWords);
    AnyOf(s, HourWords, 2);
    AgeRule(s);
  }

  lemma AgeWordsDays(d: string)
    requires IsDigits(d) && DigitsValue(d) > 0
    ensures AgeFromWords(d + "d") == Some(DigitsValue(d) * 1440)
  {
    var s := d + "d";
    UnitText(d, 'd');
    WordsAvoidLaterUnits();
    UnitLacks(d, 'd', NowWords);
    UnitLacks(d, 'd', MinuteWords);
    UnitLacks(d, 'd', HourWords);
    AnyOf(s, DayWords, 2);
    AgeRule(s);
  }

  /** `<n>m` is n minutes, `<n>h` n hours and `<n>d` n days, for n > 0. */
  lemma AgeUnits(d: string)
    requires IsDigits(d) && DigitsValue(d) > 0
    ensures AgeFromText(d + "m") == Some(DigitsValue(d))
    ensures AgeFromText(d + "h") == Some(DigitsValue(d) * 60)
    ensures AgeFromText(d + "d") == Some(DigitsValue(d) * 1440)
  {
    AgeWordsUnits(d);
    UnitTextWords(d, 'm');
    UnitTextWords(d, 'h');
    UnitTextWords(d, 'd');
  }

  /** The decimal digits of a positive number, most significant first. */
  function DigitsOf(n: nat): (s: string)
    requires n > 0
    ensures IsDigits(s) && DigitsValue(s) == n
    decreases n
  {
    var last := [('0' as int + n % 10) as char];
    if n < 10 then
      assert last[..0] == [];
      last
    else
      var p := DigitsOf(n / 10);
      assert (p + last)[..|p|] == p;
      p + last
  }

  /**
   The relative stamp the page shows for a card `minutes` old: whole minutes
   under an hour, whole hours under a day, whole days after that.
   */
  function RelativeStamp(minutes: nat): string
    requires minutes > 0
  {
    if minutes < 60 then DigitsOf(minutes) + "m"
    else if minutes < 1440 then DigitsOf(minutes / 60) + "h"
    else DigitsOf(minutes / 1440) + "d"
  }

  /** The length in minutes of the unit a stamp for `minutes` uses. */
  function StampUnit(minutes: nat): (u: nat)
    ensures u > 0
  {
    if minutes < 60 then 1 else if minutes < 1440 then 60 else 1440
  }

  /** Reading a stamp back gives the card's age rounded down to the stamp's unit. */
  lemma StampRoundTrip(minutes: nat)
    requires minutes > 0
    ensures AgeFromText(RelativeStamp(minutes)) == Some(minutes / StampUnit(minutes) * StampUnit(minutes))
    ensures var age := AgeFromText(RelativeStamp(minutes)).value;
      age <= minutes < age + StampUnit(minutes)
  {
    if minutes < 60 {
      AgeUnits(DigitsOf(minutes));
    } else if minutes < 1440 {
      AgeUnits(DigitsOf(minutes / 60));
    } else {
      AgeUnits(DigitsOf(minutes / 1440));
    }
  }

  /**
   The fallback looks for the unit letters anywhere in the text, so a date
   such as `Mar 5`, which the page shows for older cards, reads as five
   minutes old: the `m` of the month counts as the minute unit.
   */
  lemma MonthDayReadAsMinutes()
    ensures AgeFromText("Mar 5") == Some(5)
  {
    StripIdentity("Mar 5");
    LowerMonthDay();
    MonthDayWords();
  }

  lemma MonthDayWords()
    ensures AgeFromWords("mar 5") == Some(5)
  {
    var t := "mar 5";
    MonthDayNotNow();
    assert StartsWith(t, "m");
    AnyOf(t, MinuteWords, 2);
    AgeRule(t);
    MonthDayNumber();
  }

  lemma LowerMonthDay()
    ensures Lower("Mar 5") == "mar 5"
  {
    var l := Lower("Mar 5");
    assert l[0] == LowerChar('M') == 'm';
    assert forall i :: 1 <= i < 5 ==> l[i] == "Mar 5"[i];
  }

  lemma MonthDayNotNow()
    ensures !ContainsAny("mar 5", NowWords)
  {
    var t := "mar 5";
    NotContains(t, NowWords[0], 0);
    NotContains(t, NowWords[1], 0);
    NotContains(t, NowWords[2], 0);
    NotContains(t, NowWords[3], 1);
    NotContains(t, NowWords[4], 1);
  }

  lemma MonthDayNumber()
    ensures FirstNumber("mar 5") == 5
  {
    var t := "mar 5";
    assert t[1..][1..][1..][1..] == "5";
    assert DigitRunLen("5") == 1;
  }

  // ---------------------------------------------------------------------
  // Noise
  // ---------------------------------------------------------------------

  /** The class `[\u4e00-\u9fffA-Za-z0-9]`, which is also `\w` without `_`. */
  predicate IsAlnum(c: char)
  {
    IsWordChar(c) && c != '_'
  }

  /** Length of the longest prefix of `s` made of `\w` characters. */
  function WordRunLen(s: string): (n: nat)
    ensures n <= |s|
    ensures forall i :: 0 <= i < n ==> IsWordChar(s[i])
    ensures n < |s| ==> !IsWordChar(s[n])
  {
    if |s| > 0 && IsWordChar(s[0]) then 1 + WordRunLen(s[1..]) else 0
  }

  /** `re.fullmatch(r'@\w+', s)`. */
  predicate IsMention(s: string)
  {
    |s| >= 2 && s[0] == '@' && forall i :: 1 <= i < |s| ==> IsWordChar(s[i])
  }

  predicate IsUnit(c: char)
  {
    c == 's' || c == 'm' || c == 'h' || c == 'd'
  }

  /** `re.fullmatch(r'\d+[smhd]', s)`: a bare relative time stamp like `5m`. */
  predicate IsAgeStamp(s: string)
  {
    |s| >= 2 && IsDigits(s[..|s| - 1]) && IsUnit(s[|s| - 1])
  }

  /** One of the separator glyphs `·`, `-`, `|`. */
  predicate IsSeparator(s: string)
  {
    s == "·" || s == "-" || s == "|"
  }

  /**
   `_is_display_name_like` (app.py:1574-1577): the text is one of the names in
   the card's author line, or shares a prefix relation with a name of at least
   four characters.
   */
  predicate IsDisplayNameLike(text: string, names: set<string>)
  {
    text in names || exists name :: name in names && |name| >= 4 && (StartsWith(text, name) || StartsWith(name, text))
  }

  const ActionWords: seq<string> := [
    "replied to you", "mentioned you", "liked", "retweeted", "reposted", "followed you",
    "回复了你", "提到了你", "点赞了", "转发了", "关注了你"]

  /** `re.sub(r'@\w+', ' ', s)`. */
  function DropMentions(s: string): (r: string)
    ensures |r| <= |s|
    decreases |s|
  {
    if |s| == 0 then ""
    else if s[0] == '@' && WordRunLen(s[1..]) > 0 then " " + DropMentions(s[1 + WordRunLen(s[1..])..])
    else [s[0]] + DropMentions(s[1..])
  }

  /**
   `re.sub(r'\b\d+[smhd]\b', ' ', s, flags=re.IGNORECASE)` on lower-case
   text; `afterWord` says whether the character before `s` is a `\w`
   character, which decides the leading `\b`.
   */
  function DropAgeStamps(s: string, afterWord: bool): (r: string)
    ensures |r| <= |s|
    decreases |s|
  {
    if |s| == 0 then ""
    else
      var n := DigitRunLen(s);
      if !afterWord && 0 < n < |s| && IsUnit(s[n]) && (n + 1 == |s| || !IsWordChar(s[n + 1])) then
        " " + DropAgeStamps(s[n + 1..], true)
      else [s[0]] + DropAgeStamps(s[1..], IsWordChar(s[0]))
  }

  /** `s.replace(k, ' ')` for a non-empty `k`. */
  function ReplaceWithSpace(s: string, k: string): (r: string)
    requires |k| > 0
    decreases |s|
  {
    if |s| == 0 then ""
    else if StartsWith(s, k) then " " + ReplaceWithSpace(s[|k|..], k)
    else [s[0]] + ReplaceWithSpace(s[1..], k)
  }

  /** `for k in ks: s = s.replace(k, ' ')`. */
  function ReplaceAllWithSpace(s: string, ks: seq<string>): string
    requires forall j :: 0 <= j < |ks| ==> |ks[j]| > 0
    decreases |ks|
  {
    if |ks| == 0 then s else ReplaceAllWithSpace(ReplaceWithSpace(s, ks[0]), ks[1..])
  }

  /** `re.sub(r'[\W_]+', ' ', s)`: every maximal run of non-alphanumerics becomes one space. */
  function SquashNonAlnum(s: string): (r: string)
    decreases |s|
  {
    if |s| == 0 then ""
    else if !IsAlnum(s[0]) then " " + SquashNonAlnum(DropNonAlnum(s))
    else [s[0]] + SquashNonAlnum(s[1..])
  }

  function DropNonAlnum(s: string): (r: string)
    ensures |r| <= |s| && r == s[|s| - |r|..]
    ensures |r| > 0 ==> IsAlnum(r[0])
    ensures |s| > 0 && !IsAlnum(s[0]) ==> |r| < |s|
  {
    if |s| > 0 && !IsAlnum(s[0]) then DropNonAlnum(s[1..]) else s
  }

  /** What is left of a short action text once handles, time stamps and action words are removed (app.py:1602-1607). */
  function ActionLeftover(low: string): string
  {
    assert forall j :: 0 <= j < |ActionWords| ==> |ActionWords[j]| > 0;
    Strip(SquashNonAlnum(ReplaceAllWithSpace(DropAgeStamps(DropMentions(low), false), ActionWords)))
  }

  /**
   `_is_noise_notification_text` (app.py:1580-1610): empty text, the card's
   own handle, a bare `@handle`, a bare time stamp, a separator, a display
   name, or a short action text ("liked", "replied to you", ...) with fewer
   than two alphanumerics besides.
   */
  predicate IsNoise(text: string, handle: string, names: set<string>)
  {
    var low := Lower(text);
    || |text| == 0
    || (|handle| > 0 && low == Lower(handle))
    || IsMention(text)
    || IsAgeStamp(low)
    || IsSeparator(text)
    || IsDisplayNameLike(text, names)
    || (ContainsAny(low, ActionWords) && |text| <= 40 && |ActionLeftover(low)| < 2)
  }

  // ---------------------------------------------------------------------
  // Counting alphanumerics
  // ---------------------------------------------------------------------

  function AlnumCount(s: string): (n: nat)
    ensures n <= |s|
    decreases |s|
  {
    if |s| == 0 then 0 else (if IsAlnum(s[0]) then 1 else 0) + AlnumCount(s[1..])
  }

  lemma {:induction false} AlnumCountConcat(a: string, b: string)
    ensures AlnumCount(a + b) == AlnumCount(a) + AlnumCount(b)
    decreases |a|
  {
    if |a| > 0 {
      assert (a + b)[1..] == a[1..] + b;
      AlnumCountConcat(a[1..], b);
    } else {
      assert a + b == b;
    }
  }

  lemma {:induction false} DropNonAlnumCount(s: string)
    ensures AlnumCount(DropNonAlnum(s)) == AlnumCount(s)
    decreases |s|
  {
    if |s| > 0 && !IsAlnum(s[0]) {
      DropNonAlnumCount(s[1..]);
    }
  }

  /** Every character is an alphanumeric or a plain space. */
  predicate AlnumOrSpace(s: string)
  {
    forall i :: 0 <= i < |s| ==> IsAlnum(s[i]) || s[i] == ' '
  }

  /** Squashing keeps every alphanumeric. */
  lemma {:induction false} SquashCount(s: string)
    ensures AlnumCount(SquashNonAlnum(s)) == AlnumCount(s)
    decreases |s|
  {
    if |s| > 0 {
      if !IsAlnum(s[0]) {
        var t := DropNonAlnum(s);
        SquashCount(t);
        DropNonAlnumCount(s);
        AlnumCountConcat(" ", SquashNonAlnum(t));
      } else {
        SquashCount(s[1..]);
        AlnumCountConcat([s[0]], SquashNonAlnum(s[1..]));
      }
    }
  }

  /** Squashing turns everything that is not alphanumeric into plain spaces. */
  lemma {:induction false} SquashShape(s: string)
    ensures AlnumOrSpace(SquashNonAlnum(s))
    decreases |s|
  {
    if |s| > 0 {
      var r := SquashNonAlnum(s);
      var u := if !IsAlnum(s[0]) then DropNonAlnum(s) else s[1..];
      SquashShape(u);
      var c := if !IsAlnum(s[0]) then ' ' else s[0];
      assert r == [c] + SquashNonAlnum(u);
    }
  }

  lemma AlnumNotSpace(c: char)
    requires IsAlnum(c)
    ensures !IsSpace(c)
  {
  }

  /** Counting over a slice: the ends that are dropped hold no alphanumeric. */
  lemma {:induction false} AlnumCountSlice(s: string, a: nat, b: nat)
    requires a <= b <= |s|
    requires forall i :: 0 <= i < a ==> !IsAlnum(s[i])
    requires forall i :: b <= i < |s| ==> !IsAlnum(s[i])
    ensures AlnumCount(s[a..b]) == AlnumCount(s)
    decreases |s|
  {
    if a > 0 {
      var t := s[1..];
      assert forall i :: 0 <= i < |t| ==> t[i] == s[i + 1];
      AlnumCountSlice(t, a - 1, b - 1);
      TailSlice(s, a, b);
    } else if b < |s| {
      var t := s[..|s| - 1];
      AlnumCountSlice(t, 0, b);
      assert t[..b] == s[..b];
      AlnumCountConcat(t, [s[|s| - 1]]);
      assert t + [s[|s| - 1]] == s;
    } else {
      assert s[0..|s|] == s;
    }
  }

  lemma TailSlice<T>(s: seq<T>, a: nat, b: nat)
    requires 0 < a <= b <= |s|
    ensures s[1..][a - 1..b - 1] == s[a..b]
  {
  }

  /**
   The last test of the action-text rule (`len(cleaned) < 2` after
   `re.sub(r'[\W_]+', ' ', ...).strip()`) is a count: fewer than two
   alphanumerics remain.
   */
  lemma LeftoverCount(x: string)
    ensures |Strip(SquashNonAlnum(x))| < 2 <==> AlnumCount(x) < 2
  {
    var q := SquashNonAlnum(x);
    SquashCount(x);
    SquashShape(x);
    StripCount(q);
  }

  /** Stripping a string of alphanumerics and spaces keeps its count, and two or more characters left means two alphanumerics at its ends. */
  lemma StripCount(q: string)
    requires AlnumOrSpace(q)
    ensures |Strip(q)| < 2 <==> AlnumCount(q) < 2
  {
    StripKeepsCount(q);
    TrimmedCount(Strip(q));
  }

  /** A string of alphanumerics and spaces with no space at either end has two alphanumerics once it has two characters. */
  lemma TrimmedCount(y: string)
    requires AlnumOrSpace(y) && (|y| > 0 ==> !IsSpace(y[0]) && !IsSpace(y[|y| - 1]))
    ensures |y| < 2 <==> AlnumCount(y) < 2
  {
    if |y| >= 2 {
      TwoAlnum(y);
    }
  }

  /** Stripping drops only spaces: the count and the character classes stay. */
  lemma StripKeepsCount(q: string)
    requires AlnumOrSpace(q)
    ensures AlnumCount(Strip(q)) == AlnumCount(q) && AlnumOrSpace(Strip(q))
  {
    var a := StripStart(q);
    var b := a + |Strip(q)|;
    forall i | 0 <= i < a || b <= i < |q|
      ensures IsSpace(q[i])
    {
      StripSkips(q, i);
    }
    SpaceEndsSlice(q, a, b);
  }

  /** Cutting off ends that are all whitespace keeps the count and the character classes. */
  lemma SpaceEndsSlice(q: string, a: nat, b: nat)
    requires AlnumOrSpace(q) && a <= b <= |q|
    requires forall i :: 0 <= i < a || b <= i < |q| ==> IsSpace(q[i])
    ensures AlnumCount(q[a..b]) == AlnumCount(q) && AlnumOrSpace(q[a..b])
  {
    AlnumCountSlice(q, a, b);
    var y := q[a..b];
    assert forall i :: 0 <= i < |y| ==> y[i] == q[a + i];
  }

  lemma TwoAlnum(y: string)
    requires |y| >= 2 && AlnumOrSpace(y) && !IsSpace(y[0]) && !IsSpace(y[|y| - 1])
    ensures AlnumCount(y) >= 2
  {
    var m := y[1..|y| - 1];
    assert y == [y[0]] + m + [y[|y| - 1]];
    AlnumCountConcat([y[0]] + m, [y[|y| - 1]]);
    AlnumCountConcat([y[0]], m);
  }

  // ---------------------------------------------------------------------
  // Scoring
  // ---------------------------------------------------------------------

  /** `_normalize_notification_text` (app.py:1570-1571): collapse whitespace runs, then strip. */
  function NormalizeText(text: string): (r: string)
    ensures SpaceNormal(r)
  {
    StripCollapseNormal(text);
    Strip(Collapse(text))
  }

  lemma NormalizeTextIdempotent(text: string)
    ensures NormalizeText(NormalizeText(text)) == NormalizeText(text)
  {
    SpaceNormalFixed(NormalizeText(text));
  }

  /** The base score of a candidate's source (app.py:1615-1621); any other source gets 50. */
  function SourceScore(source: string): (r: int)
    ensures 50 <= r <= 120
    ensures r == 120 <==> source == "tweetText"
  {
    if source == "tweetText" then 120
    else if source == "lang" then 95
    else if source == "tail" then 85
    else if source == "line" then 70
    else if source == "cleaned" then 60
    else 50
  }

  /** The length adjustment (app.py:1624-1630). */
  function LengthPoints(n: nat): (r: int)
    ensures -20 <= r <= 15
    ensures r == 15 <==> 6 <= n <= 180
  {
    if 6 <= n <= 180 then 15
    else if n < 4 then -20
    else if n > 240 then -10
    else 0
  }

  predicate HasAlnum(s: string)
  {
    exists i :: 0 <= i < |s| && IsAlnum(s[i])
  }

  const ReplyWords: seq<string> := ["replied to you", "mentioned you", "回复了你", "提到了你"]

  /**
   `_score_notification_candidate` (app.py:1613-1641): the source's base
   score, a length adjustment, a bonus for holding a letter or digit, and
   penalties for looking like a display name, for being a bare `@handle` and
   for carrying a reply/mention phrase.
   */
  function CandidateScore(text: string, source: string, names: set<string>): (r: int)
    ensures -115 <= r <= 143
    ensures IsDisplayNameLike(text, names) ==> r <= 63
    ensures r == 143 <==> source == "tweetText" && 6 <= |text| <= 180 && HasAlnum(text)
                           && !IsDisplayNameLike(text, names) && !IsMention(Strip(text))
                           && !ContainsAny(Lower(text), ReplyWords)
  {
    var base := SourceScore(source);
    var len := LengthPoints(|text|);
    var alnum := HasAlnum(text);
    var name := IsDisplayNameLike(text, names);
    var mention := IsMention(Strip(text));
    var reply := ContainsAny(Lower(text), ReplyWords);
    ScoreRange(base, len, alnum, name, mention, reply);
    base + len + (if alnum then 8 else 0) - (if name then 80 else 0)
    - (if mention then 40 else 0) - (if reply then 25 else 0)
  }

  /** The arithmetic of the score: its range, the display-name cap and when it reaches the top. */
  lemma ScoreRange(base: int, len: int, alnum: bool, name: bool, mention: bool, reply: bool)
    requires 50 <= base <= 120 && -20 <= len <= 15
    ensures var r := base + len + (if alnum then 8 else 0) - (if name then 80 else 0)
                     - (if mention then 40 else 0) - (if reply then 25 else 0);
            && -115 <= r <= 143
            && (name ==> r <= 63)
            && (r == 143 <==> base == 120 && len == 15 && alnum && !name && !mention && !reply)
  {
  }

  /**
   On a normalised text that passed the noise filter, the display-name and
   bare-handle penalties never apply: the noise filter has already removed
   every such text.
   */
  lemma PenaltiesUnreachable(text: string, source: string, handle: string, names: set<string>)
    requires SpaceNormal(text) && !IsNoise(text, handle, names)
    ensures CandidateScore(text, source, names)
         == SourceScore(source) + LengthPoints(|text|) + (if HasAlnum(text) then 8 else 0)
            - (if ContainsAny(Lower(text), ReplyWords) then 25 else 0)
  {
    NoiseCoversPenalties(text, handle, names);
    ScoreWithoutPenalties(text, source, names);
  }

  lemma NoiseCoversPenalties(text: string, handle: string, names: set<string>)
    requires SpaceNormal(text) && !IsNoise(text, handle, names)
    ensures !IsDisplayNameLike(text, names) && !IsMention(Strip(text))
  {
    StripIdentity(text);
  }

  lemma ScoreWithoutPenalties(text: string, source: string, names: set<string>)
    requires !IsDisplayNameLike(text, names) && !IsMention(Strip(text))
    ensures CandidateScore(text, source, names)
         == SourceScore(source) + LengthPoints(|text|) + (if HasAlnum(text) then 8 else 0)
            - (if ContainsAny(Lower(text), ReplyWords) then 25 else 0)
  {
  }

  // ---------------------------------------------------------------------
  // Candidates
  // ---------------------------------------------------------------------

  /** A text candidate for a card's content and where it came from. */
  datatype Candidate = Candidate(source: string, text: string)

  /** The lower-cased texts already collected: the `seen` set of `add_candidate`. */
  function SeenKeys(cands: seq<Candidate>): set<string>
  {
    set i | 0 <= i < |cands| :: Lower(cands[i].text)
  }

  lemma SeenKeysAppend(cands: seq<Candidate>, c: Candidate)
    ensures SeenKeys(cands + [c]) == SeenKeys(cands) + {Lower(c.text)}
  {
    var r := cands + [c];
    assert forall i :: 0 <= i < |cands| ==> r[i] == cands[i];
    assert r[|cands|] == c;
  }

  /** Every collected text is normalised and non-empty. */
  predicate Normalised(cands: seq<Candidate>)
  {
    forall i :: 0 <= i < |cands| ==> |cands[i].text| > 0 && SpaceNormal(cands[i].text)
  }

  /** No two collected texts are equal ignoring case. */
  predicate Distinct(cands: seq<Candidate>)
  {
    forall i, j :: 0 <= i < j < |cands| ==> Lower(cands[i].text) != Lower(cands[j].text)
  }

  predicate WellFormed(cands: seq<Candidate>)
  {
    Normalised(cands) && Distinct(cands)
  }

  lemma AppendWellFormed(cands: seq<Candidate>, c: Candidate)
    requires WellFormed(cands) && |c.text| > 0 && SpaceNormal(c.text) && Lower(c.text) !in SeenKeys(cands)
    ensures WellFormed(cands + [c])
  {
    var r := cands + [c];
    assert forall i :: 0 <= i < |cands| ==> r[i] == cands[i];
    forall i | 0 <= i < |cands|
      ensures Lower(r[i].text) != Lower(c.text)
    {
      assert Lower(cands[i].text) in SeenKeys(cands);
    }
  }

  /** The case-folded key a raw text contributes, if it is not blank. */
  function RawKey(text: string): set<string>
  {
    KeyOf(NormalizeText(text))
  }

  /** The case-folded key of a normalised text, if it is not blank. */
  function KeyOf(n: string): set<string>
  {
    if |n| == 0 then {} else {Lower(n)}
  }

  /** `add_candidate` (app.py:1650-1658): normalise, skip blanks, skip texts already seen ignoring case. */
  function AddCandidate(cands: seq<Candidate>, source: string, text: string): (r: seq<Candidate>)
    ensures WellFormed(cands) ==> WellFormed(r)
    ensures SeenKeys(r) == SeenKeys(cands) + RawKey(text)
    ensures r == cands || r == cands + [Candidate(source, NormalizeText(text))]
  {
    var n := NormalizeText(text);
    var c := Candidate(source, n);
    CandidateKeys(cands, c);
    if |n| == 0 || Lower(n) in SeenKeys(cands) then cands
    else
      if WellFormed(cands) then AppendWellFormed(cands, c); cands + [c]
      else cands + [c]
  }

  /** The seen set after `add_candidate` either way it goes. */
  lemma CandidateKeys(cands: seq<Candidate>, c: Candidate)
    ensures |c.text| == 0 || Lower(c.text) in SeenKeys(cands) ==> SeenKeys(cands) + KeyOf(c.text) == SeenKeys(cands)
    ensures |c.text| > 0 ==> SeenKeys(cands + [c]) == SeenKeys(cands) + KeyOf(c.text)
  {
    SeenKeysAppend(cands, c);
  }

  function RawKeys(raw: seq<Candidate>): set<string>
    decreases |raw|
  {
    if |raw| == 0 then {} else RawKey(raw[0].text) + RawKeys(raw[1..])
  }

  /** `c` is the normalised form of one of the raw candidates. */
  predicate FromRaw(c: Candidate, raw: seq<Candidate>)
  {
    exists j :: 0 <= j < |raw| && c == Candidate(raw[j].source, NormalizeText(raw[j].text))
  }

  lemma FromRawTail(c: Candidate, raw: seq<Candidate>)
    requires |raw| > 0 && FromRaw(c, raw[1..])
    ensures FromRaw(c, raw)
  {
    var j :| 0 <= j < |raw[1..]| && c == Candidate(raw[1..][j].source, NormalizeText(raw[1..][j].text));
    assert raw[1..][j] == raw[j + 1];
  }

  /** Every raw candidate, in order, through `add_candidate`; what was collected before is kept. */
  function AddAll(cands: seq<Candidate>, raw: seq<Candidate>): (r: seq<Candidate>)
    ensures |cands| <= |r| && r[..|cands|] == cands
    decreases |raw|
  {
    if |raw| == 0 then cands
    else
      var x := Candidate(raw[0].source, NormalizeText(raw[0].text));
      var next := AddCandidate(cands, raw[0].source, raw[0].text);
      var r := AddAll(next, raw[1..]);
      PrefixThrough(cands, x, next, r);
      r
  }

  /** `c` extends `b`, which is `a` or `a` with one more element, so `c` extends `a`. */
  lemma PrefixThrough<T>(a: seq<T>, x: T, b: seq<T>, c: seq<T>)
    requires b == a || b == a + [x]
    requires |b| <= |c| && c[..|b|] == b
    ensures |a| <= |c| && c[..|a|] == a
  {
    assert b[..|a|] == a;
    assert c[..|a|] == b[..|a|];
  }

  /** Collecting keeps the candidates normalised and distinct ignoring case. */
  lemma {:induction false} AddAllWellFormed(cands: seq<Candidate>, raw: seq<Candidate>)
    requires WellFormed(cands)
    ensures WellFormed(AddAll(cands, raw))
    decreases |raw|
  {
    if |raw| > 0 {
      var next := AddCandidate(cands, raw[0].source, raw[0].text);
      AddAllWellFormed(next, raw[1..]);
      assert AddAll(cands, raw) == AddAll(next, raw[1..]);
    }
  }

  /** After collecting, the seen set is the old one plus the key of every non-blank raw text. */
  lemma {:induction false} AddAllSeen(cands: seq<Candidate>, raw: seq<Candidate>)
    ensures SeenKeys(AddAll(cands, raw)) == SeenKeys(cands) + RawKeys(raw)
    decreases |raw|
  {
    if |raw| > 0 {
      var next := AddCandidate(cands, raw[0].source, raw[0].text);
      AddAllSeen(next, raw[1..]);
      assert AddAll(cands, raw) == AddAll(next, raw[1..]);
      assert RawKeys(raw) == RawKey(raw[0].text) + RawKeys(raw[1..]);
    }
  }

  /** Everything `AddAll` appends is the normalised form of a raw candidate. */
  lemma {:induction false} AddAllFromRaw(cands: seq<Candidate>, raw: seq<Candidate>)
    ensures forall i :: |cands| <= i < |AddAll(cands, raw)| ==> FromRaw(AddAll(cands, raw)[i], raw)
    decreases |raw|
  {
    if |raw| > 0 {
      var next := AddCandidate(cands, raw[0].source, raw[0].text);
      var r := AddAll(next, raw[1..]);
      assert r == AddAll(cands, raw);
      AddAllFromRaw(next, raw[1..]);
      AddAllOrigins(cands, raw, next, r);
    }
  }

  lemma AddAllOrigins(cands: seq<Candidate>, raw: seq<Candidate>, next: seq<Candidate>, r: seq<Candidate>)
    requires |raw| > 0
    requires next == cands || next == cands + [Candidate(raw[0].source, NormalizeText(raw[0].text))]
    requires |next| <= |r| && r[..|next|] == next
    requires forall i :: |next| <= i < |r| ==> FromRaw(r[i], raw[1..])
    ensures forall i :: |cands| <= i < |r| ==> FromRaw(r[i], raw)
  {
    forall i | |cands| <= i < |r|
      ensures FromRaw(r[i], raw)
    {
      if i < |next| {
        assert r[i] == next[i];
      } else {
        FromRawTail(r[i], raw);
      }
    }
  }

  // ---------------------------------------------------------------------
  // Picking the content
  // ---------------------------------------------------------------------

  /** The score the selection loop gives a candidate; noise is skipped. */
  function Points(handle: string, names: set<string>): Candidate -> Option<int>
  {
    (c: Candidate) => if IsNoise(c.text, handle, names) then None else Some(CandidateScore(c.text, c.source, names))
  }

  const MaxContentLen: nat := 280

  /**
   The selection at app.py:1722-1735: the first highest-scoring candidate that
   is not noise, cut to 280 characters, or "" when every candidate is noise.
   Every score is far above the loop's starting `-10**9`, so the first
   non-noise candidate is always taken.
   */
  function PickContent(cands: seq<Candidate>, handle: string, names: set<string>): (r: string)
    ensures |r| <= MaxContentLen
    ensures |r| == 0 <==> forall j :: 0 <= j < |cands| ==> IsNoise(cands[j].text, handle, names)
    ensures |r| > 0 ==> exists m :: IsFirstBest(Points(handle, names), cands, m) && r == Take(cands[m.index].text, MaxContentLen)
  {
    var score := Points(handle, names);
    var best := BestBy(score, cands);
    BestByCorrect(score, cands);
    if best.None? then ""
    else
      var m := best.value;
      var r := Take(cands[m.index].text, MaxContentLen);
      assert |r| > 0;
      r
  }

  /**
   A tweet-text candidate of ordinary length that holds a letter or digit and
   no reply phrase scores 143, which no other source can reach, so the picked
   content comes from a tweet-text candidate.
   */
  lemma PickPrefersTweetText(cands: seq<Candidate>, handle: string, names: set<string>, k: nat)
    requires k < |cands| && cands[k].source == "tweetText" && !IsNoise(cands[k].text, handle, names)
    requires 6 <= |cands[k].text| <= 180 && HasAlnum(cands[k].text)
    requires !IsMention(Strip(cands[k].text)) && !ContainsAny(Lower(cands[k].text), ReplyWords)
    ensures BestBy(Points(handle, names), cands).Some?
    ensures cands[BestBy(Points(handle, names), cands).value.index].source == "tweetText"
  {
    var score := Points(handle, names);
    TopScore(cands[k], handle, names);
    OnlyTweetTextTops(handle, names);
    BestAboveFloor(score, cands, 143, (c: Candidate) => c.source == "tweetText", k);
  }

  /** The candidate `PickPrefersTweetText` names scores the maximum, 143. */
  lemma TopScore(c: Candidate, handle: string, names: set<string>)
    requires c.source == "tweetText" && !IsNoise(c.text, handle, names)
    requires 6 <= |c.text| <= 180 && HasAlnum(c.text)
    requires !IsMention(Strip(c.text)) && !ContainsAny(Lower(c.text), ReplyWords)
    ensures Points(handle, names)(c) == Some(143)
  {
    assert !IsDisplayNameLike(c.text, names);
    assert CandidateScore(c.text, c.source, names) == 143;
  }

  /** Only a tweet-text candidate can score 143 or more. */
  lemma OnlyTweetTextTops(handle: string, names: set<string>)
    ensures forall c: Candidate :: Points(handle, names)(c).Some? && Points(handle, names)(c).value >= 143 ==> c.source == "tweetText"
  {
    forall c: Candidate | Points(handle, names)(c).Some? && Points(handle, names)(c).value >= 143
      ensures c.source == "tweetText"
    {
      assert CandidateScore(c.text, c.source, names) == 143;
    }
  }

  /**
   The content of a card (`_extract_notification_content`, app.py:1644-1735):
   the raw candidates, in the order the page yields them, go through
   `add_candidate`, and the best non-noise one is picked. When every raw text
   is noise the content is "", and otherwise it is a prefix of one raw text
   that is not noise.
   */
  function ExtractContent(raw: seq<Candidate>, names: set<string>, handle: string): (r: string)
    ensures |r| <= MaxContentLen
  {
    PickContent(AddAll([], raw), handle, names)
  }

  /** The noise test of one card, as a function of the text. */
  function Noisy(handle: string, names: set<string>): string -> bool
  {
    (t: string) => IsNoise(t, handle, names)
  }

  /** The selection skips exactly the noise texts. */
  lemma PointsSkipNoise(handle: string, names: set<string>)
    ensures forall c :: Points(handle, names)(c).None? <==> Noisy(handle, names)(c.text)
  {
  }

  /**
   What `ExtractContent` returns, traced back to the raw texts: "" when every
   normalised raw text is noise, else a prefix of one that is not.
   */
  lemma ExtractContentSpec(raw: seq<Candidate>, names: set<string>, handle: string)
    ensures var r := ExtractContent(raw, names, handle);
      && ((forall c | c in raw :: Noisy(handle, names)(NormalizeText(c.text))) ==> |r| == 0)
      && (|r| > 0 ==> exists c | c in raw :: !Noisy(handle, names)(NormalizeText(c.text))
                                            && r == Take(NormalizeText(c.text), MaxContentLen))
  {
    var cands := AddAll([], raw);
    AddAllFromRaw([], raw);
    PointsSkipNoise(handle, names);
    ExtractFromRaw(raw, cands, PickContent(cands, handle, names), Points(handle, names), Noisy(handle, names));
  }

  /** `r` is what the selection picks from `cands` under `score`, and every candidate came from `raw`. */
  ghost predicate PickedFrom(raw: seq<Candidate>, cands: seq<Candidate>, r: string, score: Candidate -> Option<int>)
  {
    && (forall i :: 0 <= i < |cands| ==> FromRaw(cands[i], raw))
    && (|r| > 0 ==> exists m :: IsFirstBest(score, cands, m) && r == Take(cands[m.index].text, MaxContentLen))
  }

  /**
   The picked text traced back to the raw candidates: `score` skips exactly
   the texts `noise` flags.
   */
  lemma ExtractFromRaw(raw: seq<Candidate>, cands: seq<Candidate>, r: string,
                       score: Candidate -> Option<int>, noise: string -> bool)
    requires (forall c :: score(c).None? <==> noise(c.text)) && PickedFrom(raw, cands, r, score)
    ensures (forall c | c in raw :: noise(NormalizeText(c.text))) ==> |r| == 0
    ensures |r| > 0 ==> exists c | c in raw :: !noise(NormalizeText(c.text))
                                              && r == Take(NormalizeText(c.text), MaxContentLen)
  {
    if |r| > 0 {
      var m :| IsFirstBest(score, cands, m) && r == Take(cands[m.index].text, MaxContentLen);
      var j :| 0 <= j < |raw| && cands[m.index] == Candidate(raw[j].source, NormalizeText(raw[j].text));
      assert !noise(cands[m.index].text);
      assert raw[j] in raw;
    }
  }

  /**
   Case is folded for deduplication but not for the noise test: of two texts
   that differ only in case, only the first is collected, whether or not the
   second would have been noise.
   */
  lemma CaseVariantDropped(c1: Candidate, c2: Candidate)
    requires |NormalizeText(c1.text)| > 0
    requires Lower(NormalizeText(c1.text)) == Lower(NormalizeText(c2.text))
    ensures AddAll([], [c1, c2]) == [Candidate(c1.source, NormalizeText(c1.text))]
  {
    var first := [Candidate(c1.source, NormalizeText(c1.text))];
    AddAllCons([], c1, [c2]);
    FirstCollected(c1);
    SeenDropped(first, c2);
    AddAllCons(first, c2, []);
  }

  lemma AddAllCons(cands: seq<Candidate>, c: Candidate, rest: seq<Candidate>)
    ensures AddAll(cands, [c] + rest) == AddAll(AddCandidate(cands, c.source, c.text), rest)
  {
    assert ([c] + rest)[1..] == rest;
  }

  lemma FirstCollected(c: Candidate)
    requires |NormalizeText(c.text)| > 0
    ensures AddCandidate([], c.source, c.text) == [Candidate(c.source, NormalizeText(c.text))]
  {
  }

  lemma SeenDropped(cands: seq<Candidate>, c: Candidate)
    requires |cands| > 0 && Lower(cands[0].text) == Lower(NormalizeText(c.text))
    ensures AddCandidate(cands, c.source, c.text) == cands
  {
    assert Lower(cands[0].text) in SeenKeys(cands);
  }

  // ---------------------------------------------------------------------
  // The author line
  // ---------------------------------------------------------------------

  /** Whether a segment of the author line is kept as a display name (app.py:1665-1675). */
  predicate IsNameSegment(txt: string)
  {
    |txt| > 0 && !IsMention(txt) && !IsAgeStamp(Lower(txt)) && !IsSeparator(txt)
  }

  /** `n` is the normalised form of one of the author line's segments. */
  predicate SegmentOf(n: string, segments: seq<string>)
  {
    exists i :: 0 <= i < |segments| && n == NormalizeText(segments[i])
  }

  /** The display names read from the author line's segments (app.py:1662-1675). */
  function UserNames(segments: seq<string>): (r: set<string>)
    ensures forall n :: n in r <==> IsNameSegment(n) && SegmentOf(n, segments)
    decreases |segments|
  {
    if |segments| == 0 then {}
    else
      var rest := UserNames(segments[1..]);
      var txt := NormalizeText(segments[0]);
      var r := if IsNameSegment(txt) then rest + {txt} else rest;
      UserNamesStep(segments, rest, r);
      r
  }

  lemma UserNamesStep(segments: seq<string>, rest: set<string>, r: set<string>)
    requires |segments| > 0
    requires forall n :: n in rest <==> IsNameSegment(n) && SegmentOf(n, segments[1..])
    requires r == if IsNameSegment(NormalizeText(segments[0])) then rest + {NormalizeText(segments[0])} else rest
    ensures forall n :: n in r <==> IsNameSegment(n) && SegmentOf(n, segments)
  {
    forall n
      ensures SegmentOf(n, segments) <==> n == NormalizeText(segments[0]) || SegmentOf(n, segments[1..])
    {
      ImageCons(segments, NormalizeText, n);
    }
    MembershipStep(rest, r, IsNameSegment, n => SegmentOf(n, segments), n => SegmentOf(n, segments[1..]),
      NormalizeText(segments[0]));
  }

  /** Adding `x` when `keep` accepts it turns the set of kept members of `inRest` into that of `inAll`. */
  lemma MembershipStep<T>(rest: set<T>, r: set<T>, keep: T -> bool, inAll: T -> bool, inRest: T -> bool, x: T)
    requires forall n :: n in rest <==> keep(n) && inRest(n)
    requires forall n :: inAll(n) <==> n == x || inRest(n)
    requires r == if keep(x) then rest + {x} else rest
    ensures forall n :: n in r <==> keep(n) && inAll(n)
  {
  }

  /** `n` is the image of an element of a non-empty sequence iff it is the first's or a later one's. */
  lemma ImageCons<T, U>(xs: seq<T>, f: T -> U, n: U)
    requires |xs| > 0
    ensures (exists i :: 0 <= i < |xs| && n == f(xs[i])) <==>
      n == f(xs[0]) || exists i :: 0 <= i < |xs[1..]| && n == f(xs[1..][i])
  {
    if exists i :: 0 <= i < |xs[1..]| && n == f(xs[1..][i]) {
      var i :| 0 <= i < |xs[1..]| && n == f(xs[1..][i]);
      assert xs[1..][i] == xs[i + 1];
    }
    if (exists i :: 0 <= i < |xs| && n == f(xs[i])) && n != f(xs[0]) {
      var i :| 0 <= i < |xs| && n == f(xs[i]);
      assert xs[1..][i - 1] == xs[i];
    }
  }

  /** Every display name is normalised, so it never equals a raw segment that still carries outer spaces. */
  lemma UserNamesNormalised(segments: seq<string>, n: string)
    requires n in UserNames(segments)
    ensures SpaceNormal(n) && |n| > 0
  {
    var i :| 0 <= i < |segments| && n == NormalizeText(segments[i]);
  }
}

=== FILE: notiffilter.dfy ===
/**
 The per-card filter chain of `scan_notifications_page` (app.py:1857-2000)
 over cards whose fields the page has already yielded, and the scan of the
 first 60 cards in chunk-shuffled order (app.py:1800-1834).
 */
module NotifFilter {
  import opened Text
  import opened Normalize
  import opened Outcome
  import opened Items
  import opened ContentDedupe
  import opened NotifKey
  import opened NotifContent
  import opened Scheduling
  import opened Admission

  /** `NOTIFICATION_RECENT_WINDOW_MINUTES`, the default age window. */
  const RecentWindowMinutes: int := 30
  /** `NOTIFICATION_MAX_SCAN_ARTICLES`. */
  const MaxScanArticles: nat := 60

  /** Likes, reposts, follows: cards mentioning any of these are skipped at once (app.py:1872-1882). */
  const SkipWords: seq<string> := [
    "点赞了", "liked", "liked your", "转发了", "reposted", "retweeted",
    "关注了你", "followed you", "视频来源",
    "点赞了你的帖子", "liked your post", "liked your reply",
    "转发了你的帖子", "reposted your", "retweet了"]

  /** Phrases of a reply or mention (app.py:1885-1889). */
  const ReplyHintWords: seq<string> := [
    "回复了你", "回复了你的帖子", "回复了你的贴文", "提到了你", "在帖子中提到了你",
    "replied to you", "replied to your post", "mentioned you", "mentioned you in a post"]

  /**
   A notification card as the page yields it. "" stands for a missing value:
   `statusHandle`/`statusId` from the card's status link, `foundHandle` from the
   handle search, `timeToken` from the card's time element. `age` is the card's
   age in minutes, when known; `candidates` and `nameSegments` feed the
   content picker.
   */
  datatype Card = Card(
    text: string,
    statusHandle: string,
    statusId: string,
    age: Option<int>,
    foundHandle: string,
    candidates: seq<Candidate>,
    nameSegments: seq<string>,
    timeToken: string)

  /** The scan's parameters: the age window, the block list, the monitoring account, and the hash. */
  datatype ScanSettings = ScanSettings(window: int, blocked: seq<string>, delegated: string, md5: string -> Md5Hex)

  /** What the filter chain decides for one card, in the order of its tests. */
  datatype Verdict =
    | SkipEmpty
    | SkipInteraction
    | SkipNonReply
    | SkipOld
    | SkipNoHandle
    | SkipBlocked
    | SkipNoContent
    | SkipInteractionOnly
    | SkipDuplicate
    | Emit(item: Item)

  predicate IsInteraction(c: Card)
  {
    ContainsAny(Lower(c.text), SkipWords)
  }

  predicate IsReplyLike(c: Card)
  {
    ContainsAny(Lower(c.text), ReplyHintWords)
  }

  /** `status_handle or _extract_notification_handle(...)`. */
  function CardHandle(c: Card): string
  {
    Or(c.statusHandle, c.foundHandle)
  }

  /**
   The block-list test (app.py:1931-1942): the handle is listed, unless it is
   the monitoring account itself, compared normalised.
   */
  predicate IsBlocked(handle: string, cfg: ScanSettings)
  {
    var delegatedNorm := NormalizeHandle(cfg.delegated);
    handle in cfg.blocked && (|delegatedNorm| == 0 || NormalizeHandle(handle) != delegatedNorm)
  }

  function CardContent(c: Card): string
  {
    ExtractContent(c.candidates, UserNames(c.nameSegments), CardHandle(c))
  }

  /** The card's result key (app.py:1963-1974). */
  function CardKey(c: Card, cfg: ScanSettings): string
  {
    NotificationKey(cfg.md5, c.statusId, NormalizeHandle(CardHandle(c)), CardContent(c), Strip(c.timeToken))
  }

  /** The captured result (app.py:1984-1998). */
  function ItemOf(c: Card, cfg: ScanSettings): (it: Item)
    ensures it.source == NotifySource && it.key == CardKey(c, cfg) && it.statusId == c.statusId
    ensures |c.statusId| == 0 || IsDigits(c.statusId) ==> ExtractStatusId(it) == c.statusId
  {
    CardIdRecovered(c, cfg);
    Item(CardKey(c, cfg), CardHandle(c), CardContent(c), NotifySource,
         c.statusId, Strip(c.statusHandle), StoredStatusUrl(c.statusHandle, c.statusId))
  }

  /**
   The reply path reads back the status id the card showed: a digit id from the
   stored id, and no id at all for a card without one (its key is a fallback key).
   */
  lemma CardIdRecovered(c: Card, cfg: ScanSettings)
    ensures var it := Item(CardKey(c, cfg), CardHandle(c), CardContent(c), NotifySource,
                           c.statusId, Strip(c.statusHandle), StoredStatusUrl(c.statusHandle, c.statusId));
      |c.statusId| == 0 || IsDigits(c.statusId) ==> ExtractStatusId(it) == c.statusId
  {
    if IsDigits(c.statusId) {
      DigitsStripped(c.statusId);
    } else if |c.statusId| == 0 {
      FallbackKeyShape(cfg.md5, NormalizeHandle(CardHandle(c)), CardContent(c), Strip(c.timeToken));
      StripIdentity("");
    }
  }

  /** What the tests of the chain read off a card, each computed once. */
  datatype View = View(
    hasText: bool,
    interaction: bool,
    replyLike: bool,
    hasStatus: bool,
    recent: bool,
    hasHandle: bool,
    blocked: bool,
    hasContent: bool,
    item: Item)

  function ViewOf(c: Card, cfg: ScanSettings): (v: View)
  {
    View(|c.text| > 0, IsInteraction(c), IsReplyLike(c), |c.statusId| > 0,
         c.age.None? || c.age.value <= cfg.window,
         |CardHandle(c)| > 0, IsBlocked(CardHandle(c), cfg), |CardContent(c)| > 0,
         ItemOf(c, cfg))
  }

  /** The filter chain of app.py:1859-1982, test by test, on a card's view. */
  function Classify(v: View, seen: set<string>, history: set<string>): Verdict
  {
    if !v.hasText then SkipEmpty
    else if v.interaction then SkipInteraction
    else if !v.hasStatus && !v.replyLike then SkipNonReply
    else if !v.recent then SkipOld
    else if !v.hasHandle then SkipNoHandle
    else if v.blocked then SkipBlocked
    else if !v.hasContent then SkipNoContent
    else if v.interaction && !v.replyLike then SkipInteractionOnly
    else if v.item.key in seen || v.item.key in history then SkipDuplicate
    else Emit(v.item)
  }

  /**
   What makes a card worth capturing, whatever the order of the tests: it has
   text, no like/repost/follow phrase, a status id or a reply phrase, a known
   age inside the window or none, a handle that is not blocked, and content.
   */
  predicate Admissible(v: View)
  {
    && v.hasText
    && !v.interaction
    && (v.hasStatus || v.replyLike)
    && v.recent
    && v.hasHandle
    && !v.blocked
    && v.hasContent
  }

  /** The chain emits exactly the admissible cards whose key is new, and emits their result. */
  lemma ClassifyEmits(v: View, seen: set<string>, history: set<string>)
    ensures Classify(v, seen, history).Emit? <==> Admissible(v) && v.item.key !in seen && v.item.key !in history
    ensures Classify(v, seen, history).Emit? ==> Classify(v, seen, history).item == v.item
  {
  }

  /**
   The interaction-only test (app.py:1955) can never fire: the same phrases
   already skipped the card at app.py:1878.
   */
  lemma InteractionOnlyUnreachable(v: View, seen: set<string>, history: set<string>)
    ensures Classify(v, seen, history) != SkipInteractionOnly
  {
  }

  // ---------------------------------------------------------------------
  // The scan
  // ---------------------------------------------------------------------

  datatype ScanResult = ScanResult(items: seq<Item>, seen: set<string>)

  /** `it` is the result of an admissible card of `views`. */
  predicate FromView(it: Item, views: seq<View>)
  {
    exists j :: 0 <= j < |views| && Admissible(views[j]) && it == views[j].item
  }

  /**
   The loop over the cards (app.py:1857-2000) from the page-local key set
   `seen`: every result comes from an admissible card, its key is new to both
   `seen` and the history and unique in the scan, and every admissible card's
   key ends up seen or was already in the history.
   */
  function Scan(views: seq<View>, history: set<string>, seen: set<string>): (r: ScanResult)
    ensures r.seen == seen + KeySet(r.items)
    ensures DistinctKeys(r.items)
    ensures forall i :: 0 <= i < |r.items| ==> r.items[i].key !in seen && r.items[i].key !in history
    ensures forall i :: 0 <= i < |r.items| ==> FromView(r.items[i], views)
    ensures forall j :: 0 <= j < |views| && Admissible(views[j]) ==> views[j].item.key in r.seen + history
    decreases |views|
  {
    if |views| == 0 then ScanResult([], seen)
    else
      var v := Classify(views[0], seen, history);
      ClassifyEmits(views[0], seen, history);
      if v.Emit? then
        var rest := Scan(views[1..], history, seen + {v.item.key});
        var r := ScanResult([v.item] + rest.items, rest.seen);
        ScanStep(views, history, seen, v.item, rest, r);
        r
      else
        var rest := Scan(views[1..], history, seen);
        ScanSkip(views, history, seen, rest);
        rest
  }

  lemma ScanStep(views: seq<View>, history: set<string>, seen: set<string>, it: Item, rest: ScanResult, r: ScanResult)
    requires |views| > 0 && Admissible(views[0]) && it == views[0].item
    requires it.key !in seen && it.key !in history
    requires rest.seen == seen + {it.key} + KeySet(rest.items)
    requires DistinctKeys(rest.items)
    requires forall i :: 0 <= i < |rest.items| ==> rest.items[i].key !in seen + {it.key} && rest.items[i].key !in history
    requires forall i :: 0 <= i < |rest.items| ==> FromView(rest.items[i], views[1..])
    requires forall j :: 0 <= j < |views| - 1 && Admissible(views[1..][j]) ==> views[1..][j].item.key in rest.seen + history
    requires r == ScanResult([it] + rest.items, rest.seen)
    ensures r.seen == seen + KeySet(r.items)
    ensures DistinctKeys(r.items)
    ensures forall i :: 0 <= i < |r.items| ==> r.items[i].key !in seen && r.items[i].key !in history
    ensures forall i :: 0 <= i < |r.items| ==> FromView(r.items[i], views)
    ensures forall j :: 0 <= j < |views| && Admissible(views[j]) ==> views[j].item.key in r.seen + history
  {
    EmitKeys(history, seen, it, rest.items);
    EmitFromView(views, it, rest.items);
    EmitCovers(views, history, rest.seen);
  }

  /** The keys of an emitted result followed by the rest's results stay new and unique. */
  lemma EmitKeys(history: set<string>, seen: set<string>, it: Item, items: seq<Item>)
    requires it.key !in seen && it.key !in history
    requires DistinctKeys(items)
    requires forall i :: 0 <= i < |items| ==> items[i].key !in seen + {it.key} && items[i].key !in history
    ensures KeySet([it] + items) == {it.key} + KeySet(items)
    ensures DistinctKeys([it] + items)
    ensures forall i :: 0 <= i < |[it] + items| ==> ([it] + items)[i].key !in seen && ([it] + items)[i].key !in history
  {
    KeySetCons(it, items);
    var xs := [it] + items;
    assert forall i :: 0 < i < |xs| ==> xs[i] == items[i - 1];
  }

  /** The emitted result and the rest's results all come from admissible cards of `views`. */
  lemma EmitFromView(views: seq<View>, it: Item, items: seq<Item>)
    requires |views| > 0 && Admissible(views[0]) && it == views[0].item
    requires forall i :: 0 <= i < |items| ==> FromView(items[i], views[1..])
    ensures forall i :: 0 <= i < |[it] + items| ==> FromView(([it] + items)[i], views)
  {
    var xs := [it] + items;
    forall i | 0 <= i < |xs|
      ensures FromView(xs[i], views)
    {
      if i > 0 {
        assert xs[i] == items[i - 1];
        FromViewTail(items[i - 1], views);
      }
    }
  }

  /** The first card's key is seen, and the rest's admissible keys were already covered. */
  lemma EmitCovers(views: seq<View>, history: set<string>, seen: set<string>)
    requires |views| > 0 && Admissible(views[0]) && views[0].item.key in seen
    requires forall j :: 0 <= j < |views| - 1 && Admissible(views[1..][j]) ==> views[1..][j].item.key in seen + history
    ensures forall j :: 0 <= j < |views| && Admissible(views[j]) ==> views[j].item.key in seen + history
  {
    forall j | 0 <= j < |views| && Admissible(views[j])
      ensures views[j].item.key in seen + history
    {
      if j > 0 {
        assert views[1..][j - 1] == views[j];
      }
    }
  }

  lemma ScanSkip(views: seq<View>, history: set<string>, seen: set<string>, rest: ScanResult)
    requires |views| > 0
    requires Admissible(views[0]) ==> views[0].item.key in seen || views[0].item.key in history
    requires rest.seen == seen + KeySet(rest.items)
    requires forall i :: 0 <= i < |rest.items| ==> FromView(rest.items[i], views[1..])
    requires forall j :: 0 <= j < |views| - 1 && Admissible(views[1..][j]) ==> views[1..][j].item.key in rest.seen + history
    ensures forall i :: 0 <= i < |rest.items| ==> FromView(rest.items[i], views)
    ensures forall j :: 0 <= j < |views| && Admissible(views[j]) ==> views[j].item.key in rest.seen + history
  {
    forall i | 0 <= i < |rest.items|
      ensures FromView(rest.items[i], views)
    {
      FromViewTail(rest.items[i], views);
    }
    forall j | 0 <= j < |views| && Admissible(views[j])
      ensures views[j].item.key in rest.seen + history
    {
      if j > 0 {
        assert views[1..][j - 1] == views[j];
      }
    }
  }

  lemma FromViewTail(it: Item, views: seq<View>)
    requires |views| > 0 && FromView(it, views[1..])
    ensures FromView(it, views)
  {
    var j :| 0 <= j < |views| - 1 && Admissible(views[1..][j]) && it == views[1..][j].item;
    assert views[1..][j] == views[j + 1];
  }

  lemma KeySetCons(it: Item, items: seq<Item>)
    ensures KeySet([it] + items) == {it.key} + KeySet(items)
    ensures DistinctKeys(items) && it.key !in KeySet(items) ==> DistinctKeys([it] + items)
  {
    KeySetConsKeys(it, items);
    if DistinctKeys(items) && it.key !in KeySet(items) {
      DistinctCons(it, items);
    }
  }

  lemma KeySetConsKeys(it: Item, items: seq<Item>)
    ensures KeySet([it] + items) == {it.key} + KeySet(items)
  {
    var xs := [it] + items;
    forall k | k in KeySet(xs) ensures k in {it.key} + KeySet(items) {
      var i :| 0 <= i < |xs| && xs[i].key == k;
      if i > 0 {
        assert xs[i] == items[i - 1];
      }
    }
    forall k | k in KeySet(items) ensures k in KeySet(xs) {
      var i :| 0 <= i < |items| && items[i].key == k;
      assert xs[i + 1] == items[i];
    }
    assert xs[0] == it;
  }

  lemma DistinctCons(it: Item, items: seq<Item>)
    requires DistinctKeys(items) && it.key !in KeySet(items)
    ensures DistinctKeys([it] + items)
  {
    var xs := [it] + items;
    forall i, j | 0 <= i < j < |xs| ensures xs[i].key != xs[j].key {
      assert xs[j] == items[j - 1];
      if i > 0 {
        assert xs[i] == items[i - 1];
      }
    }
  }

  /** `it` is the result of an admissible card among the first 60 of `articles`. */
  predicate Captured(it: Item, articles: seq<Card>, cfg: ScanSettings)
  {
    exists j :: 0 <= j < |articles| && j < MaxScanArticles && Admissible(ViewOf(articles[j], cfg)) && it == ViewOf(articles[j], cfg).item
  }

  /** The views of the cards, in order. */
  function Views(cards: seq<Card>, cfg: ScanSettings): (vs: seq<View>)
    ensures |vs| == |cards|
    ensures forall k :: 0 <= k < |cards| ==> vs[k] == ViewOf(cards[k], cfg)
  {
    seq(|cards|, k requires 0 <= k < |cards| => ViewOf(cards[k], cfg))
  }

  /**
   `scan_notifications_page` (app.py:1800-2000) over the page's cards: the
   first 60 cards, chunk-shuffled, go through the filter chain with an empty
   page-local key set. Every result comes from an admissible card among the
   first 60, and its key is new to the history and unique in the scan.
   */
  method ScanPage(articles: seq<Card>, cfg: ScanSettings, history: set<string>) returns (items: seq<Item>)
    ensures DistinctKeys(items)
    ensures forall i :: 0 <= i < |items| ==> items[i].key !in history
    ensures forall i :: 0 <= i < |items| ==> Captured(items[i], articles, cfg)
    ensures forall j :: 0 <= j < |articles| && j < MaxScanArticles && Admissible(ViewOf(articles[j], cfg)) ==>
      ViewOf(articles[j], cfg).item.key in KeySet(items) + history
  {
    var scan := if |articles| > MaxScanArticles then articles[..MaxScanArticles] else articles;
    var order, sizes := Reorder(scan);
    ChunkShuffleIsPermutation(scan, order, sizes);
    var r := Scan(Views(order, cfg), history, {});
    items := r.items;
    CapturedAll(items, articles, scan, order, cfg);
    CoveredFromOrder(articles, scan, order, cfg, Views(order, cfg), r.seen + history);
  }

  /** Every admissible card of the rearranged prefix covered means every admissible card among the first 60 is. */
  lemma CoveredFromOrder(articles: seq<Card>, scan: seq<Card>, order: seq<Card>, cfg: ScanSettings,
                         vs: seq<View>, covered: set<string>)
    requires scan == if |articles| > MaxScanArticles then articles[..MaxScanArticles] else articles
    requires multiset(order) == multiset(scan) && vs == Views(order, cfg)
    requires forall k :: 0 <= k < |vs| && Admissible(vs[k]) ==> vs[k].item.key in covered
    ensures forall j :: 0 <= j < |articles| && j < MaxScanArticles && Admissible(ViewOf(articles[j], cfg)) ==>
      ViewOf(articles[j], cfg).item.key in covered
  {
    forall j | 0 <= j < |articles| && j < MaxScanArticles && Admissible(ViewOf(articles[j], cfg))
      ensures ViewOf(articles[j], cfg).item.key in covered
    {
      var k := InOrder(articles, scan, order, j);
      assert vs[k] == ViewOf(articles[j], cfg);
    }
  }

  lemma CapturedAll(items: seq<Item>, articles: seq<Card>, scan: seq<Card>, order: seq<Card>, cfg: ScanSettings)
    requires scan == if |articles| > MaxScanArticles then articles[..MaxScanArticles] else articles
    requires multiset(order) == multiset(scan)
    requires forall i :: 0 <= i < |items| ==> FromView(items[i], Views(order, cfg))
    ensures forall i :: 0 <= i < |items| ==> Captured(items[i], articles, cfg)
  {
    forall i | 0 <= i < |items|
      ensures Captured(items[i], articles, cfg)
    {
      CapturedFromOrder(items[i], articles, scan, order, cfg);
    }
  }

  lemma CapturedFromOrder(it: Item, articles: seq<Card>, scan: seq<Card>, order: seq<Card>, cfg: ScanSettings)
    requires scan == if |articles| > MaxScanArticles then articles[..MaxScanArticles] else articles
    requires multiset(order) == multiset(scan)
    requires FromView(it, Views(order, cfg))
    ensures Captured(it, articles, cfg)
  {
    var vs := Views(order, cfg);
    var k :| 0 <= k < |vs| && Admissible(vs[k]) && it == vs[k].item;
    var j := InPrefix(articles, scan, order, k);
    assert order[k] == articles[j];
  }

  /** An element of a rearranged prefix sits at some position of the prefix. */
  lemma InPrefix<T>(articles: seq<T>, scan: seq<T>, order: seq<T>, k: nat) returns (j: nat)
    requires scan == if |articles| > MaxScanArticles then articles[..MaxScanArticles] else articles
    requires multiset(order) == multiset(scan) && k < |order|
    ensures j < |articles| && j < MaxScanArticles && articles[j] == order[k]
  {
    assert order[k] in multiset(scan);
    j :| 0 <= j < |scan| && scan[j] == order[k];
    assert articles[j] == scan[j];
  }

  /** A card among the first 60 sits somewhere in the rearranged prefix. */
  lemma InOrder<T>(articles: seq<T>, scan: seq<T>, order: seq<T>, j: nat) returns (k: nat)
    requires scan == if |articles| > MaxScanArticles then articles[..MaxScanArticles] else articles
    requires multiset(order) == multiset(scan) && j < |articles| && j < MaxScanArticles
    ensures k < |order| && order[k] == articles[j]
  {
    assert articles[j] == scan[j];
    assert articles[j] in multiset(order);
    k :| 0 <= k < |order| && order[k] == articles[j];
  }

  /** The result of a card is its `ItemOf`, which carries the notifications-page source. */
  lemma ViewItem(c: Card, cfg: ScanSettings)
    ensures ViewOf(c, cfg).item == ItemOf(c, cfg)
    ensures ViewOf(c, cfg).item.source == NotifySource
  {
  }

  /** A captured card is recent and carries no like/repost/follow phrase. */
  lemma CapturedIsRecent(it: Item, articles: seq<Card>, cfg: ScanSettings)
    requires Captured(it, articles, cfg)
    ensures exists j :: 0 <= j < |articles| && it == ViewOf(articles[j], cfg).item && !IsInteraction(articles[j])
                        && (articles[j].age.None? || articles[j].age.value <= cfg.window)
  {
  }
}

=== FILE: notifkey.dfy ===
/**
 Notification result keys, status-id recovery and status links
 (app.py:1963-1998, 2618-2638, 2849-2857).
 */
module NotifKey {
  import opened Text
  import opened Normalize
  import opened Items
  import opened ContentDedupe

  const StatusKeyPrefix: string := "notif_status_"
  const FallbackKeyPrefix: string := "notif_fallback_"
  const StatusPath: string := "/status/"
  const Site: string := "https://x.com"

  /** The key of a notification that carries a status id (app.py:1965). */
  function StatusKey(id: string): string
  {
    StatusKeyPrefix + id
  }

  /**
   The key of a notification without a status id (app.py:1967-1974): the first
   20 hex digits of the MD5 of `handle_norm|content|time_token`.
   */
  function FallbackKey(md5: string -> Md5Hex, handleNorm: string, content: string, timeToken: string): (k: string)
    ensures |k| == |FallbackKeyPrefix| + 20
  {
    FallbackKeyPrefix + md5(handleNorm + "|" + content + "|" + timeToken)[..20]
  }

  /** The key `scan_notifications_page` assigns (app.py:1964-1974); "" is a missing status id. */
  function NotificationKey(md5: string -> Md5Hex, statusId: string, handleNorm: string, content: string, timeToken: string): string
  {
    if |statusId| > 0 then StatusKey(statusId) else FallbackKey(md5, handleNorm, content, timeToken)
  }

  /**
   `re.search(r'/status/(\d+)', s)`: the digit run after the leftmost
   `/status/` that is followed by a digit, or "" when there is none.
   */
  function SearchStatusId(s: string): (r: string)
    ensures |r| == 0 || IsDigits(r)
    decreases |s|
  {
    if |s| == 0 then ""
    else if StartsWith(s, StatusPath) && |s| > |StatusPath| && IsDigit(s[|StatusPath|]) then
      var t := s[|StatusPath|..];
      t[..DigitRunLen(t)]
    else SearchStatusId(s[1..])
  }

  /**
   `extract_status_id_from_notification_item` (app.py:2618-2638): the stored
   status id when it is all digits, else the id in the status URL, else the id
   in a `notif_status_<digits>` key, else "".
   */
  function ExtractStatusId(item: Item): (r: string)
    ensures |r| == 0 || IsDigits(r)
  {
    var sid := Strip(item.statusId);
    var url := Strip(item.statusUrl);
    var key := Strip(item.key);
    if IsDigits(sid) then sid
    else if |url| > 0 && |SearchStatusId(url)| > 0 then SearchStatusId(url)
    else if StartsWith(key, StatusKeyPrefix) && IsDigits(key[|StatusKeyPrefix|..]) then key[|StatusKeyPrefix|..]
    else ""
  }

  /** `https://x.com/<author>/status/<id>`. */
  function AuthorLink(author: string, id: string): string
  {
    Site + "/" + author + StatusPath + id
  }

  /** The link of a status, by author when known, else by id alone (`/i/status/<id>`). */
  function StatusLink(handleNorm: string, id: string): string
  {
    AuthorLink(if |handleNorm| > 0 then handleNorm else "i", id)
  }

  /**
   The `status_url` stored with a captured notification (app.py:1994-1998).
   The author test is on the raw `status_handle`, before normalisation, so a
   blank-but-present author yields `https://x.com//status/<id>`.
   */
  function StoredStatusUrl(statusHandle: string, statusId: string): (r: string)
    ensures |statusId| == 0 <==> |r| == 0
  {
    if |statusId| > 0 && |statusHandle| > 0 then AuthorLink(NormalizeHandle(statusHandle), statusId)
    else if |statusId| > 0 then StatusLink("", statusId)
    else ""
  }

  /** Python's `a or b` on strings. */
  function Or(a: string, b: string): string
  {
    if |a| > 0 then a else b
  }

  /**
   `_get_status_link_from_item` (app.py:2849-2857): the matched id and author
   take precedence over the stored ones; without an id, the stored URL.
   */
  function StatusLinkOf(item: Item, matchedHandle: string, matchedId: string): (r: string)
    ensures IsDigits(Strip(Or(matchedId, item.statusId))) && '/' !in NormalizeHandle(Or(matchedHandle, item.statusHandle)) ==>
      SearchStatusId(r) == Strip(Or(matchedId, item.statusId))
    ensures |Strip(Or(matchedId, item.statusId))| > 0 ==>
      r == StatusLink(NormalizeHandle(Or(matchedHandle, item.statusHandle)), Strip(Or(matchedId, item.statusId)))
    ensures |Strip(Or(matchedId, item.statusId))| == 0 ==> r == Strip(item.statusUrl)
  {
    var id := Strip(Or(matchedId, item.statusId));
    var handle := NormalizeHandle(Or(matchedHandle, item.statusHandle));
    StatusLinkCarriesId(handle, id);
    if |id| > 0 && |handle| > 0 then AuthorLink(handle, id)
    else if |id| > 0 then AuthorLink("i", id)
    else Strip(item.statusUrl)
  }

  // ---------------------------------------------------------------------
  // Round trips
  // ---------------------------------------------------------------------

  lemma DigitsRun(s: string)
    requires IsDigits(s)
    ensures DigitRunLen(s) == |s|
  {
  }

  lemma DigitsStripped(s: string)
    requires IsDigits(s)
    ensures Strip(s) == s
  {
    StripIdentity(s);
  }

  /** A status key of a digit string gives the digit string back. */
  lemma StatusKeyRoundTrip(id: string, item: Item)
    requires IsDigits(id)
    requires item.key == StatusKey(id)
    requires !IsDigits(Strip(item.statusId)) && |SearchStatusId(Strip(item.statusUrl))| == 0
    ensures ExtractStatusId(item) == id
  {
    var key := StatusKey(id);
    assert !IsSpace(key[0]) && !IsSpace(key[|key| - 1]);
    StripIdentity(key);
    assert key[|StatusKeyPrefix|..] == id;
  }

  /** `/status/<digits>` matches at its own start. */
  lemma SearchAtPath(id: string, rest: string)
    requires IsDigits(id)
    requires |rest| == 0 || !IsDigit(rest[0])
    ensures SearchStatusId(StatusPath + id + rest) == id
  {
    DigitRunOf(id, rest);
    SearchAtPathStart(id + rest);
    assert StatusPath + id + rest == StatusPath + (id + rest);
  }

  /** A match right at the start: the digit run after `/status/`. */
  lemma SearchAtPathStart(t: string)
    requires |t| > 0 && IsDigit(t[0])
    ensures SearchStatusId(StatusPath + t) == t[..DigitRunLen(t)]
  {
    var s := StatusPath + t;
    assert s[..|StatusPath|] == StatusPath;
    assert s[|StatusPath|..] == t;
  }

  /** The digit run at the start of `id + rest` is exactly `id`. */
  lemma {:induction false} DigitRunOf(id: string, rest: string)
    requires IsDigits(id)
    requires |rest| == 0 || !IsDigit(rest[0])
    ensures DigitRunLen(id + rest) == |id| && (id + rest)[..|id|] == id
    ensures IsDigit((id + rest)[0])
    decreases |id|
  {
    var t := id + rest;
    assert t[0] == id[0];
    assert t[1..] == id[1..] + rest;
    if |id| > 1 {
      assert IsDigits(id[1..]) by {
        assert forall i :: 0 <= i < |id| - 1 ==> id[1..][i] == id[i + 1];
      }
      DigitRunOf(id[1..], rest);
    }
  }

  /** A prefix without `/` cannot hold the start of a match. */
  lemma {:induction false} SearchSkipsNoSlash(h: string, t: string)
    requires '/' !in h
    ensures SearchStatusId(h + t) == SearchStatusId(t)
    decreases |h|
  {
    if |h| == 0 {
      assert h + t == t;
    } else {
      var s := h + t;
      assert s[0] == h[0] && h[0] in h;
      assert !StartsWith(s, StatusPath) by {
        if |s| >= |StatusPath| {
          assert s[..|StatusPath|][0] == s[0];
        }
      }
      assert s[1..] == h[1..] + t;
      SearchSkipsNoSlash(h[1..], t);
    }
  }

  /** `/<author>/status/<id>` with a `/`-free author yields the id. */
  lemma SearchAfterAuthor(h: string, id: string)
    requires '/' !in h && IsDigits(id)
    ensures SearchStatusId("/" + h + StatusPath + id) == id
  {
    var s := "/" + h + StatusPath + id;
    assert !(StartsWith(s, StatusPath) && |s| > |StatusPath| && IsDigit(s[|StatusPath|])) by {
      if |h| >= 7 {
        assert s[7] == h[6] && h[6] in h;
      } else {
        assert s[1 + |h|] == '/';
        assert |h| == 6 ==> s[8] == 's';
      }
    }
    assert s[1..] == h + (StatusPath + id + "");
    SearchSkipsNoSlash(h, StatusPath + id + "");
    SearchAtPath(id, "");
  }

  /** Every `/` of `h` is followed, inside `h`, by a character other than `s`. */
  predicate NoPathStart(h: string)
  {
    forall i :: 0 <= i < |h| && h[i] == '/' ==> i + 1 < |h| && h[i + 1] != 's'
  }

  /** A prefix in which no `/` is followed by `s` cannot hold the start of a match. */
  lemma {:induction false} SearchSkipsPrefix(h: string, t: string)
    requires NoPathStart(h)
    ensures SearchStatusId(h + t) == SearchStatusId(t)
    decreases |h|
  {
    if |h| == 0 {
      assert h + t == t;
    } else {
      var s := h + t;
      assert s[0] == h[0];
      assert !StartsWith(s, StatusPath) by {
        if |s| >= |StatusPath| && h[0] == '/' {
          assert s[..|StatusPath|][1] == s[1] == h[1];
        } else if |s| >= |StatusPath| {
          assert s[..|StatusPath|][0] == s[0];
        }
      }
      assert s[1..] == h[1..] + t;
      assert NoPathStart(h[1..]) by {
        forall i | 0 <= i < |h| - 1 && h[1..][i] == '/' ensures i + 1 < |h| - 1 && h[1..][i + 1] != 's' {
          assert h[i + 1] == '/';
        }
      }
      SearchSkipsPrefix(h[1..], t);
    }
  }

  /** The site prefix `https://x.com` cannot hold the start of a match. */
  lemma SearchSkipsHost(t: string)
    ensures SearchStatusId(Site + t) == SearchStatusId(t)
  {
    assert NoPathStart(Site) by {
      assert Site[6] == '/' && Site[7] == '/' && Site[8] == 'x';
      assert forall i :: 0 <= i < |Site| && i != 6 && i != 7 ==> Site[i] != '/';
    }
    SearchSkipsPrefix(Site, t);
  }

  /** The id is recovered from a status link of a `/`-free author. */
  lemma StatusLinkRoundTrip(h: string, id: string)
    requires '/' !in h && IsDigits(id)
    ensures SearchStatusId(StatusLink(h, id)) == id
  {
    AuthorLinkCarriesId(if |h| > 0 then h else "i", id);
  }

  /** `StatusLinkRoundTrip` for callers that have not established its premises. */
  lemma StatusLinkCarriesId(h: string, id: string)
    ensures IsDigits(id) && '/' !in h ==> SearchStatusId(StatusLink(h, id)) == id
  {
    if IsDigits(id) && '/' !in h {
      StatusLinkRoundTrip(h, id);
    }
  }

  /** An item whose id field is not a digit string yields the id its URL carries. */
  lemma ExtractFromUrl(item: Item, id: string)
    requires IsDigits(id) && !IsDigits(Strip(item.statusId))
    requires |item.statusUrl| > 0 && !IsSpace(item.statusUrl[0]) && !IsSpace(item.statusUrl[|item.statusUrl| - 1])
    requires SearchStatusId(item.statusUrl) == id
    ensures ExtractStatusId(item) == id
  {
    StripIdentity(item.statusUrl);
  }

  /** A `/`-free author's link begins with `h` and ends with the id's last digit. */
  lemma AuthorLinkCarriesId(a: string, id: string)
    requires IsDigits(id) && '/' !in a
    ensures var url := AuthorLink(a, id);
      && SearchStatusId(url) == id
      && !IsSpace(url[0]) && !IsSpace(url[|url| - 1])
  {
    var tail := "/" + a + StatusPath + id;
    assert AuthorLink(a, id) == Site + tail;
    SearchSkipsHost(tail);
    SearchAfterAuthor(a, id);
    AuthorLinkEnds(a, id);
  }

  /** A link starts with `h` and ends with the id's last digit. */
  lemma AuthorLinkEnds(a: string, id: string)
    requires IsDigits(id)
    ensures var url := AuthorLink(a, id);
      !IsSpace(url[0]) && !IsSpace(url[|url| - 1])
  {
    var url := AuthorLink(a, id);
    assert url[0] == 'h' && url[|url| - 1] == id[|id| - 1];
  }

  /** The stored URL of a status is a link that carries its id. */
  lemma StoredUrlCarriesId(statusHandle: string, id: string)
    requires IsDigits(id) && '/' !in NormalizeHandle(statusHandle)
    ensures var url := StoredStatusUrl(statusHandle, id);
      && SearchStatusId(url) == id
      && !IsSpace(url[0]) && !IsSpace(url[|url| - 1])
  {
    if |statusHandle| > 0 {
      AuthorLinkCarriesId(NormalizeHandle(statusHandle), id);
    } else {
      AuthorLinkCarriesId("i", id);
    }
  }

  /** A stored notification whose id field is blank still yields its id from the stored URL. */
  lemma StoredUrlRoundTrip(statusHandle: string, id: string, item: Item)
    requires IsDigits(id) && '/' !in NormalizeHandle(statusHandle)
    requires item.statusUrl == StoredStatusUrl(statusHandle, id)
    requires !IsDigits(Strip(item.statusId))
    ensures ExtractStatusId(item) == id
  {
    StoredUrlCarriesId(statusHandle, id);
    ExtractFromUrl(item, id);
  }

  /** Status keys and fallback keys never coincide. */
  lemma KeyKindsDisjoint(md5: string -> Md5Hex, id: string, handleNorm: string, content: string, timeToken: string)
    ensures StatusKey(id) != FallbackKey(md5, handleNorm, content, timeToken)
  {
    assert StatusKey(id)[6] == 's';
    assert FallbackKey(md5, handleNorm, content, timeToken)[6] == 'f';
  }

  /** A fallback key carries no status id. */
  lemma FallbackKeyHasNoId(md5: string -> Md5Hex, handleNorm: string, content: string, timeToken: string, item: Item)
    requires item.key == FallbackKey(md5, handleNorm, content, timeToken)
    requires !IsDigits(Strip(item.statusId)) && |SearchStatusId(Strip(item.statusUrl))| == 0
    ensures ExtractStatusId(item) == ""
  {
    FallbackKeyShape(md5, handleNorm, content, timeToken);
  }

  /** A fallback key is already stripped and does not start like a status key. */
  lemma FallbackKeyShape(md5: string -> Md5Hex, handleNorm: string, content: string, timeToken: string)
    ensures var k := FallbackKey(md5, handleNorm, content, timeToken);
      Strip(k) == k && !StartsWith(k, StatusKeyPrefix)
  {
    var k := FallbackKey(md5, handleNorm, content, timeToken);
    var d := md5(handleNorm + "|" + content + "|" + timeToken);
    assert k[|k| - 1] == d[19] && IsHexDigit(d[19]);
    assert !IsSpace(k[0]) && !IsSpace(k[|k| - 1]);
    StripIdentity(k);
    assert k[..|StatusKeyPrefix|][6] != StatusKeyPrefix[6];
  }

  /** Rebuilding the link of a stored notification gives the URL stored with it. */
  lemma StatusLinkOfStored(item: Item, rawHandle: string, id: string)
    requires IsDigits(id) && item.statusId == id
    requires item.statusHandle == Strip(rawHandle)
    requires item.statusUrl == StoredStatusUrl(rawHandle, id)
    requires |rawHandle| == 0 || |NormalizeHandle(rawHandle)| > 0
    ensures StatusLinkOf(item, "", "") == item.statusUrl
  {
    DigitsStripped(id);
    HandleOfStripped(rawHandle);
    var link := StatusLinkOf(item, "", "");
    assert link == StatusLink(NormalizeHandle(rawHandle), id);
    if |rawHandle| == 0 {
      assert NormalizeHandle(rawHandle) == "";
    }
  }

  /** Stripping a handle first does not change its normal form, and a blank handle has an empty one. */
  lemma HandleOfStripped(rawHandle: string)
    ensures NormalizeHandle(Strip(rawHandle)) == NormalizeHandle(rawHandle)
    ensures |Strip(rawHandle)| == 0 ==> NormalizeHandle(rawHandle) == ""
  {
    StripIdentity(Strip(rawHandle));
  }
}

=== FILE: outcome.dfy ===
/**
 Optional values and results with an error message, used wherever app.py
 returns `None`, a `(value, error)` pair or an HTTP error body.
 */
module Outcome {
  datatype Option<T> = None | Some(value: T)
  {
    predicate IsSome() { Some? }
  }

  /** A successful value, or an error with the message (and HTTP status, where there is one). */
  datatype Result<T> = Ok(value: T) | Err(msg: string, status: int)
}

=== FILE: ranking.dfy ===
/**
 Picking the first strictly-best element of a list, the selection loop shared
 by the reply-card matchers (app.py:2738-2740, 2809-2812) and the
 notification content picker (app.py:1722-1735).
 */
module Ranking {
  import opened Outcome

  /** The winner: its position in the list and its score. */
  datatype Match = Match(index: nat, score: int)

  /**
   The selection loop: keep the first element whose score is strictly above every
   earlier one (`if score > best_score`), skipping elements scored `None`.
   */
  function BestBy<C>(score: C -> Option<int>, xs: seq<C>): (r: Option<Match>)
    ensures r.Some? ==> r.value.index < |xs| && score(xs[r.value.index]) == Some(r.value.score)
    decreases |xs|
  {
    if |xs| == 0 then None
    else
      var prev := BestBy(score, xs[..|xs| - 1]);
      var s := score(xs[|xs| - 1]);
      if s.Some? && (prev.None? || s.value > prev.value.score) then Some(Match(|xs| - 1, s.value))
      else prev
  }

  /** `m` is the first element whose score no other element beats. */
  predicate IsFirstBest<C>(score: C -> Option<int>, xs: seq<C>, m: Match)
  {
    && m.index < |xs|
    && score(xs[m.index]) == Some(m.score)
    && (forall j :: 0 <= j < |xs| && score(xs[j]).Some? ==> score(xs[j]).value <= m.score)
    && (forall j :: 0 <= j < m.index && score(xs[j]).Some? ==> score(xs[j]).value < m.score)
  }

  /** The loop finds the first best element, and finds nothing only when every element is skipped. */
  lemma {:induction false} BestByCorrect<C>(score: C -> Option<int>, xs: seq<C>)
    ensures BestBy(score, xs).Some? ==> IsFirstBest(score, xs, BestBy(score, xs).value)
    ensures BestBy(score, xs).None? <==> forall j :: 0 <= j < |xs| ==> score(xs[j]).None?
    decreases |xs|
  {
    if |xs| > 0 {
      var init := xs[..|xs| - 1];
      BestByCorrect(score, init);
      assert forall j :: 0 <= j < |init| ==> init[j] == xs[j];
    }
  }

  /**
   When every element with a score at or above `floor` has property `P`, and some
   such element exists, the winner has property `P` too.
   */
  lemma BestAboveFloor<C>(score: C -> Option<int>, xs: seq<C>, floor: int, P: C -> bool, k: nat)
    requires k < |xs| && score(xs[k]).Some? && score(xs[k]).value >= floor
    requires forall c :: score(c).Some? && score(c).value >= floor ==> P(c)
    ensures BestBy(score, xs).Some?
    ensures P(xs[BestBy(score, xs).value.index])
  {
    BestByCorrect(score, xs);
  }

  /** Python's `s[:n]`. */
  function Take<T>(s: seq<T>, n: nat): (r: seq<T>)
    ensures |r| == if |s| <= n then |s| else n
    ensures r == s[..|r|]
  {
    if |s| <= n then s else s[..n]
  }

}

=== FILE: results.dfy ===
/**
 The two list filters of the results dashboard: `mark_done` removes the
 handled result (app.py:3681-3701) and `clear_results` empties one kind of
 result or all of them (app.py:3703-3719).
 */
module Results {
  import opened Items
  import opened Admission

  /** `[r for r in xs if keep(r)]`. */
  function Filter(xs: seq<Item>, keep: Item -> bool): (r: seq<Item>)
    ensures |r| <= |xs|
    ensures forall i :: 0 <= i < |r| ==> keep(r[i]) && r[i] in xs
    ensures forall i :: 0 <= i < |xs| && keep(xs[i]) ==> xs[i] in r
    decreases |xs|
  {
    if |xs| == 0 then []
    else if keep(xs[0]) then [xs[0]] + Filter(xs[1..], keep)
    else Filter(xs[1..], keep)
  }

  /** How many elements `keep` accepts. */
  function Count(xs: seq<Item>, keep: Item -> bool): nat
    decreases |xs|
  {
    if |xs| == 0 then 0 else (if keep(xs[0]) then 1 else 0) + Count(xs[1..], keep)
  }

  /** Filtering keeps as many elements as `keep` accepts; what it drops is the rejected ones. */
  lemma {:induction false} FilterSplits(xs: seq<Item>, keep: Item -> bool, drop: Item -> bool)
    requires forall x :: drop(x) == !keep(x)
    ensures |Filter(xs, keep)| == Count(xs, keep)
    ensures multiset(Filter(xs, keep)) + multiset(Filter(xs, drop)) == multiset(xs)
    decreases |xs|
  {
    if |xs| > 0 {
      FilterSplits(xs[1..], keep, drop);
      assert xs == [xs[0]] + xs[1..];
    }
  }

  /**
   Filtering keeps the accepted elements in their original order: the result
   is `xs` read at strictly increasing positions, and every accepted position
   is among them.
   */
  lemma {:induction false} FilterOrder(xs: seq<Item>, keep: Item -> bool) returns (idx: seq<nat>)
    ensures PicksOut(idx, Filter(xs, keep), xs)
    ensures forall k :: 0 <= k < |xs| && keep(xs[k]) ==> k in idx
    decreases |xs|
  {
    if |xs| == 0 {
      return [];
    }
    var rest := FilterOrder(xs[1..], keep);
    var shifted := Shift(rest);
    ShiftPicks(rest, Filter(xs[1..], keep), xs);
    if keep(xs[0]) {
      idx := [0] + shifted;
      ConsPicks(shifted, Filter(xs[1..], keep), xs);
    } else {
      idx := shifted;
    }
    forall k | 0 <= k < |xs| && keep(xs[k]) ensures k in idx {
      if k > 0 {
        assert xs[1..][k - 1] == xs[k];
        var i :| 0 <= i < |rest| && rest[i] == k - 1;
        assert shifted[i] == k;
      }
    }
  }

  /** Every position moved one place right. */
  function Shift(ps: seq<nat>): (r: seq<nat>)
    ensures |r| == |ps| && forall i :: 0 <= i < |ps| ==> r[i] == ps[i] + 1
  {
    seq(|ps|, i requires 0 <= i < |ps| => ps[i] + 1)
  }

  /** Positions in the tail of `xs` are positions in `xs`, one further right. */
  lemma ShiftPicks(ps: seq<nat>, ys: seq<Item>, xs: seq<Item>)
    requires |xs| > 0 && PicksOut(ps, ys, xs[1..])
    ensures PicksOut(Shift(ps), ys, xs)
    ensures forall i :: 0 <= i < |ps| ==> Shift(ps)[i] >= 1
  {
    forall i | 0 <= i < |ps| ensures ys[i] == xs[Shift(ps)[i]] {
      assert xs[1..][ps[i]] == xs[ps[i] + 1];
    }
  }

  /** Picking the head of `xs` before positions in its tail keeps the picks increasing. */
  lemma ConsPicks(ps: seq<nat>, ys: seq<Item>, xs: seq<Item>)
    requires |xs| > 0 && PicksOut(ps, ys, xs)
    requires forall i :: 0 <= i < |ps| ==> ps[i] >= 1
    ensures PicksOut([0] + ps, [xs[0]] + ys, xs)
  {
    var qs := [0] + ps;
    var zs := [xs[0]] + ys;
    assert forall i :: 1 <= i < |qs| ==> qs[i] == ps[i - 1] && zs[i] == ys[i - 1];
  }

  /**
   `mark_done` (app.py:3681-3701): with a key, drop every result with that key;
   otherwise, with a handle, drop every result of that handle; with neither,
   change nothing. "" stands for a missing key or handle. Returns the new list
   and how many results were removed.
   */
  function MarkDone(pending: seq<Item>, key: string, handle: string): (r: (seq<Item>, nat))
    ensures |r.0| + r.1 == |pending|
    ensures |key| > 0 ==> forall i :: 0 <= i < |r.0| ==> r.0[i].key != key
    ensures |key| > 0 ==> forall i :: 0 <= i < |pending| && pending[i].key != key ==> pending[i] in r.0
    ensures |key| == 0 && |handle| > 0 ==> forall i :: 0 <= i < |r.0| ==> r.0[i].handle != handle
    ensures |key| == 0 && |handle| > 0 ==> forall i :: 0 <= i < |pending| && pending[i].handle != handle ==> pending[i] in r.0
    ensures |key| == 0 && |handle| == 0 ==> r.0 == pending && r.1 == 0
  {
    var rest :=
      if |key| > 0 then Filter(pending, (x: Item) => x.key != key)
      else if |handle| > 0 then Filter(pending, (x: Item) => x.handle != handle)
      else pending;
    (rest, |pending| - |rest|)
  }

  /**
   Marking one result done by key removes exactly that result when keys are
   unique (as admission keeps them), and nothing when the key is absent.
   */
  lemma MarkDoneByKey(pending: seq<Item>, key: string, handle: string)
    requires |key| > 0 && DistinctKeys(pending)
    ensures (exists i :: 0 <= i < |pending| && pending[i].key == key) ==> MarkDone(pending, key, handle).1 == 1
    ensures (forall i :: 0 <= i < |pending| ==> pending[i].key != key) ==> MarkDone(pending, key, handle).0 == pending
  {
    var keep := (x: Item) => x.key != key;
    FilterSplits(pending, keep, (x: Item) => x.key == key);
    CountDistinct(pending, key);
    if forall i :: 0 <= i < |pending| ==> pending[i].key != key {
      FilterAll(pending, keep);
    }
  }

  /** `mark_done` keeps the surviving results in their original order. */
  lemma MarkDoneKeepsOrder(pending: seq<Item>, key: string, handle: string) returns (idx: seq<nat>)
    ensures PicksOut(idx, MarkDone(pending, key, handle).0, pending)
  {
    if |key| > 0 {
      idx := FilterOrder(pending, (x: Item) => x.key != key);
    } else if |handle| > 0 {
      idx := FilterOrder(pending, (x: Item) => x.handle != handle);
    } else {
      idx := FilterOrder(pending, (x: Item) => true);
      FilterAll(pending, (x: Item) => true);
    }
  }

  /** With unique keys, at most one result holds a given key. */
  lemma {:induction false} CountDistinct(xs: seq<Item>, key: string)
    requires DistinctKeys(xs)
    ensures Count(xs, (x: Item) => x.key != key) == |xs| - (if exists i :: 0 <= i < |xs| && xs[i].key == key then 1 else 0)
    decreases |xs|
  {
    if |xs| > 0 {
      var t := xs[1..];
      assert DistinctKeys(t) by {
        forall i, j | 0 <= i < j < |t| ensures t[i].key != t[j].key {
          assert t[i] == xs[i + 1] && t[j] == xs[j + 1];
        }
      }
      CountDistinct(t, key);
      if xs[0].key == key {
        forall i | 0 <= i < |t| ensures t[i].key != key {
          assert t[i] == xs[i + 1];
        }
      } else {
        if exists i :: 0 <= i < |xs| && xs[i].key == key {
          var i :| 0 <= i < |xs| && xs[i].key == key;
          assert t[i - 1] == xs[i];
        }
        if exists i :: 0 <= i < |t| && t[i].key == key {
          var i :| 0 <= i < |t| && t[i].key == key;
          assert xs[i + 1] == t[i];
        }
      }
    }
  }

  /** A filter that accepts everything changes nothing. */
  lemma {:induction false} FilterAll(xs: seq<Item>, keep: Item -> bool)
    requires forall i :: 0 <= i < |xs| ==> keep(xs[i])
    ensures Filter(xs, keep) == xs
    decreases |xs|
  {
    if |xs| > 0 {
      FilterAll(xs[1..], keep);
      assert [xs[0]] + xs[1..] == xs;
    }
  }

  /**
   `clear_results` (app.py:3703-3719): "notify" drops the notification
   results, "tweet" keeps only them, anything else drops everything.
   */
  function ClearResults(pending: seq<Item>, kind: string): (r: seq<Item>)
    ensures kind == "notify" ==> forall i :: 0 <= i < |r| ==> r[i].source != NotifySource
    ensures kind == "tweet" ==> forall i :: 0 <= i < |r| ==> r[i].source == NotifySource
    ensures kind != "notify" && kind != "tweet" ==> r == []
    ensures forall i :: 0 <= i < |r| ==> r[i] in pending
  {
    if kind == "notify" then Filter(pending, (x: Item) => x.source != NotifySource)
    else if kind == "tweet" then Filter(pending, (x: Item) => x.source == NotifySource)
    else []
  }

  /**
   Clearing the notification results and clearing the tweet results split the
   list between them: together they hold every result exactly once, and
   clearing both leaves nothing.
   */
  lemma ClearPartitions(pending: seq<Item>)
    ensures multiset(ClearResults(pending, "notify")) + multiset(ClearResults(pending, "tweet")) == multiset(pending)
    ensures ClearResults(ClearResults(pending, "notify"), "tweet") == []
  {
    var isNotify := (x: Item) => x.source == NotifySource;
    var notNotify := (x: Item) => x.source != NotifySource;
    FilterSplits(pending, notNotify, isNotify);
    var kept := ClearResults(pending, "notify");
    FilterNone(kept, isNotify);
  }

  /** `clear_results` keeps the surviving results in their original order. */
  lemma ClearKeepsOrder(pending: seq<Item>, kind: string) returns (idx: seq<nat>)
    ensures PicksOut(idx, ClearResults(pending, kind), pending)
  {
    if kind == "notify" {
      idx := FilterOrder(pending, (x: Item) => x.source != NotifySource);
    } else if kind == "tweet" {
      idx := FilterOrder(pending, (x: Item) => x.source == NotifySource);
    } else {
      idx := [];
    }
  }

  /** A filter that accepts nothing leaves nothing. */
  lemma {:induction false} FilterNone(xs: seq<Item>, keep: Item -> bool)
    requires forall i :: 0 <= i < |xs| ==> !keep(xs[i])
    ensures Filter(xs, keep) == []
    decreases |xs|
  {
    if |xs| > 0 {
      FilterNone(xs[1..], keep);
    }
  }
}

=== FILE: scheduling.dfy ===
/**
 Scan scheduling: how many tweet tasks run at once (app.py:751-757), how the
 shuffled task queue is cut into batches (app.py:434-443), and the chunked
 shuffle of notification cards (app.py:760-779). Random choices are
 nondeterministic choices within the bounds the code gives them.
 */
module Scheduling {

  const TaskParallelMin: int := 2
  const TaskParallelMax: int := 5
  const ReorderChunkMin: int := 3
  const ReorderChunkMax: int := 7

  function Min(a: int, b: int): int { if a <= b then a else b }
  function Max(a: int, b: int): int { if a >= b then a else b }

  /**
   `get_random_task_parallel` (app.py:751-757): one task at a time for at most
   one task, otherwise a random width between 2 and 5, never more than the
   number of tasks.
   */
  method TaskParallel(taskCount: int) returns (p: int)
    ensures taskCount <= 1 ==> p == 1
    ensures taskCount > 1 ==> TaskParallelMin <= p <= Min(TaskParallelMax, taskCount)
    ensures 1 <= p && (taskCount >= 1 ==> p <= taskCount)
  {
    if taskCount <= 1 {
      return 1;
    }
    var low := Max(1, Min(TaskParallelMin, taskCount));
    var high := Max(low, Min(TaskParallelMax, taskCount));
    p :| low <= p <= high;
  }

  // ---------------------------------------------------------------------
  // Batches
  // ---------------------------------------------------------------------

  function Flatten<T>(bs: seq<seq<T>>): seq<T>
    decreases |bs|
  {
    if |bs| == 0 then [] else bs[0] + Flatten(bs[1..])
  }

  /**
   `for start_idx in range(0, len(task_queue), parallel_limit)` with
   `batch = task_queue[start_idx: start_idx + parallel_limit]`
   (app.py:440-443): the batches, in order, make up the whole queue; every
   batch holds `width` tasks except possibly the last, which is never empty.
   */
  function Batches<T>(queue: seq<T>, width: nat): (bs: seq<seq<T>>)
    requires width >= 1
    ensures Flatten(bs) == queue
    ensures forall k :: 0 <= k < |bs| ==> 0 < |bs[k]| <= width
    ensures forall k :: 0 <= k < |bs| - 1 ==> |bs[k]| == width
    ensures (|bs| - 1) * width < |queue| <= |bs| * width
    decreases |queue|
  {
    if |queue| == 0 then []
    else if |queue| <= width then [queue]
    else
      var rest := Batches(queue[width..], width);
      var bs := [queue[..width]] + rest;
      assert bs[1..] == rest;
      assert queue[..width] + queue[width..] == queue;
      BatchCountStep(|rest|, width, |queue| - width);
      bs
  }

  /** One more full batch adds `width` to both bounds on the queue length. */
  lemma BatchCountStep(n: int, width: int, restLen: int)
    requires (n - 1) * width < restLen <= n * width
    ensures n * width < restLen + width <= (n + 1) * width
  {
    assert (n + 1) * width == n * width + width;
    assert (n - 1) * width == n * width - width;
  }

  // ---------------------------------------------------------------------
  // Chunked shuffle
  // ---------------------------------------------------------------------

  /**
   `sizes` cuts `a` into consecutive chunks of 1 to `ReorderChunkMax`
   elements, every chunk but the last at least `ReorderChunkMin` long, and
   each chunk of `r` is a rearrangement of the same chunk of `a`.
   */
  predicate ChunkShuffle<T(==)>(a: seq<T>, r: seq<T>, sizes: seq<nat>)
    decreases |sizes|
  {
    if |sizes| == 0 then |a| == 0 && |r| == 0
    else
      var n := sizes[0];
      && 1 <= n <= ReorderChunkMax
      && (|sizes| > 1 ==> n >= ReorderChunkMin)
      && n <= |a| && n <= |r|
      && multiset(r[..n]) == multiset(a[..n])
      && ChunkShuffle(a[n..], r[n..], sizes[1..])
  }

  /** Chunk-wise rearrangement is a rearrangement of the whole sequence, of the same length. */
  lemma {:induction false} ChunkShuffleIsPermutation<T>(a: seq<T>, r: seq<T>, sizes: seq<nat>)
    requires ChunkShuffle(a, r, sizes)
    ensures multiset(r) == multiset(a) && |r| == |a|
    decreases |sizes|
  {
    if |sizes| > 0 {
      var n := sizes[0];
      ChunkShuffleIsPermutation(a[n..], r[n..], sizes[1..]);
      assert a == a[..n] + a[n..];
      assert r == r[..n] + r[n..];
    }
  }

  /**
   `reorder_articles_for_scan` (app.py:760-779): walk the cards in chunks of a
   random size between 3 and 7 and, with probability 3/4, shuffle a chunk of
   more than one card. The chunk sizes are returned with the result.
   */
  method Reorder<T(==)>(articles: seq<T>) returns (r: seq<T>, sizes: seq<nat>)
    ensures ChunkShuffle(articles, r, sizes)
    ensures |sizes| == 0 <==> |articles| == 0
    decreases |articles|
  {
    if |articles| == 0 {
      return [], [];
    }
    var size :| ReorderChunkMin <= size <= ReorderChunkMax;
    var end := Min(size, |articles|);
    var chunk := articles[..end];
    var shuffled := chunk;
    var shuffle: bool :| true;
    if |chunk| > 1 && shuffle {
      shuffled :| multiset(shuffled) == multiset(chunk);
    }
    var rest, restSizes := Reorder(articles[end..]);
    r := shuffled + rest;
    sizes := [end] + restSizes;
    assert r[..end] == shuffled && r[end..] == rest;
    assert sizes[1..] == restSizes;
  }
}

=== FILE: templates.dfy ===
/**
 Reply and direct-message templates: the clean-up applied when templates are
 loaded (`_sanitize_template_list`, app.py:692-705) and the add, update and
 delete rules of the template endpoints (app.py:3771-3851).
 */
module Templates {
  import opened Text
  import opened Outcome

  const DefaultReplyTemplates: seq<string> := [
    "老板我给您私信了",
    "老板 我私信您了",
    "大佬我私信您了",
    "大佬 我给您私信了",
    "大佬 我给您私信介绍了"]

  const DmFollowupText: string :=
    "老板您好，我是 懒猫微服 CEO 王勇，感谢您的关注与支持。\n"
    + "如需了解更详细的产品资料，欢迎添加我们的工程师微信 17612774028，"
    + "我们将为您提供一对一的专业介绍与支持，工程师告诉您购买方式~\n"
    + "备注推特ID给您优惠。"

  const DefaultDmTemplates: seq<string> := [DmFollowupText]

  const ReplyMaxLen: nat := 180
  const DmMaxLen: nat := 4000

  /** No two entries are equal. */
  predicate Distinct(l: seq<string>)
  {
    forall i, j :: 0 <= i < j < |l| ==> l[i] != l[j]
  }

  /** Non-empty, with no whitespace at either end: what `strip()` leaves of a non-blank text. */
  predicate Trimmed(t: string)
  {
    |t| > 0 && !IsSpace(t[0]) && !IsSpace(t[|t| - 1])
  }

  /** A clean template list: trimmed entries, none repeated. */
  predicate Clean(l: seq<string>)
  {
    Distinct(l) && forall i :: 0 <= i < |l| ==> Trimmed(l[i])
  }

  // ---------------------------------------------------------------------
  // Sanitising
  // ---------------------------------------------------------------------

  /** `str(item or "").strip()` on every entry. */
  function StripAll(raw: seq<string>): (ts: seq<string>)
    ensures |ts| == |raw|
    ensures forall i :: 0 <= i < |raw| ==> ts[i] == Strip(raw[i])
    ensures forall i :: 0 <= i < |raw| ==> |ts[i]| == 0 || Trimmed(ts[i])
  {
    var ts := seq(|raw|, i requires 0 <= i < |raw| => Strip(raw[i]));
    StrippedAllTrimmed(raw, ts);
    ts
  }

  lemma StrippedAllTrimmed(raw: seq<string>, ts: seq<string>)
    requires |ts| == |raw| && forall i :: 0 <= i < |raw| ==> ts[i] == Strip(raw[i])
    ensures forall i :: 0 <= i < |raw| ==> |ts[i]| == 0 || Trimmed(ts[i])
  {
    forall i | 0 <= i < |raw| && |ts[i]| > 0 ensures Trimmed(ts[i]) {
      StrippedTrimmed(raw[i]);
    }
  }

  /**
   The loop of `_sanitize_template_list` over the stripped entries: keep an
   entry unless it is blank or already kept. `acc` is the list kept so far,
   which is also the loop's `seen` set.
   */
  function CleanFrom(ts: seq<string>, acc: seq<string>): (r: seq<string>)
    decreases |ts|
  {
    if |ts| == 0 then acc
    else if |ts[0]| == 0 || ts[0] in acc then CleanFrom(ts[1..], acc)
    else CleanFrom(ts[1..], acc + [ts[0]])
  }

  /**
   `_sanitize_template_list` (app.py:692-705): the cleaned entries, or the
   fallback when the stored value is not a list (`None` here) or nothing
   survives the clean-up.
   */
  function Sanitize(raw: Option<seq<string>>, fallback: seq<string>): (r: seq<string>)
    ensures raw.None? ==> r == fallback
    ensures raw.Some? && |CleanFrom(StripAll(raw.value), [])| > 0 ==> r == CleanFrom(StripAll(raw.value), [])
    ensures |r| == 0 ==> r == fallback
    ensures raw.Some? && (exists m :: 0 <= m < |raw.value| && |Strip(raw.value[m])| > 0) ==>
      && r == FirstOccurrences(StripAll(raw.value))
      && Clean(r)
      && forall x :: x in r <==> |x| > 0 && exists m :: 0 <= m < |raw.value| && Strip(raw.value[m]) == x
    ensures raw.Some? && (forall m :: 0 <= m < |raw.value| ==> |Strip(raw.value[m])| == 0) ==> r == fallback
  {
    if raw.Some? then
      SanitizeSpec(raw.value);
      SanitizeSurvivors(raw.value);
      var cleaned := CleanFrom(StripAll(raw.value), []);
      if |cleaned| > 0 then cleaned else fallback
    else fallback
  }

  /** Something survives the clean-up exactly when some entry is not blank. */
  lemma SanitizeSurvivors(raw: seq<string>)
    ensures |CleanFrom(StripAll(raw), [])| > 0 <==> exists m :: 0 <= m < |raw| && |Strip(raw[m])| > 0
  {
    var c := CleanFrom(StripAll(raw), []);
    SanitizeSpec(raw);
    if |c| > 0 {
      assert c[0] in c;
    }
    forall m | 0 <= m < |raw| && |Strip(raw[m])| > 0
      ensures |c| > 0
    {
      assert Strip(raw[m]) in c;
    }
  }

  /** Position `k` holds the first occurrence of a non-blank entry. */
  predicate FirstOccurrence(ts: seq<string>, k: nat)
    requires k < |ts|
  {
    |ts[k]| > 0 && forall m :: 0 <= m < k ==> ts[m] != ts[k]
  }

  /** Reference definition: the first occurrences of the non-blank entries, in order. */
  function FirstOccurrences(ts: seq<string>): seq<string>
    decreases |ts|
  {
    if |ts| == 0 then []
    else
      var init := ts[..|ts| - 1];
      FirstOccurrences(init) + (if FirstOccurrence(ts, |ts| - 1) then [ts[|ts| - 1]] else [])
  }

  /** What the reference list holds: every non-blank entry, and nothing else. */
  lemma {:induction false} FirstOccurrencesHold(ts: seq<string>)
    ensures forall x :: x in FirstOccurrences(ts) <==> |x| > 0 && x in ts
    decreases |ts|
  {
    if |ts| > 0 {
      var init := ts[..|ts| - 1];
      var last := ts[|ts| - 1];
      FirstOccurrencesHold(init);
      assert ts == init + [last];
      assert FirstOccurrence(ts, |ts| - 1) <==> |last| > 0 && last !in init by {
        if last in init {
          var m :| 0 <= m < |init| && init[m] == last;
          assert ts[m] == last;
        }
      }
    }
  }

  /** The loop computes the reference list: one step of the loop appends what the reference appends. */
  lemma {:induction false} CleanFromIsFirstOccurrences(ts: seq<string>, k: nat)
    requires k <= |ts|
    ensures CleanFrom(ts[k..], FirstOccurrences(ts[..k])) == FirstOccurrences(ts)
    decreases |ts| - k
  {
    if k == |ts| {
      assert ts[..k] == ts;
    } else {
      var pre := ts[..k];
      var next := ts[..k + 1];
      assert next[..k] == pre && next[k] == ts[k];
      assert ts[k..][1..] == ts[k + 1..] && ts[k..][0] == ts[k];
      FirstOccurrencesHold(pre);
      assert FirstOccurrence(next, k) <==> |ts[k]| > 0 && ts[k] !in pre by {
        if ts[k] in pre {
          var m :| 0 <= m < |pre| && pre[m] == ts[k];
          assert next[m] == ts[k];
        }
      }
      var fp := FirstOccurrences(pre);
      assert FirstOccurrences(next) == fp + (if FirstOccurrence(next, k) then [ts[k]] else []);
      assert CleanFrom(ts[k..], fp) == if |ts[k]| == 0 || ts[k] in fp then CleanFrom(ts[k + 1..], fp)
                                       else CleanFrom(ts[k + 1..], fp + [ts[k]]);
      CleanFromIsFirstOccurrences(ts, k + 1);
      if FirstOccurrence(next, k) {
        assert ts[k] !in fp;
        assert CleanFrom(ts[k..], fp) == CleanFrom(ts[k + 1..], FirstOccurrences(next));
      } else {
        assert |ts[k]| == 0 || ts[k] in fp;
        assert FirstOccurrences(next) == fp + [] == fp;
        assert CleanFrom(ts[k..], fp) == CleanFrom(ts[k + 1..], FirstOccurrences(next));
      }
    }
  }

  /** The reference list is clean when the entries are blank or trimmed. */
  lemma {:induction false} FirstOccurrencesClean(ts: seq<string>)
    requires forall i :: 0 <= i < |ts| ==> |ts[i]| == 0 || Trimmed(ts[i])
    ensures Clean(FirstOccurrences(ts))
    decreases |ts|
  {
    if |ts| > 0 {
      var init := ts[..|ts| - 1];
      FirstOccurrencesClean(init);
      FirstOccurrencesHold(init);
      var k := |ts| - 1;
      if FirstOccurrence(ts, k) {
        assert ts[k] !in init;
        var r := FirstOccurrences(init) + [ts[k]];
        assert forall i :: 0 <= i < |r| - 1 ==> r[i] == FirstOccurrences(init)[i];
      }
    }
  }

  /**
   The cleaned list holds, in the order of their first occurrence, the
   stripped non-blank entries, each once: it is clean, and it is exactly the
   reference list of first occurrences.
   */
  lemma SanitizeSpec(raw: seq<string>)
    ensures CleanFrom(StripAll(raw), []) == FirstOccurrences(StripAll(raw))
    ensures Clean(CleanFrom(StripAll(raw), []))
    ensures forall x :: x in CleanFrom(StripAll(raw), []) <==> |x| > 0 && exists m :: 0 <= m < |raw| && Strip(raw[m]) == x
  {
    var ts := StripAll(raw);
    CleanFromIsFirstOccurrences(ts, 0);
    assert ts[0..] == ts && ts[..0] == [];
    FirstOccurrencesClean(ts);
    FirstOccurrencesHold(ts);
  }

  /** Cleaning a clean list changes nothing. */
  lemma {:induction false} CleanFromClean(l: seq<string>, acc: seq<string>)
    requires Clean(acc + l)
    ensures CleanFrom(l, acc) == acc + l
    decreases |l|
  {
    if |l| > 0 {
      var all := acc + l;
      assert all[|acc|] == l[0];
      assert l[0] !in acc by {
        forall i | 0 <= i < |acc| ensures acc[i] != l[0] {
          assert all[i] == acc[i];
        }
      }
      assert acc + [l[0]] + l[1..] == all;
      CleanFromClean(l[1..], acc + [l[0]]);
    } else {
      assert acc + l == acc;
    }
  }

  /** Stripping a clean list changes nothing. */
  lemma StripAllClean(l: seq<string>)
    requires Clean(l)
    ensures StripAll(l) == l
  {
    forall i | 0 <= i < |l| ensures Strip(l[i]) == l[i] {
      StripIdentity(l[i]);
    }
  }

  /** Sanitising is idempotent, given a clean fallback (as both defaults are). */
  lemma SanitizeIdempotent(raw: Option<seq<string>>, fallback: seq<string>)
    requires Clean(fallback)
    ensures Sanitize(Some(Sanitize(raw, fallback)), fallback) == Sanitize(raw, fallback)
  {
    var r := Sanitize(raw, fallback);
    if raw.Some? && |CleanFrom(StripAll(raw.value), [])| > 0 {
      SanitizeSpec(raw.value);
    }
    StripAllClean(r);
    assert [] + r == r;
    CleanFromClean(r, []);
  }

  lemma DefaultsClean()
    ensures Clean(DefaultReplyTemplates) && Clean(DefaultDmTemplates)
  {
    DefaultReplyClean();
    DefaultDmClean();
  }

  lemma DefaultReplyClean()
    ensures Clean(DefaultReplyTemplates)
  {
    var l := DefaultReplyTemplates;
    assert |l[0]| == 8 && |l[1]| == 8 && |l[2]| == 7 && |l[3]| == 9 && |l[4]| == 11;
    assert l[0][2] != l[1][2];
  }

  lemma DefaultDmClean()
    ensures Clean(DefaultDmTemplates)
  {
    var t := DmFollowupText;
    assert t[0] == '老' && t[|t| - 1] == '。';
  }

  // ---------------------------------------------------------------------
  // Add, update, delete
  // ---------------------------------------------------------------------

  /** The two template lists the endpoints edit. */
  datatype TemplateStore = TemplateStore(reply: seq<string>, dm: seq<string>)

  /** `str(type).strip().lower()`. */
  function KindOf(raw: string): string
  {
    Lower(Strip(raw))
  }

  predicate KnownKind(kind: string)
  {
    kind == "reply" || kind == "dm"
  }

  /** `_get_template_list_and_limit` (app.py:708-714). */
  function ListOf(st: TemplateStore, kind: string): seq<string>
  {
    if kind == "reply" then st.reply else st.dm
  }

  function MaxLenOf(kind: string): nat
  {
    if kind == "reply" then ReplyMaxLen else DmMaxLen
  }

  function WithList(st: TemplateStore, kind: string, l: seq<string>): (r: TemplateStore)
    ensures ListOf(r, kind) == l
    ensures kind == "reply" ==> r.dm == st.dm
    ensures kind != "reply" ==> r.reply == st.reply
  {
    if kind == "reply" then st.(reply := l) else st.(dm := l)
  }

  function TooLong(kind: string): string
  {
    "content too long (max " + (if kind == "reply" then "180" else "4000") + ")"
  }

  const Duplicate: string := "模板已存在"

  /** The checks shared by add and update: a known kind and non-blank content within the limit. */
  function CheckContent(kind: string, content: string): (r: Option<Result<TemplateStore>>)
    ensures r.None? <==> KnownKind(kind) && 0 < |content| <= MaxLenOf(kind)
    ensures r.Some? ==> r.value.Err? && r.value.status == 400
  {
    if !KnownKind(kind) then Some(Err("invalid template type", 400))
    else if |content| == 0 then Some(Err("missing content", 400))
    else if |content| > MaxLenOf(kind) then Some(Err(TooLong(kind), 400))
    else None
  }

  /**
   `template_add` (app.py:3771-3793): append the stripped content to the
   list of its kind, refusing an unknown kind, blank or over-long content
   (400) and content already in the list (409).
   */
  function Add(st: TemplateStore, rawKind: string, rawContent: string): (r: Result<TemplateStore>)
    ensures var kind := KindOf(rawKind); var c := Strip(rawContent);
      && (r.Ok? <==> KnownKind(kind) && 0 < |c| <= MaxLenOf(kind) && c !in ListOf(st, kind))
      && (r.Ok? ==> r.value == WithList(st, kind, ListOf(st, kind) + [c]))
      && (r.Err? ==> r.status == (if KnownKind(kind) && 0 < |c| <= MaxLenOf(kind) then 409 else 400))
  {
    var kind := KindOf(rawKind);
    var c := Strip(rawContent);
    var check := CheckContent(kind, c);
    if check.Some? then check.value
    else if c in ListOf(st, kind) then Err(Duplicate, 409)
    else Ok(WithList(st, kind, ListOf(st, kind) + [c]))
  }

  /**
   `template_update` (app.py:3797-3824): replace the entry at `index`
   (`None` when the index does not parse as an integer), refusing an index out
   of range (400) and content that another entry already holds (409).
   */
  function Update(st: TemplateStore, rawKind: string, rawContent: string, index: Option<int>): (r: Result<TemplateStore>)
    ensures var kind := KindOf(rawKind); var c := Strip(rawContent); var l := ListOf(st, kind);
      && (r.Ok? <==> KnownKind(kind) && 0 < |c| <= MaxLenOf(kind) && index.Some? && 0 <= index.value < |l|
                     && (c in l ==> l[index.value] == c))
      && (r.Ok? ==> r.value == WithList(st, kind, l[index.value := c]))
  {
    var kind := KindOf(rawKind);
    var c := Strip(rawContent);
    var l := ListOf(st, kind);
    var check := CheckContent(kind, c);
    if check.Some? then check.value
    else if index.None? then Err("invalid index", 400)
    else if index.value < 0 || index.value >= |l| then Err("index out of range", 400)
    else if c in l && l[index.value] != c then Err(Duplicate, 409)
    else Ok(WithList(st, kind, l[index.value := c]))
  }

  /**
   `template_delete` (app.py:3828-3851): remove the entry at `index`; a list
   left empty is refilled with the defaults of its kind.
   */
  function Delete(st: TemplateStore, rawKind: string, index: Option<int>): (r: Result<TemplateStore>)
    ensures var kind := KindOf(rawKind); var l := ListOf(st, kind);
      && (r.Ok? <==> KnownKind(kind) && index.Some? && 0 <= index.value < |l|)
      && (r.Ok? && |l| > 1 ==> r.value == WithList(st, kind, l[..index.value] + l[index.value + 1..]))
      && (r.Ok? && |l| == 1 ==> r.value == WithList(st, kind, if kind == "reply" then DefaultReplyTemplates else DefaultDmTemplates))
  {
    var kind := KindOf(rawKind);
    var l := ListOf(st, kind);
    if !KnownKind(kind) then Err("invalid template type", 400)
    else if index.None? then Err("invalid index", 400)
    else if index.value < 0 || index.value >= |l| then Err("index out of range", 400)
    else
      var rest := l[..index.value] + l[index.value + 1..];
      var fallback := if kind == "reply" then DefaultReplyTemplates else DefaultDmTemplates;
      Ok(WithList(st, kind, if |rest| == 0 then fallback else rest))
  }

  // ---------------------------------------------------------------------
  // What the edits preserve
  // ---------------------------------------------------------------------

  /** Both lists are non-empty and clean: what loading establishes. */
  predicate StoreClean(st: TemplateStore)
  {
    Clean(st.reply) && Clean(st.dm) && |st.reply| > 0 && |st.dm| > 0
  }

  /** Replacing one list of a clean store by a clean non-empty list keeps the store clean. */
  lemma WithListClean(st: TemplateStore, kind: string, l: seq<string>)
    requires StoreClean(st) && Clean(l) && |l| > 0
    ensures StoreClean(WithList(st, kind, l))
  {
  }

  lemma AppendClean(l: seq<string>, c: string)
    requires Clean(l) && Trimmed(c) && c !in l
    ensures Clean(l + [c])
  {
    var l' := l + [c];
    assert forall i :: 0 <= i < |l| ==> l'[i] == l[i];
  }

  lemma ReplaceClean(l: seq<string>, i: nat, c: string)
    requires Clean(l) && i < |l| && Trimmed(c) && (c in l ==> l[i] == c)
    ensures Clean(l[i := c])
  {
    var l' := l[i := c];
    forall a, b | 0 <= a < b < |l'| ensures l'[a] != l'[b] {
      if a != i && b != i {
        assert l'[a] == l[a] && l'[b] == l[b];
      }
    }
  }

  /** The stripped content the endpoints accept is trimmed. */
  lemma StrippedTrimmed(raw: string)
    requires |Strip(raw)| > 0
    ensures Trimmed(Strip(raw))
  {
  }

  /** Add, update and delete keep both lists non-empty and clean. */
  lemma AddKeepsClean(st: TemplateStore, rawKind: string, rawContent: string)
    requires StoreClean(st) && Add(st, rawKind, rawContent).Ok?
    ensures StoreClean(Add(st, rawKind, rawContent).value)
  {
    var kind := KindOf(rawKind);
    var c := Strip(rawContent);
    var l := ListOf(st, kind);
    StrippedTrimmed(rawContent);
    AppendClean(l, c);
    WithListClean(st, kind, l + [c]);
  }

  lemma UpdateKeepsClean(st: TemplateStore, rawKind: string, rawContent: string, index: Option<int>)
    requires StoreClean(st) && Update(st, rawKind, rawContent, index).Ok?
    ensures StoreClean(Update(st, rawKind, rawContent, index).value)
  {
    var kind := KindOf(rawKind);
    var c := Strip(rawContent);
    var l := ListOf(st, kind);
    StrippedTrimmed(rawContent);
    ReplaceClean(l, index.value, c);
    WithListClean(st, kind, l[index.value := c]);
  }

  /** A delete never leaves a list empty. */
  lemma DeleteKeepsClean(st: TemplateStore, rawKind: string, index: Option<int>)
    requires StoreClean(st) && Delete(st, rawKind, index).Ok?
    ensures StoreClean(Delete(st, rawKind, index).value)
  {
    var kind := KindOf(rawKind);
    var l := ListOf(st, kind);
    var r := Delete(st, rawKind, index);
    if |l| > 1 {
      var rest := l[..index.value] + l[index.value + 1..];
      RemoveClean(l, index.value);
      WithListClean(st, kind, rest);
      assert r.value == WithList(st, kind, rest);
    } else {
      var fallback := if kind == "reply" then DefaultReplyTemplates else DefaultDmTemplates;
      DefaultsClean();
      WithListClean(st, kind, fallback);
      assert r.value == WithList(st, kind, fallback);
    }
  }

  /** Deleting what was just added gives the lists back. */
  lemma AddThenDelete(st: TemplateStore, rawKind: string, rawContent: string)
    requires Add(st, rawKind, rawContent).Ok? && |ListOf(st, KindOf(rawKind))| > 0
    ensures Delete(Add(st, rawKind, rawContent).value, rawKind, Some(|ListOf(st, KindOf(rawKind))|)) == Ok(st)
  {
    var kind := KindOf(rawKind);
    var l := ListOf(st, kind);
    var l' := l + [Strip(rawContent)];
    assert l'[..|l|] + l'[|l| + 1..] == l;
  }

  lemma RemoveClean(l: seq<string>, i: nat)
    requires Clean(l) && i < |l|
    ensures Clean(l[..i] + l[i + 1..]) && |l[..i] + l[i + 1..]| == |l| - 1
  {
    var rest := l[..i] + l[i + 1..];
    assert forall k :: 0 <= k < |rest| ==> rest[k] == (if k < i then l[k] else l[k + 1]);
  }
}

=== FILE: text.dfy ===
/**
 String primitives shared by the whole model.

 Strings are `seq<char>` of Unicode scalar values, so `|s|` is Python's `len`.
 Whitespace is Python's `str.isspace` set, which is also what `\s` matches in a
 `str` regular expression and what `str.strip()` removes. Lower-casing and the
 digit class are ASCII only (see the README).
 */
module Text {

  /** Python's `str.isspace()` (and the regex class `\s` on `str` patterns). */
  predicate IsSpace(c: char)
  {
    var n := c as int;
    || (0x09 <= n <= 0x0D) || (0x1C <= n <= 0x20) || n == 0x85 || n == 0xA0
    || n == 0x1680 || (0x2000 <= n <= 0x200A) || n == 0x2028 || n == 0x2029
    || n == 0x202F || n == 0x205F || n == 0x3000
  }

  predicate IsUpper(c: char)
  {
    'A' <= c <= 'Z'
  }

  predicate IsDigit(c: char)
  {
    '0' <= c <= '9'
  }

  /** Python's regex class `\w` (letters of the Latin alphabet and of the CJK block, digits, `_`). */
  predicate IsWordChar(c: char)
  {
    ('a' <= c <= 'z') || IsUpper(c) || IsDigit(c) || c == '_' || (0x4E00 <= c as int <= 0x9FFF)
  }

  /** A non-empty run of decimal digits: what `\d+` matches in full. */
  predicate IsDigits(s: string)
  {
    |s| > 0 && forall i :: 0 <= i < |s| ==> IsDigit(s[i])
  }

  predicate SpaceFree(s: string)
  {
    forall i :: 0 <= i < |s| ==> !IsSpace(s[i])
  }

  predicate NoUpper(s: string)
  {
    forall i :: 0 <= i < |s| ==> !IsUpper(s[i])
  }

  function LowerChar(c: char): (r: char)
    ensures !IsUpper(r)
    ensures IsSpace(r) <==> IsSpace(c)
    ensures !IsUpper(c) ==> r == c
  {
    if IsUpper(c) then (c as int + 32) as char else c
  }

  /** `str.lower()` restricted to ASCII letters. */
  function Lower(s: string): (r: string)
    ensures |r| == |s|
    ensures NoUpper(r)
    ensures forall i :: 0 <= i < |s| ==> r[i] == LowerChar(s[i])
  {
    seq(|s|, i requires 0 <= i < |s| => LowerChar(s[i]))
  }

  lemma LowerOfLower(s: string)
    requires NoUpper(s)
    ensures Lower(s) == s
  {
  }

  /** Python's `str.lstrip()` with no argument. */
  function LStrip(s: string): (r: string)
    ensures |r| <= |s| && r == s[|s| - |r|..]
    ensures |r| > 0 ==> !IsSpace(r[0])
    ensures |s| > 0 && IsSpace(s[0]) ==> |r| < |s|
  {
    if |s| > 0 && IsSpace(s[0]) then LStrip(s[1..]) else s
  }

  /** Python's `str.rstrip()` with no argument. */
  function RStrip(s: string): (r: string)
    ensures |r| <= |s| && r == s[..|r|]
    ensures |r| > 0 ==> !IsSpace(r[|r| - 1])
  {
    if |s| > 0 && IsSpace(s[|s| - 1]) then RStrip(s[..|s| - 1]) else s
  }

  /** Python's `str.strip()` with no argument. */
  function Strip(s: string): (r: string)
    ensures |r| > 0 ==> !IsSpace(r[0]) && !IsSpace(r[|r| - 1])
    ensures StripStart(s) + |r| <= |s| && r == s[StripStart(s)..StripStart(s) + |r|]
  {
    var l := LStrip(s);
    RStrip(l)
  }

  /** Where `Strip(s)` begins inside `s`. */
  function StripStart(s: string): nat
  {
    |s| - |LStrip(s)|
  }

  /** Python's `str.lstrip(c)`: drop every leading `c`. */
  function LStripChar(s: string, c: char): (r: string)
    ensures |r| <= |s| && r == s[|s| - |r|..]
    ensures |r| > 0 ==> r[0] != c
  {
    if |s| > 0 && s[0] == c then LStripChar(s[1..], c) else s
  }

  /** `re.sub(r'\s+', ' ', s)`: every maximal run of whitespace becomes one space. */
  /// A whitespace character followed by another one is dropped; the last
  /// one of a run becomes `' '`.
  function Collapse(s: string): (r: string)
    decreases |s|
  {
    if |s| == 0 then ""
    else if !IsSpace(s[0]) then [s[0]] + Collapse(s[1..])
    else if |s| > 1 && IsSpace(s[1]) then Collapse(s[1..])
    else " " + Collapse(s[1..])
  }

  /** Every whitespace character is a plain space and no two are adjacent. */
  predicate SingleSpaced(s: string)
  {
    && (forall i :: 0 <= i < |s| && IsSpace(s[i]) ==> s[i] == ' ')
    && (forall i :: 0 <= i < |s| - 1 ==> !(IsSpace(s[i]) && IsSpace(s[i + 1])))
  }

  /** Single-spaced, with no whitespace at either end. */
  predicate SpaceNormal(s: string)
  {
    SingleSpaced(s) && (|s| > 0 ==> !IsSpace(s[0]) && !IsSpace(s[|s| - 1]))
  }

  function StartsWith(s: string, p: string): (r: bool)
    ensures r ==> |p| <= |s|
  {
    |p| <= |s| && s[..|p|] == p
  }

  /** Python's `p in s`. */
  function Contains(s: string, p: string): (r: bool)
    ensures StartsWith(s, p) ==> r
    ensures r ==> |p| <= |s|
    decreases |s|
  {
    StartsWith(s, p) || (|s| > 0 && Contains(s[1..], p))
  }

  /** Python's `any(k in s for k in ks)`. */
  function ContainsAny(s: string, ks: seq<string>): bool
  {
    if |ks| == 0 then false else Contains(s, ks[0]) || ContainsAny(s, ks[1..])
  }

  /** Length of the longest prefix of `s` made of decimal digits. */
  function DigitRunLen(s: string): (n: nat)
    ensures n <= |s|
    ensures forall i :: 0 <= i < n ==> IsDigit(s[i])
    ensures n < |s| ==> !IsDigit(s[n])
  {
    if |s| > 0 && IsDigit(s[0]) then 1 + DigitRunLen(s[1..]) else 0
  }

  /** Value of a string of decimal digits (`int(s)` for ASCII digits; 0 when empty). */
  function DigitsValue(s: string): (v: nat)
    requires forall i :: 0 <= i < |s| ==> IsDigit(s[i])
  {
    if |s| == 0 then 0
    else
      assert IsDigit(s[|s| - 1]);
      DigitsValue(s[..|s| - 1]) * 10 + (s[|s| - 1] as int - '0' as int)
  }

  // ---------------------------------------------------------------------
  // Facts about the whitespace functions
  // ---------------------------------------------------------------------

  lemma {:induction false} CollapseShape(s: string)
    ensures SingleSpaced(Collapse(s))
    ensures |Collapse(s)| > 0 ==> (IsSpace(Collapse(s)[0]) <==> IsSpace(s[0]))
    decreases |s|
  {
    if |s| > 0 {
      var r := Collapse(s);
      var t := Collapse(s[1..]);
      CollapseShape(s[1..]);
      if !IsSpace(s[0]) {
        assert r == [s[0]] + t;
        assert forall k :: 0 < k < |r| ==> r[k] == t[k - 1];
      } else if |s| > 1 && IsSpace(s[1]) {
        assert r == t;
      } else {
        assert r == " " + t;
        assert forall k :: 0 < k < |r| ==> r[k] == t[k - 1];
      }
    }
  }

  lemma {:induction false} CollapseKeepsChars(s: string, i: nat)
    requires i < |Collapse(s)|
    ensures Collapse(s)[i] == ' ' || Collapse(s)[i] in s
    decreases |s|
  {
    var r := Collapse(s);
    var t := Collapse(s[1..]);
    if !IsSpace(s[0]) {
      assert r == [s[0]] + t;
      if i > 0 {
        CollapseKeepsChars(s[1..], i - 1);
        assert r[i] == t[i - 1];
      }
    } else if |s| > 1 && IsSpace(s[1]) {
      CollapseKeepsChars(s[1..], i);
    } else {
      assert r == " " + t;
      if i > 0 {
        CollapseKeepsChars(s[1..], i - 1);
        assert r[i] == t[i - 1];
      }
    }
  }

  lemma SingleSpacedTail(s: string)
    requires |s| > 0 && SingleSpaced(s)
    ensures SingleSpaced(s[1..])
  {
    assert forall i :: 0 <= i < |s| - 1 ==> s[1..][i] == s[i + 1];
  }

  lemma {:induction false} CollapseIdentity(s: string)
    requires SingleSpaced(s)
    ensures Collapse(s) == s
    decreases |s|
  {
    if |s| > 0 {
      SingleSpacedTail(s);
      CollapseIdentity(s[1..]);
      if IsSpace(s[0]) {
        assert |s| == 1 || !IsSpace(s[1]);
        assert s[0] == ' ';
        assert Collapse(s) == " " + s[1..];
      } else {
        assert Collapse(s) == [s[0]] + s[1..];
      }
      assert [s[0]] + s[1..] == s;
    }
  }

  lemma StripIdentity(s: string)
    requires |s| > 0 ==> !IsSpace(s[0]) && !IsSpace(s[|s| - 1])
    ensures Strip(s) == s
  {
  }

  /** Stripping a collapsed string gives a space-normal one. */
  lemma StripCollapseNormal(s: string)
    ensures SpaceNormal(Strip(Collapse(s)))
  {
    CollapseShape(s);
    StripSingleSpaced(Collapse(s));
  }

  /** Stripping a single-spaced string leaves it space-normal. */
  lemma StripSingleSpaced(c: string)
    requires SingleSpaced(c)
    ensures SpaceNormal(Strip(c))
  {
    SingleSpacedSlice(c, StripStart(c), StripStart(c) + |Strip(c)|);
  }

  lemma SingleSpacedSlice(s: string, a: nat, b: nat)
    requires a <= b <= |s| && SingleSpaced(s)
    ensures SingleSpaced(s[a..b])
  {
    var w := s[a..b];
    assert forall i :: 0 <= i < |w| ==> w[i] == s[a + i];
  }

  lemma SpaceNormalFixed(s: string)
    requires SpaceNormal(s)
    ensures Strip(Collapse(s)) == s
  {
    CollapseIdentity(s);
    StripIdentity(s);
  }

  lemma SpaceNormalLower(s: string)
    requires SpaceNormal(s)
    ensures SpaceNormal(Lower(s))
  {
  }

  /** A space-free prefix of `Collapse(s)` is a prefix of `s`. */
  lemma {:induction false} CollapsePrefix(s: string, n: nat)
    requires n <= |Collapse(s)| && SpaceFree(Collapse(s)[..n])
    ensures n <= |s| && s[..n] == Collapse(s)[..n]
    decreases |s|
  {
    if n > 0 {
      SpaceFreeHead(Collapse(s), n);
      CollapseShape(s);
      SpaceFreeConsPrefix(s, Collapse(s), Collapse(s[1..]), n);
      CollapsePrefix(s[1..], n - 1);
    }
  }

  /** Every space-free window of `Collapse(s)` is a window of `s`. */
  lemma {:induction false} CollapseWindow(s: string, i: nat, n: nat) returns (j: nat)
    requires i + n <= |Collapse(s)| && SpaceFree(Collapse(s)[i..i + n])
    ensures j + n <= |s| && s[j..j + n] == Collapse(s)[i..i + n]
    decreases |s|
  {
    if i == 0 {
      CollapsePrefixWindow(s, n);
      j := 0;
    } else {
      var i' := CollapseTailWindow(s, i, n);
      var j' := CollapseWindow(s[1..], i', n);
      j := 1 + j';
      SuffixWindowChain(s, 1, j', n, Collapse(s), Collapse(s[1..]), i, i');
    }
  }

  lemma CollapsePrefixWindow(s: string, n: nat)
    requires n <= |Collapse(s)| && SpaceFree(Collapse(s)[0..n])
    ensures n <= |s| && s[0..n] == Collapse(s)[0..n]
  {
    var r := Collapse(s);
    assert r[..n] == r[0..n];
    CollapsePrefix(s, n);
    assert s[..n] == s[0..n];
  }

  /**
   Past the first character, a window of `Collapse(s)` away from the front is
   window `i'` of `Collapse(s[1..])`: the same position, when `s[0]` was a
   space that a following space absorbed, else one position earlier.
   */
  lemma CollapseTailWindow(s: string, i: nat, n: nat) returns (i': nat)
    requires 0 < i && i + n <= |Collapse(s)| && SpaceFree(Collapse(s)[i..i + n])
    ensures |s| > 0 && i' + n <= |Collapse(s[1..])|
    ensures Collapse(s[1..])[i'..i' + n] == Collapse(s)[i..i + n]
    ensures SpaceFree(Collapse(s[1..])[i'..i' + n])
  {
    var drop := CollapseStep(s);
    i' := TailWindow(Collapse(s), Collapse(s[1..]), drop, i, n);
  }

  /** One step of `Collapse`: it either drops `s[0]` or emits one character in front of the rest. */
  lemma CollapseStep(s: string) returns (drop: bool)
    requires |Collapse(s)| > 0
    ensures |s| > 0
    ensures drop ==> Collapse(s) == Collapse(s[1..])
    ensures !drop ==> Collapse(s) == [Collapse(s)[0]] + Collapse(s[1..])
  {
    drop := IsSpace(s[0]) && |s| > 1 && IsSpace(s[1]);
  }

  /** Window `i` of `r`, which is `t` or one element followed by `t`, as a window of `t`. */
  lemma TailWindow<T>(r: seq<T>, t: seq<T>, drop: bool, i: nat, n: nat) returns (i': nat)
    requires 0 < i && i + n <= |r|
    requires drop ==> r == t
    requires !drop ==> r == [r[0]] + t
    ensures i' + n <= |t| && t[i'..i' + n] == r[i..i + n]
  {
    if drop {
      i' := i;
    } else {
      i' := i - 1;
      ConsWindow(r[0], t, i, n);
    }
  }

  /** Every window of `Strip(s)` is a window of `s`. */
  lemma StripWindow(s: string, i: nat, n: nat) returns (j: nat)
    requires i + n <= |Strip(s)|
    ensures j + n <= |s| && s[j..j + n] == Strip(s)[i..i + n]
  {
    j := StripStart(s) + i;
    SliceWindow(s, StripStart(s), Strip(s), i, n);
  }

  /** A window of a slice of `s` is a window of `s`. */
  lemma SliceWindow<T>(s: seq<T>, a: nat, r: seq<T>, i: nat, n: nat)
    requires a + |r| <= |s| && r == s[a..a + |r|] && i + n <= |r|
    ensures s[a + i..a + i + n] == r[i..i + n]
  {
    var x := s[a + i..a + i + n];
    var y := r[i..i + n];
    assert forall k :: 0 <= k < n ==> x[k] == y[k];
  }

  // ---------------------------------------------------------------------
  // Slices of a sequence with one element in front
  // ---------------------------------------------------------------------

  /**
   A window of the suffix `s[m..]` that equals window `i'` of `u`, itself
   window `i` of `r`, is window `m + j` of `s`.
   */
  lemma SuffixWindowChain<T>(s: seq<T>, m: nat, j: nat, n: nat, r: seq<T>, u: seq<T>, i: nat, i': nat)
    requires m <= |s| && j + n <= |s| - m
    requires i + n <= |r| && i' + n <= |u|
    requires u[i'..i' + n] == r[i..i + n] && s[m..][j..j + n] == u[i'..i' + n]
    ensures m + j + n <= |s| && s[m + j..m + j + n] == r[i..i + n]
  {
    assert s[m + j..m + j + n] == s[m..][j..j + n];
  }

  /** The first character of a non-empty space-free prefix is not a space. */
  lemma SpaceFreeHead(r: string, n: nat)
    requires 0 < n <= |r| && SpaceFree(r[..n])
    ensures !IsSpace(r[0])
  {
    assert r[..n][0] == r[0];
  }

  /**
   When `r` is `s[0]` followed by `t`, a space-free prefix of `r` continues as
   a space-free prefix of `t`, and agreement on the tails gives agreement on
   the whole prefix.
   */
  lemma SpaceFreeConsPrefix(s: string, r: string, t: string, n: nat)
    requires |s| > 0 && r == [s[0]] + t && 0 < n <= |r| && SpaceFree(r[..n])
    ensures n - 1 <= |t| && SpaceFree(t[..n - 1])
    ensures n - 1 <= |s| - 1 && s[1..][..n - 1] == t[..n - 1] ==> s[..n] == r[..n]
  {
    ConsPrefix(s[0], t, n);
    var w := r[..n];
    var q := t[..n - 1];
    assert forall k :: 0 <= k < |q| ==> q[k] == w[k + 1];
    if n - 1 <= |s| - 1 {
      assert s[..n] == [s[0]] + s[1..][..n - 1];
    }
  }

  lemma ConsPrefix<T>(h: T, t: seq<T>, n: nat)
    requires 0 < n <= |t| + 1
    ensures ([h] + t)[..n] == [h] + t[..n - 1]
    ensures ([h] + t)[..n][1..] == t[..n - 1]
  {
  }

  lemma ConsWindow<T>(h: T, t: seq<T>, i: nat, n: nat)
    requires 0 < i && i + n <= |t| + 1
    ensures ([h] + t)[i..i + n] == t[i - 1..i - 1 + n]
    ensures ([h] + t)[i..] == t[i - 1..]
  {
  }

  /** Everything `lstrip` drops is whitespace. */
  lemma {:induction false} LStripSkips(s: string, i: nat)
    requires i < |s| - |LStrip(s)|
    ensures IsSpace(s[i])
    decreases |s|
  {
    if i > 0 {
      LStripSkips(s[1..], i - 1);
    }
  }

  /** Everything `rstrip` drops is whitespace. */
  lemma {:induction false} RStripSkips(s: string, i: nat)
    requires |RStrip(s)| <= i < |s|
    ensures IsSpace(s[i])
    decreases |s|
  {
    if i < |s| - 1 {
      RStripSkips(s[..|s| - 1], i);
    }
  }

  /** Everything `strip` drops, at either end, is whitespace. */
  lemma StripSkips(s: string, i: nat)
    requires i < StripStart(s) || StripStart(s) + |Strip(s)| <= i < |s|
    ensures IsSpace(s[i])
  {
    if i < StripStart(s) {
      LStripSkips(s, i);
    } else {
      var l := LStrip(s);
      RStripSkips(l, i - StripStart(s));
    }
  }
}
